=== FILE: README.md ===
# Fala Doutor in Dafny

A Dafny model of the decision logic of Fala Doutor, a medical-appointment
booking application. It covers three parts.

- **The Mongo backend (`backend/`).**
  - The CPF validator and the sanitisers.
  - The password rule and the input guards of `hashSenha` and `compararSenha`.
  - Bearer-header extraction and the token payloads.
  - The role and ownership gates and the two authentication middlewares.
  - Login and registration.
  - The appointment, doctor and patient controllers.
  - The schema rules of the `Consulta`, `Medico` and `Paciente` models.
  - The append-only audit log.
- **The second backend (`fala-doutor/backend`).**
  - Patient sign-up.
  - Patient and doctor login by e-mail.
  - Its four bearer-token guards.
- **The sign-up forms of both front ends.**
  - The CPF masks, one of them truncating.
  - The phone mask and the CRM digit filter.
  - The bodies the forms submit.

The model is functional throughout.

- **Records.** Records are immutable datatypes (`Doctor`, `Patient`, `Appointment`, `AuditEntry`).
- **Store.** The database is an in-memory `Db` holding one sequence per collection, in insertion order. `created_at` grows with insertion, so `created_at` descending is that order reversed.
- **Controllers.** Every controller is a pure function from a store, a request body and an `Env` to an `Outcome`. The `Env` carries the clock, the next generated id, whether the audit log accepts writes, the bcrypt oracle, the signing keys and the configured token lifetime. The `Outcome` holds the store afterwards and the HTTP reply: a status, a message and data, or the list of validation errors.
- **Request bodies.** A body field is a `Field<T>`: left out (`undefined`), sent as `null`, or given. JavaScript truthiness of strings is stated exactly; a non-empty string is truthy.
- **Validators.** The standalone validators (`validarCPF`, `validarSenha`, `hashSenha`, `sanitizarCPF`) take any JSON scalar, because the source guards against non-strings.
- **Schema validation.** Mongoose schema validation is a validity predicate per model. `create` and `save` validate the whole trimmed record and then apply the unique indexes.
- **Audit log.** Writing the log is `Registrar`, which never fails the caller. Whether the log store accepts writes is a parameter.
- **Masks.** The masks are modelled as the chains of first-match `replace` calls they are. Each chain is then proved equal to a layout stated by the number of digits typed.

Main results:
- **Validators.**
  - `validarCPF` accepts exactly the textbook mod-11 CPFs whose eleven digits are not all equal.
  - It agrees with itself after `sanitizarCPF`.
- **Masks.**
  - Every mask round-trips through "strip non-digits" and is idempotent.
  - The forms' CPF pattern accepts a masked value iff eleven digits were typed.
  - For the truncating mask it is "at least eleven".
- **Login and the guards.**
  - A token issued at login authenticates the same account, kind and role within its lifetime, in both backends.
  - A patient token never passes a doctor guard.
- **Appointments.**
  - Creating and cancelling appointments preserve "at most one active appointment per doctor, date and time".
  - `atualizarConsulta` does not preserve it: `AtualizarBreaksNoDoubleBooking` builds the store that breaks it.
- **Doctor and patient CRUD.**
  - Every create, update and delete keeps the records valid and the unique indexes (`_id`, `cpf`, `crm`) intact.
  - Updates change only the supplied fields.
  - Paging reaches every matching record.
- **Audit log.**
  - The log is append-only.
  - A query answers exactly the matching entries, sorted by timestamp with the newest first, capped.
  - A new entry is the first answer to every query it matches, as long as no entry is stamped later than the clock.

Where the description of the system and its code disagree, the model follows the code, with one exception. The CPF and CRM lookups of `login` and `registro` are written in Sequelize's syntax, `findOne({ where: { cpf } })`, and as written they find no one. The model carries that code as written, and its main login and registration use the lookups evidently meant (see "## Findings"). Elsewhere:
- Login answers distinct 401 messages for an account without a password and for an inactive account. Only an unknown CPF and a wrong password share 'CPF ou senha inválidos'.
- A registration whose record the schema refuses is a 500 and not a 400. This is because the catch of `registro` only recognises Sequelize's error name.
- The appointment listings of a single patient or doctor are sorted by date and time, and only the patient's is descending.

## Model

| member | source | states |
|---|---|---|
| Validation.ValidarCpf | backend/src/middlewares/validationMiddleware.js:32-72 | an accepted value is a non-empty string whose digits are exactly 11, not all the same, with both check digits matching |
| Validation.ValidarCpfIsTextbook | backend/src/middlewares/validationMiddleware.js:32-72 | `validarCPF` on a string accepts exactly the non-empty strings whose digits form a CPF under the textbook mod-11 rule (remainder below 2 gives 0, else 11 minus it), both directions |
| Validation.CheckDigitIsTextbook | backend/src/middlewares/validationMiddleware.js:58-59 | the `(soma * 10) % 11` digit, with 10 mapped to 0, equals the textbook digit for every non-negative sum |
| Validation.RepeatedDigitsRejected | backend/src/middlewares/validationMiddleware.js:45-48 | eleven copies of one digit pass the check-digit arithmetic, and `validarCPF` still rejects them |
| Validation.WeightedSumRepeated | backend/src/middlewares/validationMiddleware.js:55-57 | the weighted sum over a run of one digit is that digit times the sum of the weights |
| Validation.ValidCpfExample | backend/src/middlewares/validationMiddleware.js:32-72 | example: the masked CPF `529.982.247-25` is accepted, worked digit by digit |
| Validation.WrongCheckDigitExample | backend/src/middlewares/validationMiddleware.js:62-69 | example: the same CPF with a wrong second check digit is rejected |
| Validation.Sanitize | backend/src/middlewares/validationMiddleware.js:109-122 | a falsy value gives `''`; a string gives its digits only; a truthy non-string fails, as `.replace` is missing |
| Validation.SanitizeIdempotent | backend/src/middlewares/validationMiddleware.js:109-122 | sanitising a sanitised value changes nothing |
| Validation.ValidarCpfSanitizeInvariant | backend/src/middlewares/validationMiddleware.js:38-112 | `validarCPF(s) == validarCPF(sanitizarCPF(s))` for every string, the empty one included |
| Validation.DateShapeGate | backend/src/middlewares/validationMiddleware.js:79-83 | the gate passes exactly the strings of shape `dddd-dd-dd` |
| HashUtils.ValidarSenha | backend/src/utils/hashUtils.js:57-77 | valid iff the value is truthy and, when it is a string, 6 to 100 characters long; the missing message comes first, then too short, then too long |
| HashUtils.MessageIdentifiesCause | backend/src/utils/hashUtils.js:58-76 | each message is returned for exactly one cause: "obrigatória" iff the value is falsy, "mínimo 6" iff a truthy string is shorter than 6, "muito longa" iff a string is longer than 100, "válida" iff the password is accepted |
| HashUtils.HashSenha | backend/src/utils/hashUtils.js:14-30 | hashing succeeds iff the value is a string of at least 6 characters; falsy or non-string values fail with 'Senha inválida', short ones with the minimum message |
| HashUtils.HashSenhaSkipsMaximum | backend/src/utils/hashUtils.js:20-68 | a 101-character password is hashed although `validarSenha` rejects it |
| HashUtils.ValidPasswordHashes | backend/src/utils/hashUtils.js:14-77 | every password `validarSenha` accepts can be hashed |
| HashUtils.CompararSenha | backend/src/utils/hashUtils.js:38-50 | true only for two non-empty strings that bcrypt matches; false (never an error) otherwise |
| HashUtils.HashThenCompare | backend/src/utils/hashUtils.js:14-50 | a password compares true against its own hash |
| JwtUtils.ExtrairToken | backend/src/utils/jwtUtils.js:97-107 | null for a missing or empty header; the rest after a leading `Bearer `; otherwise the header unchanged |
| JwtUtils.ExtrairBearer | backend/src/utils/jwtUtils.js:102-104 | extracting from `"Bearer " + t` gives back `t` |
| JwtUtils.GerarToken | backend/src/utils/jwtUtils.js:11-43 | fails iff the payload or its id is missing; otherwise copies id and nome, defaults role and tipo to 'medico', sets iat to now and exp to iat plus the configured lifetime, 24 hours when none is configured |
| JwtUtils.VerificarToken | backend/src/utils/jwtUtils.js:51-73 | an empty token gives 'Token não fornecido'; otherwise the first `Bearer ` is removed and verification maps expired to 'Token expirado' and malformed to 'Token inválido' |
| JwtUtils.NoBearerInside | backend/src/utils/jwtUtils.js:58 | removing the first `Bearer ` leaves a space-free token unchanged |
| JwtUtils.VerifySigned | backend/src/utils/jwtUtils.js:34-63 | a token signed by the server verifies to its claims before expiry, with or without the `Bearer ` prefix |
| JwtUtils.VerifyExpired | backend/src/utils/jwtUtils.js:65-67 | a token signed by the server verifies to 'Token expirado' from its expiry on |
| JwtUtils.TokenExpirado | backend/src/utils/jwtUtils.js:114-126 | true when nothing decodes or there is no exp; otherwise `exp < now` |
| JwtUtils.ExpiryBoundary | backend/src/utils/jwtUtils.js:65-126 | at `now == exp` `tokenExpirado` says not expired while `verificarToken` already fails, and both agree elsewhere |
| Roles.VerificarRole | backend/src/middlewares/roleMiddleware.js:11-39 | proceeds iff an identity is attached and its role is in the list; 401 without one, 403 for a role outside the list |
| Roles.ApenasAdmin | backend/src/middlewares/roleMiddleware.js:44 | admits exactly the identities with role 'admin' |
| Roles.ApenasMedicos | backend/src/middlewares/roleMiddleware.js:49 | admits exactly roles 'medico' and 'admin'; a 'paciente' gets 403 |
| Roles.VerificarProprioOuAdmin | backend/src/middlewares/roleMiddleware.js:56-86 | 401 without identity; otherwise proceeds iff the role is 'admin' or the route parameter equals the caller's id, else 403 |
| Roles.AdminPassesEveryGate | backend/src/middlewares/roleMiddleware.js:44-70 | whoever passes `apenasAdmin` passes `apenasMedicos` and the ownership gate for any resource |
| Roles.UnauthenticatedBeforeForbidden | backend/src/middlewares/roleMiddleware.js:15-75 | a gate answers 401 exactly when no identity is attached |
| Roles.VerificarRoleMonotone | backend/src/middlewares/roleMiddleware.js:23 | widening the allowed list never turns a pass into a denial |
| AuthMiddleware.TipoUsuario | backend/src/middlewares/authMiddleware.js:29 | the account kind is the token's `tipo` when truthy, otherwise 'paciente' exactly when the role is 'paciente', otherwise 'medico' |
| AuthMiddleware.PatientIdentity | backend/src/middlewares/authMiddleware.js:50-57 | a patient's attached identity copies the stored id, name, CPF and plan, with role and kind 'paciente' |
| AuthMiddleware.DoctorIdentity | backend/src/middlewares/authMiddleware.js:77-84 | a doctor's attached identity copies the stored id, name, CPF, plan and role, with kind 'medico' |
| AuthMiddleware.Lookup | backend/src/middlewares/authMiddleware.js:32-85 | the token's kind picks the collection; a missing account gives 'Usuário não encontrado', an inactive one 'Usuário inativo', and an identity is returned only for a stored active account |
| AuthMiddleware.TokenFailure | backend/src/middlewares/authMiddleware.js:88-109 | expired and invalid tokens keep their own messages; every other failure reads 'Falha na autenticação' |
| AuthMiddleware.Autenticar | backend/src/middlewares/authMiddleware.js:10-110 | every rejection is 401; no token is rejected before verification; an attached identity is always a stored active account |
| AuthMiddleware.AutenticarOpcional | backend/src/middlewares/authMiddleware.js:117-163 | never rejects; attaches an identity only for a stored active account behind a valid token |
| AuthMiddleware.OpcionalAgreesWithAutenticar | backend/src/middlewares/authMiddleware.js:10-163 | the optional middleware attaches an identity exactly when `autenticar` would, and the same one |
| AuthMiddleware.AttachedRoleIsStored | backend/src/middlewares/authMiddleware.js:32-85 | an attached patient has role 'paciente' and an attached doctor a role from the doctor enum |
| Schema.TimeMinutes | backend/src/models/Consulta.js:29-33 | a well-formed `HH:MM` time is a minute of the day, 0 to 1439 |
| Schema.EmailHasOneAt | backend/src/models/Paciente.js:49-53 | a string matching the e-mail pattern holds exactly one `@` |
| Schema.ParsePlan | backend/src/models/Medico.js:4-40 | a string is accepted as a plan iff it is one of the eight `PLANOS`, and it parses to the plan of that name |
| Schema.PlanNameRoundTrip | backend/src/models/Medico.js:4 | parsing a plan's name gives the plan back |
| Schema.ParseDoctorRole | backend/src/models/Medico.js:45-49 | only 'medico' and 'admin' are doctor roles |
| Schema.Collect | backend/src/models/Medico.js:11-53 | a document has no validation errors iff every path's validator passes |
| Schema.ToJson | backend/src/models/Medico.js:58-63 | the JSON view has `id` equal to `_id`, drops `_id`, `__v` and the hidden fields, and keeps every other field unchanged |
| Schema.FindOne | backend/src/controllers/authController.js:29 | `findOne` answers the first document in store order that the filter matches, and nothing iff no document matches |
| Schema.NomeCheck | backend/src/models/Medico.js:11-17 | a name passes iff it is 3 to 150 characters long |
| Schema.CpfCheck | backend/src/models/Medico.js:18-22 | a CPF passes iff it is exactly 11 ASCII digits |
| Schema.RequiredCheck | backend/src/models/Medico.js:23-27 | a required path passes iff it is non-empty, and its error names the path |
| Schema.EnumCheck | backend/src/models/Medico.js:36-40 | an enum path passes iff the value is listed, and its error names the path |
| Schema.ValidationMessage | backend/src/controllers/consultaController.js:188-193 | a validation error's message is `<Model> validation failed: ` followed by the first error's `path: message`, and every error's `path: message` appears after that prefix |
| Schema.JoinErrors | backend/src/controllers/consultaController.js:188-193 | the joined list is empty iff there are no errors, begins with the first error's `path: message`, and contains every error's |
| MedicoModel.BuildDoctor | backend/src/models/Medico.js:6-65 | after trimming `nome` and `crm`, the record is accepted iff it satisfies every schema rule, and then it is stored as trimmed; a rejection lists at least one error |
| MedicoModel.NoErrorsIffValid | backend/src/models/Medico.js:11-53 | on trimmed input, the validators report nothing iff the record is valid |
| MedicoModel.BuildValid | backend/src/models/Medico.js:6-53 | saving a stored valid doctor again accepts it unchanged |
| MedicoModel.DoctorJson | backend/src/models/Medico.js:56-64 | the JSON view never contains `senha`, `_id` or `__v` |
| MedicoModel.DoctorJsonRoundTrip | backend/src/models/Medico.js:56-64 | the JSON view loses nothing but the password: with the hash kept apart, the doctor is recovered |
| PacienteModel.BuildPatient | backend/src/models/Paciente.js:6-76 | after trimming `nome`, the record is accepted iff it satisfies every schema rule, and then it is stored as trimmed; a rejection lists at least one error |
| PacienteModel.NoErrorsIffValid | backend/src/models/Paciente.js:11-64 | on trimmed input, the validators report nothing iff the record is valid |
| PacienteModel.BuildValid | backend/src/models/Paciente.js:6-64 | saving a stored valid patient again accepts it unchanged |
| PacienteModel.PatientJson | backend/src/models/Paciente.js:67-75 | the JSON view never contains `senha`, `_id` or `__v` |
| PacienteModel.PatientJsonRoundTrip | backend/src/models/Paciente.js:67-75 | the JSON view loses nothing but the password: with it kept apart, the patient is recovered |
| ConsultaModel.DataCheck | backend/src/models/Consulta.js:19-28 | `data_consulta` passes iff it has the shape `dddd-dd-dd` |
| ConsultaModel.HoraCheck | backend/src/models/Consulta.js:29-33 | `hora_consulta` passes iff it is `HH:MM` with hour 00-23 and minute 00-59 |
| ConsultaModel.NoErrorsIffValid | backend/src/models/Consulta.js:9-38 | the validators report nothing iff the appointment is valid |
| ConsultaModel.BuildAppointment | backend/src/models/Consulta.js:4-57 | an appointment is accepted unchanged iff it satisfies every schema rule; a rejection lists at least one error |
| ConsultaModel.AppointmentJson | backend/src/models/Consulta.js:49-56 | the JSON view has no `_id` and no `__v` |
| ConsultaModel.AppointmentJsonRoundTrip | backend/src/models/Consulta.js:49-56 | the JSON view loses nothing: the appointment is recovered from it |
| ConsultaController.NewAppointment | backend/src/controllers/consultaController.js:157-164 | a new appointment carries the fresh id, the body's parties, date, time and notes, status 'agendada', and no cancellation reason |
| ConsultaController.CriarConsulta | backend/src/controllers/consultaController.js:119-195 | a missing doctor is a 404 before a missing patient; the 400 slot error fires iff an 'agendada' or 'confirmada' appointment holds the same doctor, date and time; it succeeds iff both parties exist, the slot is free, the new record validates and its id is unused, and then appends exactly the new 'agendada' record and, when the log accepts writes and a name is known, one CREATE entry for 'Consulta'; a failure changes nothing |
| ConsultaController.CriarPreservesNoDoubleBooking | backend/src/controllers/consultaController.js:141-164 | booking keeps at most one active appointment per doctor, date and time |
| ConsultaController.CriarPreservesConsistency | backend/src/controllers/consultaController.js:156-164 | booking keeps every stored appointment valid, with distinct ids |
| ConsultaController.ApplyUpdate | backend/src/controllers/consultaController.js:216-221 | date, time, status and reason change only when truthy; the notes change whenever defined; the id and the parties never change |
| ConsultaController.AtualizarConsulta | backend/src/controllers/consultaController.js:200-254 | 404 for an unknown id; otherwise it succeeds iff the updated record is valid, with no slot or status-transition check, and replaces only that record |
| ConsultaController.AtualizarBreaksNoDoubleBooking | backend/src/controllers/consultaController.js:216-222 | re-activating a cancelled appointment whose slot is held is accepted and leaves two active appointments in one slot |
| ConsultaController.ReactivateValid | backend/src/controllers/consultaController.js:219 | the body `{ status: 'agendada' }` changes only the status and keeps a valid record valid |
| ConsultaController.CancelRecord | backend/src/controllers/consultaController.js:282-283 | a cancelled record is 'cancelada', no longer active, has the given reason, and keeps its slot, parties and notes |
| ConsultaController.CancelarConsulta | backend/src/controllers/consultaController.js:259-311 | 404 for an unknown id, 400 when already cancelled; otherwise, on a consistent store, the record is cancelled in place |
| ConsultaController.CancelarPreservesNoDoubleBooking | backend/src/controllers/consultaController.js:273-284 | cancelling keeps at most one active appointment per slot |
| ConsultaController.CancelTwiceFails | backend/src/controllers/consultaController.js:273-284 | after a successful cancel, a second cancel of the same id is always the 400 'already cancelled' reply |
| ConsultaController.DeletarConsulta | backend/src/controllers/consultaController.js:316-356 | 404 exactly for an unknown id; otherwise exactly that record is removed and, when the log accepts writes and the caller has a name, one DELETE entry for that id is appended |
| ConsultaController.DeletarPreservesNoDoubleBooking | backend/src/controllers/consultaController.js:316-331 | deleting never creates a slot conflict |
| ConsultaListing.SlotLeTotal | backend/src/controllers/consultaController.js:25 | any two appointments are comparable in (date, time) order |
| ConsultaListing.SlotLeTransitive | backend/src/controllers/consultaController.js:25 | the (date, time) order is transitive |
| ConsultaListing.Insert | backend/src/controllers/consultaController.js:25 | inserting into a sorted list keeps it sorted and adds exactly that element |
| ConsultaListing.SortBySlot | backend/src/controllers/consultaController.js:25-49 | the result is sorted by (date, time), ascending or descending, and is a permutation of the input |
| Base.Select | backend/src/controllers/consultaController.js:22 | keeps exactly the records the filter admits, each with its multiplicity |
| Base.SelectConcat | backend/src/controllers/medicoController.js:40-44 | selection keeps store order: selecting from `a + b` is selecting from `a`, then from `b` |
| ConsultaListing.ListarConsultas | backend/src/controllers/consultaController.js:9-38 | exactly the records matching every given filter, with multiplicity, ascending by (date, time) |
| ConsultaListing.ListarConsultasPaciente | backend/src/controllers/consultaController.js:43-62 | exactly that patient's records, with multiplicity, latest first |
| ConsultaListing.ListarConsultasMedico | backend/src/controllers/consultaController.js:67-86 | exactly that doctor's records, with multiplicity, earliest first |
| ConsultaListing.HalfRangeIgnored | backend/src/controllers/consultaController.js:18-20 | a date range with a missing or empty bound filters nothing |
| AuditLog.ParseAction | backend/src/models/AuditLog.js:26-39 | exactly the seven action names parse, each to the action of that name |
| AuditLog.ParseEntity | backend/src/models/AuditLog.js:40-45 | exactly the four entity names parse, each to the entity of that name |
| AuditLog.EnumRoundTrips | backend/src/models/AuditLog.js:26-45 | parsing an action's or an entity's name gives it back |
| AuditLog.Registrar | backend/src/models/AuditLog.js:91-101 | an entry is written iff the store is writable and `usuario_nome` is non-empty; it then appends exactly one entry copying the request, with status defaulting to 'sucesso'; otherwise it returns null and leaves the log unchanged |
| AuditLog.RegistrarAppendOnly | backend/src/models/AuditLog.js:91-101 | the old log is a prefix of the new one, which is at most one entry longer |
| AuditLog.MatchingNewestFirst | backend/src/models/AuditLog.js:104-117 | exactly the log's entries matching the query, each as often as it is logged, with timestamps non-increasing |
| AuditLog.InsertNewest | backend/src/models/AuditLog.js:106 | placing one entry keeps the list sorted by timestamp, newest first, and adds exactly that entry |
| AuditLog.SortNewestFirst | backend/src/models/AuditLog.js:106 | `sort({ timestamp: -1 })`: a permutation of its input with timestamps non-increasing |
| AuditLog.LatestHeadsSort | backend/src/models/AuditLog.js:106 | an entry appended last whose timestamp no earlier entry exceeds comes first after the sort |
| AuditLog.Limit | backend/src/models/AuditLog.js:107-115 | a limit of 0 returns everything; otherwise a prefix of exactly `limite` entries, or everything when fewer |
| AuditLog.Buscar | backend/src/models/AuditLog.js:104-117 | only matching entries, with timestamps non-increasing, a prefix of all the matches in that order, of exactly `min(limite, matches)` entries (`limite` defaults to 50; 0 returns every match) |
| AuditLog.BuscarComplete | backend/src/models/AuditLog.js:104-117 | under the cap, every matching entry is returned |
| AuditLog.NewEntryFirst | backend/src/models/AuditLog.js:91-117 | when no logged entry is stamped later than the clock, every query an entry just written matches has a non-empty answer, and that entry is its first |
| Pagination.CeilDiv | backend/src/controllers/medicoController.js:55 | `Math.ceil(count / limit)` for a positive limit: the least page count whose pages cover `count`, 0 exactly when `count` is 0 |
| Pagination.Paginate | backend/src/controllers/medicoController.js:38-56 | a negative skip is refused; otherwise the page reports the count, starts `(page - 1) * limit` records in, holds `|limit|` records or as many as are left (all of them for a limit of 0), and `totalPages` is `Math.ceil(count / limit)`, covering the count tightly for a positive limit |
| Pagination.PageOfRecord | backend/src/controllers/medicoController.js:38-55 | with a positive limit, record `k` sits at position `k % limit` of page `k / limit + 1`, within `totalPages` |
| Pagination.Reverse | backend/src/controllers/medicoController.js:43 | newest first is insertion order reversed, element by element |
| Pagination.EveryRecordOnSomePage | backend/src/controllers/medicoController.js:38-46 | with a positive limit, paging reaches every record |
| Database.DoctorIndex | backend/src/controllers/medicoController.js:207 | `findById` finds the first doctor with that id, and nothing when no doctor has it |
| Database.PatientIndex | backend/src/controllers/pacienteController.js:285 | `findById` finds the first patient with that id, and nothing when no patient has it |
| Database.AppointmentIndex | backend/src/controllers/consultaController.js:205 | `findById` finds the first appointment with that id, and nothing when no appointment has it |
| Database.AppendDoctorConsistent | backend/src/models/Medico.js:67-68 | appending a valid doctor whose id, CPF and CRM are free keeps the doctors valid and the unique indexes intact |
| Database.ReplaceDoctorConsistent | backend/src/models/Medico.js:67-68 | replacing a doctor by a valid one whose keys no other doctor holds keeps the doctors consistent |
| Database.RemoveDoctorConsistent | backend/src/models/Medico.js:67-68 | removing a doctor keeps the doctors consistent |
| Database.AppendPatientConsistent | backend/src/models/Paciente.js:78 | appending a valid patient whose id and CPF are free keeps the patients consistent |
| Database.ReplacePatientConsistent | backend/src/models/Paciente.js:78 | replacing a patient by a valid one whose keys no other patient holds keeps the patients consistent |
| Database.RemovePatientConsistent | backend/src/models/Paciente.js:78 | removing a patient keeps the patients consistent |
| Database.AppendAppointmentConsistent | backend/src/models/Consulta.js:4-8 | appending a valid appointment with a fresh id keeps the appointments consistent |
| Database.DoctorDuplicateKey | backend/src/models/Medico.js:67-68 | no duplicate key is reported iff no other doctor shares the id, CPF or CRM; a reported key is one of those three |
| Database.PatientDuplicateKey | backend/src/models/Paciente.js:78 | no duplicate key is reported iff no other patient shares the id or CPF; a reported key is one of those two |
| Database.Audit | backend/src/models/AuditLog.js:91-101 | an audit write changes only the log, and only by appending at most one entry |
| Database.RemoveAt | backend/src/controllers/medicoController.js:355 | deleting one record keeps the others in order |
| Database.RemoveAtElements | backend/src/controllers/medicoController.js:355 | after a removal, exactly the other positions' elements remain |
| MedicoController.NewDoctor | backend/src/controllers/medicoController.js:136-145 | the created record takes the body's fields, the hash, the fresh id, plan defaulting to 'nenhum', role to 'medico', and `ativo` true |
| MedicoController.CriarMedico | backend/src/controllers/medicoController.js:101-195 | the password rule, then CPF, then CRM uniqueness, each a 400 in that order; it succeeds iff the password is accepted, the CPF and CRM are free, and the trimmed record with the defaults and the hashed password is valid and clashes with nobody, and then exactly that record is appended; a failure changes nothing |
| MedicoController.CreateDoctor | backend/src/controllers/medicoController.js:136-194 | the trimmed record is appended iff it is valid and free of duplicate keys; validation errors are a 400 'Erro de validação' with their list |
| MedicoController.CriarPreservesConsistency | backend/src/controllers/medicoController.js:101-195 | creation keeps the stored doctors valid and the id, CPF and CRM unique |
| MedicoController.Changes | backend/src/controllers/medicoController.js:228-268 | the update object holds the truthy text fields, a changed CPF or CRM, the new password's hash, and `ativo` whenever defined |
| MedicoController.UpdatedDoctor | backend/src/controllers/medicoController.js:230-271 | only supplied fields change; text fields only when truthy; `ativo` whenever defined, also to false, and `null` is stored as `null`, which is not active; the password becomes the hash of the new one |
| MedicoController.AtualizarMedico | backend/src/controllers/medicoController.js:201-317 | 404 exactly for an unknown id; a 400 for the CPF exactly when a changed CPF is held by another doctor, then for the CRM exactly when a changed CRM is; it succeeds iff neither and the password, the validators and the unique indexes accept the updated record, and then replaces only that doctor with it |
| MedicoController.UpdateFound | backend/src/controllers/medicoController.js:231-317 | for a found doctor: the CPF check, then the CRM check, then the save, each failure exactly in its own case, a success storing the updated record in place |
| MedicoController.SaveUpdatedDoctor | backend/src/controllers/medicoController.js:258-292 | an invalid new password is a 400 before saving; it succeeds iff the password, the validators and the unique indexes accept the updated doctor, and then stores it in place; a failure never carries the CPF or CRM message |
| MedicoController.SaveDoctorAt | backend/src/controllers/medicoController.js:271-310 | `save()` stores the trimmed record in place iff it is valid and free of duplicate keys; a failure never carries the CPF or CRM message |
| MedicoController.StoreUniqueDoctorAt | backend/src/controllers/medicoController.js:304-310 | the write succeeds iff no other doctor shares the id, CPF or CRM |
| MedicoController.AtualizarPreservesConsistency | backend/src/controllers/medicoController.js:201-317 | updating keeps the stored doctors valid and the unique indexes intact |
| MedicoController.ResubmitOwnIdentifiers | backend/src/controllers/medicoController.js:231-252 | re-submitting one's own CPF and CRM succeeds and changes nothing |
| MedicoController.DeletarMedico | backend/src/controllers/medicoController.js:323-381 | 404 exactly for an unknown id, 400 for one's own id; it succeeds iff neither, and then removes exactly that doctor |
| MedicoController.NoSelfDeletion | backend/src/controllers/medicoController.js:337-343 | a doctor deleting their own id always fails and changes nothing |
| MedicoController.DeletarPreservesConsistency | backend/src/controllers/medicoController.js:323-381 | removing a doctor keeps the others valid and distinct |
| MedicoController.MatchingDoctors | backend/src/controllers/medicoController.js:19-27 | exactly the doctors matching the `ativo` and `plano` filters, each with its multiplicity in the store |
| MedicoController.MatchingDoctorsConcat | backend/src/controllers/medicoController.js:40-46 | the filter keeps store order: filtering `a + b` is filtering `a`, then `b` |
| MedicoController.ListarMedicos | backend/src/controllers/medicoController.js:14-65 | a negative skip is refused; otherwise the page is the `(page - 1) * limit` slice of the matching doctors newest first, `|limit|` long or up to the end, with the total count of matches and `totalPages = Math.ceil(total / limit)` |
| MedicoController.ListarReachesEveryMatch | backend/src/controllers/medicoController.js:38-46 | with a positive limit, every matching doctor is listed on some page |
| MedicoController.NewDoctorListedFirst | backend/src/controllers/medicoController.js:40-45 | a doctor created last and matching the filter opens the first page |
| MedicoController.ClearedAtivoFilteredOut | backend/src/controllers/medicoController.js:21-23 | a doctor whose `ativo` was set to `null` is listed neither under `ativo=true` nor under any other `ativo` value |
| PacienteController.Insert | backend/src/controllers/pacienteController.js:215-266 | `Paciente.create` stores the trimmed record iff it is valid and holds no taken id or CPF; validation errors are a 400 carrying exactly the validators' list |
| PacienteController.PublicView | backend/src/controllers/pacienteController.js:65-70 | the sign-up reply exposes only id, name, CPF and status, never the password hash |
| PacienteController.CadastrarPublico | backend/src/controllers/pacienteController.js:14-96 | a taken CPF is a 400 first; a supplied password that `hashSenha` refuses is a 500; it succeeds iff neither and the trimmed sign-up record (status `ativo`, plan defaulting to 'nenhum', the fresh id, the password hashed exactly when sent) is valid and clashes with nobody, and then appends exactly that record and answers its public view; a failure changes nothing |
| PacienteController.OptionalHash | backend/src/controllers/pacienteController.js:27-31 | a password is hashed only when supplied, and the hash failing makes the sign-up fail |
| PacienteController.InsertPublic | backend/src/controllers/pacienteController.js:34-89 | the record is appended iff valid and free of duplicate keys; a success audits a CREATE under the fixed public identity with the new id |
| PacienteController.CadastrarPublicoPreservesConsistency | backend/src/controllers/pacienteController.js:14-96 | the public sign-up keeps the stored patients valid with unique `_id` and `cpf` |
| PacienteController.PublicSignUpAudited | backend/src/controllers/pacienteController.js:45-60 | a successful public sign-up always writes its audit entry under 'publico', when the log accepts writes |
| PacienteController.CriarPaciente | backend/src/controllers/pacienteController.js:201-273 | a taken CPF is a 400; it succeeds iff the CPF is free and the trimmed new record (no password, plan defaulting to 'nenhum', status to 'ativo', the body's other fields) is valid and clashes with nobody, and then appends exactly it; a failure changes nothing |
| PacienteController.CreatePatient | backend/src/controllers/pacienteController.js:214-248 | the write appends the trimmed record iff it validates and clashes with nobody, and answers 201 with it |
| PacienteController.CriarPreservesConsistency | backend/src/controllers/pacienteController.js:201-273 | creation keeps the stored patients valid with unique `_id` and `cpf` |
| PacienteController.Changes | backend/src/controllers/pacienteController.js:306-326 | the update object holds exactly the supplied paths: truthy text fields, a changed CPF, and `analise`, `email` and `telefone` whenever defined, with the values sent |
| PacienteController.UpdatedPatient | backend/src/controllers/pacienteController.js:306-329 | id and password never change; text fields change only when truthy; the optional fields change whenever defined, `null` clearing them |
| PacienteController.AtualizarPaciente | backend/src/controllers/pacienteController.js:279-375 | 404 exactly for an unknown id; a changed CPF held by another patient is a 400; it succeeds iff the CPF is free and the updated record validates and clashes with nobody, and then only that patient is replaced; a failure changes nothing |
| PacienteController.SavePatientAt | backend/src/controllers/pacienteController.js:329-368 | `save()` succeeds iff the record validates and no other patient shares its id or CPF, and stores it in place |
| PacienteController.StoreUniquePatientAt | backend/src/controllers/pacienteController.js:362-368 | the unique indexes refuse the write iff another patient shares the id or CPF |
| PacienteController.AtualizarPreservesConsistency | backend/src/controllers/pacienteController.js:279-375 | updating keeps the stored patients valid with unique `_id` and `cpf` |
| PacienteController.ClearOptionalFields | backend/src/controllers/pacienteController.js:323-326 | sending `null` for `analise`, `email` and `telefone` always succeeds on a stored patient and clears exactly those three |
| PacienteController.DeletarPaciente | backend/src/controllers/pacienteController.js:381-430 | 404 exactly for an unknown id; otherwise it succeeds and removes that one record, keeping the others in order |
| PacienteController.DeletarRemovesExactlyThatPatient | backend/src/controllers/pacienteController.js:385-404 | with unique ids, after a delete a patient remains iff it was stored and has another id |
| PacienteController.DeletarPreservesConsistency | backend/src/controllers/pacienteController.js:381-430 | removing a patient keeps the others valid and distinct |
| PacienteController.MatchingPatients | backend/src/controllers/pacienteController.js:107-115 | exactly the patients matching the truthy `status` and `plano` filters, each with its multiplicity in the store |
| PacienteController.MatchingPatientsConcat | backend/src/controllers/pacienteController.js:129-134 | the filter keeps store order: filtering `a + b` is filtering `a`, then `b` |
| PacienteController.ListarPacientes | backend/src/controllers/pacienteController.js:102-145 | a negative skip is refused; otherwise the page is the `(page - 1) * limit` slice of the matching patients newest first, `|limit|` long or up to the end, with the total count of matches and `totalPages = Math.ceil(total / limit)` |
| PacienteController.ListarPacientesReachesEveryMatch | backend/src/controllers/pacienteController.js:126-134 | with a positive limit, every matching patient is listed on some page |
| PacienteController.NewPatientListedFirst | backend/src/controllers/pacienteController.js:129-134 | a patient created last and matching the filter opens the first page |
| AuthController.DoctorByCpf | backend/src/controllers/authController.js:29 | the intended lookup: a doctor holding the CPF is found iff one exists, and the one found is the first in store order holding it |
| AuthController.PatientByCpf | backend/src/controllers/authController.js:35 | the intended lookup: a patient holding the CPF is found iff one exists, and the one found is the first in store order holding it |
| AuthController.DoctorCpfFilter | backend/src/models/Medico.js:18-22 | the `{ cpf }` filter matches a stored doctor document iff the doctor holds that CPF |
| AuthController.PatientCpfFilter | backend/src/models/Paciente.js:18-22 | the `{ cpf }` filter matches a stored patient document iff the patient holds that CPF |
| AuthController.DoctorCpfFilterIsByCpf | backend/src/controllers/authController.js:29 | `findOne({ cpf })` over the stored doctor documents is the CPF lookup |
| AuthController.PatientCpfFilterIsByCpf | backend/src/controllers/authController.js:35 | `findOne({ cpf })` over the stored patient documents is the CPF lookup |
| AuthController.FindAccountWith | backend/src/controllers/authController.js:28-37 | with a given filter, the doctors are searched first and the patients only when no doctor matches; nothing is found iff no stored document of either kind matches |
| AuthController.CpfFilterIsFindAccount | backend/src/controllers/authController.js:28-37 | with the `{ cpf }` filter, the two-step lookup is `FindAccount` |
| AuthController.WhereFindsNoOne | backend/src/controllers/authController.js:28-37 | the `{ where: { ... } }` filter the source passes finds no doctor and no patient, whatever the CPF or CRM inside |
| AuthController.FindAccount | backend/src/controllers/authController.js:28-37 | the doctors are searched first: the account is a doctor iff some doctor holds the CPF, a patient only otherwise, and nothing iff nobody holds it |
| AuthController.LoginClaims | backend/src/controllers/authController.js:105-118 | the signed claims carry the account's id, name and kind, expire the configured lifetime on (24 hours by default), and carry role `paciente` for a patient and the stored role for a doctor |
| AuthController.LoginUser | backend/src/controllers/authController.js:132-149 | the reply's user never carries the password; it has `crm` iff a doctor and `status` iff a patient |
| AuthController.Login | backend/src/controllers/authController.js:16-165 | missing fields are a 400; an account without a password or an inactive one is refused with its own 401; an unknown CPF and a wrong password give the same 401 'CPF ou senha inválidos' and nothing else does; success happens iff the account is active and bcrypt matches, and returns the signed claims and the user; only the audit log changes |
| AuthController.LoginFound | backend/src/controllers/authController.js:39-165 | once the lookup has answered: nothing found is the 401 'CPF ou senha inválidos' with a failed attempt logged; an account without a password or an inactive one gets its own 401; success happens iff the account found is active, bcrypt matches and it has an id, and returns its signed claims and user |
| AuthController.LoginAsWritten | backend/src/controllers/authController.js:16-56 | as written, a missing field is the same 400 as intended, and every login with both fields is the unknown-CPF 401 'CPF ou senha inválidos', with a failed attempt by 'desconhecido' logged when the log is writable; the records never change |
| AuthController.LoginAsWrittenLocksOut | backend/src/controllers/authController.js:28-56 | a login that the intended lookup accepts with 200 is refused with 401 as written |
| AuthController.DoctorBeforePatient | backend/src/controllers/authController.js:28-37 | a CPF held by a doctor and by a patient logs in as the doctor |
| AuthController.ClaimsAuthenticate | backend/src/controllers/authController.js:113-118 | the claims a login signs for a stored, active account authenticate that account within the token lifetime with the same id, kind and role |
| AuthController.AccountLookup | backend/src/middlewares/authMiddleware.js:32-85 | the claims issued at login find the same account again in the middleware's lookup |
| AuthController.LoginTokenAuthenticates | backend/src/controllers/authController.js:113-157 | within the token lifetime, the token a successful login returns, sent as `Bearer <token>`, makes the authentication middleware attach the logged-in account with the issued role |
| AuthController.RegisteredUser | backend/src/controllers/authController.js:255-262 | the registration reply's user carries the stored id, plan and role and never the password |
| AuthController.RegisteredDoctor | backend/src/controllers/authController.js:171-223 | required fields, then the password rule, then a free CPF, then a free CRM, each a 400 in that order; a schema or index refusal is a 500 because the catch only knows Sequelize's error; it is accepted iff none of these fires, and then it is exactly the trimmed, active record with the hashed password, valid and clashing with nobody |
| AuthController.CreateRegistered | backend/src/controllers/authController.js:210-222 | past the 400 checks, `Medico.create` stores exactly the trimmed, active record with the hashed password iff it is valid and clashes with nobody; any refusal is the 500 'Erro ao cadastrar médico' reply |
| AuthController.RegisteredDoctorAsWritten | backend/src/controllers/authController.js:192-208 | as written, the required-field and password checks are those of the intended registration, and past them the request goes straight to `Medico.create`: the 400 'CPF já cadastrado' and 'CRM já cadastrado' answers never occur |
| AuthController.TakenCpfAsWritten | backend/src/controllers/authController.js:192-199 | for a valid request whose CPF a stored doctor holds, the intended registration answers 400 'CPF já cadastrado' and the code as written answers 500 'Erro ao cadastrar médico' |
| AuthController.RegistroWith | backend/src/controllers/authController.js:171-281 | any refusal changes nothing; otherwise the doctor is appended and audited, and the reply is 201 with a token for its id, name and role |
| AuthController.RegistroAsWritten | backend/src/controllers/authController.js:219 | with the plan default as written (and the intended CPF and CRM lookups of `RegistroWith`), a registration without `plano` never succeeds; one that passes the required-field, password, CPF and CRM checks is the 500 'Erro ao cadastrar médico' with the records unchanged |
| AuthController.RegistroCorrected | backend/src/models/Medico.js:4 | with the default the schema admits, the stored plan is the one sent, or 'nenhum' |
| AuthController.OmittedPlanNeverRegisters | backend/src/controllers/authController.js:219 | leaving out `plano` makes every registration fail as written, although naming 'nenhum' behaves as the corrected one |
| AuthController.OmittedPlanIsNenhum | backend/src/models/Medico.js:4 | corrected, leaving out `plano` is the same request as sending 'nenhum' |
| AuthController.RegistroPreservesConsistency | backend/src/controllers/authController.js:171-281 | registration keeps the stored doctors valid with unique `_id`, `cpf` and `crm` |
| FalaDoutorAuth.PacienteById | fala-doutor/backend/src/middlewares/auth.js:43-45 | the patient found holds the id, and none is found only when no patient holds it |
| FalaDoutorAuth.PacienteByEmail | fala-doutor/backend/src/controllers/authController.js:74-76 | the patient found holds the e-mail, and none is found only when no patient holds it |
| FalaDoutorAuth.MedicoById | fala-doutor/backend/src/middlewares/auth.js:73-75 | the doctor found holds the id, and none is found only when no doctor holds it |
| FalaDoutorAuth.MedicoByEmail | fala-doutor/backend/src/controllers/authController.js:115-117 | the doctor found holds the e-mail, and none is found only when no doctor holds it |
| FalaDoutorAuth.PacientePublico | fala-doutor/backend/src/controllers/authController.js:93 | the patient returned to the client never carries `senhaHash` |
| FalaDoutorAuth.MedicoPublico | fala-doutor/backend/src/controllers/authController.js:137 | the doctor returned to the client never carries `senhaHash` and keeps `isAdmin` |
| FalaDoutorAuth.PatientClaims | fala-doutor/backend/src/controllers/authController.js:52 | a patient token carries the id, the e-mail and kind 'paciente', no admin flag, and expires the configured lifetime on, seven days by default |
| FalaDoutorAuth.DoctorClaims | fala-doutor/backend/src/controllers/authController.js:131-134 | a doctor token carries the id, the e-mail, kind 'medico' and the stored `isAdmin`, and expires the configured lifetime on |
| FalaDoutorAuth.VerificarToken | fala-doutor/backend/src/utils/jwt.js:20-26 | the claims come back iff the token verifies, and every failure is `null` |
| FalaDoutorAuth.VerifyOwnToken | fala-doutor/backend/src/utils/jwt.js:8-26 | a token the server signed verifies to its own claims until it expires |
| FalaDoutorAuth.BearerToken | fala-doutor/backend/src/middlewares/auth.js:10-14 | a token is read iff the header exists and starts with 'Bearer '; it is the space-free text after it, up to the next space |
| FalaDoutorAuth.BearerOfToken | fala-doutor/backend/src/middlewares/auth.js:10-14 | 'Bearer ' followed by a space-free token gives that token back |
| FalaDoutorAuth.Autenticado | fala-doutor/backend/src/middlewares/auth.js:7-23 | every rejection is 401; it passes iff a bearer token verifies, and attaches the claims unchanged |
| FalaDoutorAuth.ClaimsOfKind | fala-doutor/backend/src/middlewares/auth.js:35-40 | the claims are accepted iff `autenticado` would pass and they name the required account kind; otherwise a 401 |
| FalaDoutorAuth.AutenticarPaciente | fala-doutor/backend/src/middlewares/auth.js:28-53 | it passes iff the token is a patient token whose patient exists, with no activeness check, and attaches that stored patient; every rejection is 401 |
| FalaDoutorAuth.AutenticarMedico | fala-doutor/backend/src/middlewares/auth.js:58-83 | it passes iff the token is a doctor token whose doctor exists and is active, and attaches that doctor; every rejection is 401 |
| FalaDoutorAuth.AutenticarAdmin | fala-doutor/backend/src/middlewares/auth.js:88-112 | a missing, invalid or wrong-kind token is exactly the 401 cases; a doctor token whose doctor is missing, inactive or not an admin is a 403; only an active admin passes |
| FalaDoutorAuth.AdminIsMedicoAndAdmin | fala-doutor/backend/src/middlewares/auth.js:58-112 | the admin guard admits exactly the doctors the doctor guard admits that are admins, and attaches the same record |
| FalaDoutorAuth.FirstConflict | fala-doutor/backend/src/controllers/authController.js:14-18 | the first patient sharing the e-mail or the CPF, and none iff no patient shares either |
| FalaDoutorAuth.CadastroPaciente | fala-doutor/backend/src/controllers/authController.js:9-63 | a patient sharing the e-mail or CPF is a 400 naming the e-mail iff the patient found has it; a success appends one patient with the fresh id, the body's name, CPF, e-mail, phone and birth date and the hashed password, and returns a patient token and the record without the hash; any failure changes nothing |
| FalaDoutorAuth.ConflictMessage | fala-doutor/backend/src/controllers/authController.js:20-26 | only the e-mail taken names the e-mail; only the CPF taken names the CPF |
| FalaDoutorAuth.CadastroPreservesConsistency | fala-doutor/backend/src/controllers/authController.js:9-63 | sign-up keeps patient ids, e-mails and CPFs unique |
| FalaDoutorAuth.LoginPaciente | fala-doutor/backend/src/controllers/authController.js:69-104 | an unknown e-mail and a wrong password give exactly the 401 cases with one message; success iff bcrypt matches, returning a patient token and the record without the hash; the store never changes |
| FalaDoutorAuth.LoginMedico | fala-doutor/backend/src/controllers/authController.js:110-148 | an unknown e-mail, an inactive doctor and a wrong password give exactly the 401 cases with one message, an inactive doctor without a comparison; success happens iff the doctor exists, is active and bcrypt matches, and returns a doctor token and the record without the hash |
| FalaDoutorAuth.PatientTokenPasses | fala-doutor/backend/src/middlewares/auth.js:28-53 | a stored patient's own token passes the patient guard until it expires and attaches that patient |
| FalaDoutorAuth.DoctorTokenPasses | fala-doutor/backend/src/middlewares/auth.js:58-83 | an active stored doctor's own token passes the doctor guard until it expires and attaches that doctor |
| FalaDoutorAuth.KindsDoNotMix | fala-doutor/backend/src/middlewares/auth.js:38-99 | a patient token is refused by the doctor and admin guards, and a doctor token by the patient guard, each time with the 401 'Acesso não autorizado' |
| FalaDoutorAuth.LoginTokensPass | fala-doutor/backend/src/controllers/authController.js:52-134 | the token a successful login or sign-up returns passes the matching guard for its whole lifetime |
| Masks.FirstRun | frontend/src/pages/CadastroPublico.jsx:45 | the leftmost place where `n` digits in a row start, and none iff no such run exists |
| Masks.FirstRunIs | frontend/src/pages/CadastroPublico.jsx:45 | a run with none before it is the one the first-match `replace` finds |
| Masks.SeparateAfterThree | frontend/src/pages/CadastroPublico.jsx:45-46 | the first-match `replace` puts the separator after the third digit of the first run of four digits, and leaves text without such a run unchanged |
| Masks.FirstOverlong | fala-doutor/frontend/src/pages/Cadastro.jsx:32 | the leftmost hyphen followed by two digits and at least one more up to the end, and none iff there is none |
| Masks.CutAfterCheckDigits | fala-doutor/frontend/src/pages/Cadastro.jsx:32 | whatever follows the two digits after the first such hyphen is cut; other text is unchanged |
| Masks.FormatarCpf | frontend/src/pages/CadastroPublico.jsx:42-48 | the mask is the CPF layout of the digits typed: dots after the third and sixth digit, and from ten digits on a hyphen before the last one or two |
| Masks.FormatarCpfTruncado | fala-doutor/frontend/src/pages/Cadastro.jsx:26-33 | the mask is the CPF layout of the first eleven digits typed |
| Masks.CpfMaskRoundTrip | frontend/src/pages/CadastroPublico.jsx:29-48 | stripping the mask, as `onSubmit` does, gives back exactly the digits typed |
| Masks.CpfMaskIdempotent | frontend/src/pages/CadastroPublico.jsx:148-150 | masking a masked value changes nothing, so re-masking on every keystroke is stable |
| Masks.ElevenDigitsShape | frontend/src/pages/CadastroPublico.jsx:144-147 | eleven digits are laid out as `000.000.000-00` with the digits in order |
| Masks.CpfPatternIffEleven | frontend/src/pages/CadastroPublico.jsx:144-147 | the form's CPF pattern accepts the masked value iff exactly eleven digits were typed |
| Masks.TruncatedAtMostFourteen | fala-doutor/frontend/src/pages/Cadastro.jsx:26-33 | the truncating mask never produces more than fourteen characters |
| Masks.TruncatedRoundTrip | fala-doutor/frontend/src/pages/Cadastro.jsx:26-33 | stripping the truncating mask gives the first eleven digits typed, all of them when there are no more |
| Masks.TruncatedPatternIffAtLeastEleven | fala-doutor/backend/src/middlewares/validacao.js:18-21 | the backend's CPF pattern accepts the truncating mask's output iff at least eleven digits were typed |
| Masks.MaskedCpfDigits | frontend/src/pages/CadastroPublico.jsx:29 | a value matching the pattern strips to an eleven-digit CPF, its digit groups in order |
| Masks.FormatarTelefone | frontend/src/pages/CadastroPublico.jsx:50-56 | up to ten digits take the `(DD) DDDD-…` grouping, more the `(DD) DDDDD-…` one, from six digits on |
| Masks.PhoneShapes | frontend/src/pages/CadastroPublico.jsx:50-56 | ten digits give fourteen characters `(DD) DDDD-DDDD`, eleven give fifteen `(DD) DDDDD-DDDD` |
| Masks.PhoneMaskRoundTrip | frontend/src/pages/CadastroPublico.jsx:30-56 | stripping the phone mask gives back exactly the digits typed |
| Masks.PhoneMaskIdempotent | frontend/src/pages/CadastroPublico.jsx:50-56 | masking a masked phone changes nothing |
| Masks.FormatarCrm | frontend/src/pages/CadastroMedico.jsx:67-69 | the CRM field keeps the first six digits typed, all of them when fewer |
| Masks.CrmIdempotent | frontend/src/pages/CadastroMedico.jsx:67-69 | filtering a filtered CRM changes nothing |
| Masks.DadosLimpos | frontend/src/pages/CadastroPublico.jsx:21-40 | the CPF is sent as its digits; the phone as its digits, or left out when empty; the other fields as typed |
| Masks.PublicFormSendsValidNumbers | frontend/src/pages/CadastroPublico.jsx:21-56 | a form that passed its CPF pattern sends the eleven digits typed, and a phone masked from ten or eleven digits is one the patient schema accepts |
| Masks.DadosMedico | frontend/src/pages/CadastroMedico.jsx:22-57 | CPF and CRM go without their masks, the CRM as `CRM/<UF> <digits>`, the plan 'nenhum' when none was chosen, the role always 'medico' |
| Masks.CrmSent | frontend/src/pages/CadastroMedico.jsx:29-69 | the CRM sent carries exactly the digits the CRM field kept |
| Masks.FormAvoidsPlanDefault | frontend/src/pages/CadastroMedico.jsx:36 | the doctor form always sends a plan, so its registrations behave the same as written and as corrected |
| Masks.HandleSubmit | fala-doutor/frontend/src/pages/Cadastro.jsx:39-71 | the page refuses iff the passwords differ or are shorter than six characters, the mismatch reported first; otherwise it sends the masked CPF, e-mail, phone and the agreed password |
| Masks.SentCpfAccepted | fala-doutor/frontend/src/pages/Cadastro.jsx:26-64 | a body the page sends carries a CPF the backend's pattern accepts iff at least eleven digits were typed |
| Pagination.ReverseElements | backend/src/controllers/pacienteController.js:131 | sorting newest first neither adds nor loses a record |
| MedicoController.PreviousDocument | backend/src/controllers/medicoController.js:217-225 | the audit's before-image carries the name and never the password hash |
| MedicoController.ResubmitChangesNothing | backend/src/controllers/medicoController.js:230-256 | an update carrying only the doctor's own CPF and CRM leaves the record unchanged |
| Text.Trim | backend/src/models/Medico.js:14 | the result is no longer than the input and neither starts nor ends with white space |
| Text.TrimStripsSpacesOnly | backend/src/models/Medico.js:14 | trimming removes only white space: the result is a contiguous slice of the input and every character outside it is white space |
| Text.TrimIdempotent | backend/src/models/Paciente.js:14 | trimming a trimmed string changes nothing, so saving a stored name again keeps it |
| Text.Digits | backend/src/middlewares/validationMiddleware.js:37 | `replace(/\D/g, '')` keeps only digits and never lengthens the text |
| Text.DigitsIdempotent | backend/src/middlewares/validationMiddleware.js:109-112 | stripping non-digits twice is the same as once |
| Text.Split | fala-doutor/backend/src/middlewares/auth.js:14 | `split(' ')` gives at least one piece, none containing a space, and joining them with spaces gives the input back |

## Left out

- bcrypt and JWT signing are opaque. `Bcrypt` is a hash function with a three-way comparison (match, mismatch, throws). `Keys` signs and verifies claims. `SoundKeys` states only that a token the server signed verifies to its own claims until it expires, and fails with 'expired' from then on.
- Database access is an in-memory store:
  - Mongoose queries are modelled by what they find; connection handling, `populate` and the one-off scripts are not part of this model.
  - The `findOne({ where: { ... } })` calls in `login` and `registro` are modelled twice. As written, Mongoose passes the `where` path on to MongoDB, as its default `strictQuery: false` (since version 7) does; this is `LoginAsWritten` and `RegisteredDoctorAsWritten`. As intended, they are the CPF and CRM lookups, which the rest of the model uses. Under Mongoose 6, whose default strict query drops the unknown `where` path, the same call is `findOne({})` and finds the first stored record; that reading is not modelled.
  - `Schema.FilterMatches` covers equality on one path, where a missing path equals only `null`; other query operators are not modelled.
- The case-insensitive `$regex` search of the doctor and patient listings is not modelled; only the exact `ativo`/`plano` and `status`/`plano` filters are.
- Query parameters `page` and `limit` are integers. `parseInt` of non-numeric text, and the `ativo` string-to-boolean cast of Mongoose, are left out.
- The order among records with equal sort keys is left open by the database. The model fixes one: insertion order for appointments, and the entry written later first for audit entries with equal timestamps. Its listings are therefore one of the orders the database may return.
- `created_at` is not a field of the model's records. The doctor and patient listings take it to grow with insertion, so newest first is the store reversed; records stamped out of insertion order would be listed differently.
- Clock-dependent rules are left out: the birth-date `< now` validators of both person models, `dataAnteriorAtual`, and the "not in the past" form rules.
- `validarData` is modelled by its regular-expression shape only; calendar validity through `new Date` is JavaScript date parsing.
- The booking check-then-insert is sequential in the model. The no-double-booking invariant is proved for one request at a time, not under concurrent requests.
- Request metadata (`ip_address`, `user_agent`, `metadata`) of the audit entries is not recorded; the entry keeps the actor, action, entity, snapshots, status and message.
- Deleting a doctor or a patient does not cascade to appointments, as in the source; nothing in the model relies on referential integrity.
- `buscarMedicoPorId`, `buscarPacientePorId`, `buscarConsultaPorId` and `me` are reads with an audit write and are not modelled.
- The message of a duplicate `_id` is approximated by the first clashing key, `_id` before `cpf` before `crm`. The generated ids make that clash impossible in practice.
- Token claims always carry a string `id`. A verified token without one would make Prisma's `findUnique` throw inside a middleware that has no catch; the servers never sign such a token, and that path is not modelled.
- The express-validator chains are not modelled as code. Their effect on the second backend, trimmed non-empty string fields, is the shape of its request datatypes. The CPF pattern of `validacao.js` is stated as `MaskedCpfShape`.
- `findFirst` on the second backend returns the first conflicting patient in insertion order.
- Request bodies of the controllers carry strings only. A JSON number or boolean in a body field is not modelled. For example, `senha: 12345678` passes `validarSenha`, then makes `hashSenha` throw 'Senha inválida', and `criarMedico` answers 500.
- The second backend's `Medico` and `MedicoPublico` keep only the id, name, CRM, e-mail, password hash, `ativo` and `isAdmin`. The profile columns (`especialidade`, `bio` and the like) are not modelled.
- `JWT_EXPIRES_IN` is modelled as a number of seconds. The duration strings that `jsonwebtoken` parses ('24h', '7d') are not modelled; the defaults are stated as 86400 and 604800 seconds.
- NewEntryFirst: requires that no logged entry is stamped later than the clock. `now` is a parameter of each request, and nothing makes it grow from one request to the next.
- JavaScript string lengths count UTF-16 code units; the model counts characters. This differs only outside the Basic Multilingual Plane.
- The `maxLength` attributes of the form inputs, React state, routing, services and the rest of the UI are not modelled. `frontend/src/pages/Login.jsx` repeats the clinic's CPF mask and needs no model of its own.

## Findings

| source | as written | input that shows it | evidently intended | confidence | as-written member | corrected member |
|---|---|---|---|---|---|---|
| backend/src/controllers/authController.js:219 | `registro` defaults a missing or empty `plano` to 'básico'. 'básico' is not in the doctor plan enum of backend/src/models/Medico.js:4, so `Medico.create` throws a validation error. The catch only knows `SequelizeValidationError`, so the answer is a 500 | a complete, valid registration body without `plano` | a registration without a plan stores the schema's default plan, 'nenhum' | not executed | AuthController.RegistroAsWritten | AuthController.RegistroCorrected |
| backend/src/controllers/authController.js:29-35 | `login` looks doctors and then patients up with `findOne({ where: { cpf } })`, which is Sequelize's syntax. Mongoose passes `where` on as a path that no stored document has, so both lookups find no one and every login is the unknown-CPF 401 | a login with the CPF and the right password of a stored, active doctor | the doctor, then the patient, holding the CPF is found: `findOne({ cpf })` | not executed | AuthController.LoginAsWritten | AuthController.FindAccount |
| backend/src/controllers/authController.js:192-208 | the duplicate checks of `registro` use the same `where` filter and never fire. A taken CPF or CRM reaches `Medico.create`, the unique index refuses it, and the catch answers 500 'Erro ao cadastrar médico' | a complete, valid registration whose CPF a stored doctor already holds | 400 'CPF já cadastrado', or 'CRM já cadastrado' | not executed | AuthController.RegisteredDoctorAsWritten | AuthController.RegisteredDoctor |

=== FILE: audit_log.dfy ===
/**
 * The audit log of the Mongoose backend: an append-only sequence of entries
 * in write order.  `registrar` never fails its caller; the two queries
 * return the matching entries newest first, capped.
 */
module AuditLog {
  import opened Base
  import opened Js
  import opened Schema

  datatype Action = Create | Read | Update | Delete | Login | Logout | LoginFailed
  datatype Entity = MedicoEntity | PacienteEntity | AuthEntity | ConsultaEntity
  datatype EntryStatus = Sucesso | Falha

  function ActionName(a: Action): string
  {
    match a
    case Create => "CREATE"
    case Read => "READ"
    case Update => "UPDATE"
    case Delete => "DELETE"
    case Login => "LOGIN"
    case Logout => "LOGOUT"
    case LoginFailed => "LOGIN_FAILED"
  }

  /** The `acao` enum: exactly the seven action names. */
  function ParseAction(s: string): (r: Option<Action>)
    ensures r.Some? ==> ActionName(r.value) == s
    ensures r.None? ==> forall a: Action :: ActionName(a) != s
  {
    if s == "CREATE" then Some(Create)
    else if s == "READ" then Some(Read)
    else if s == "UPDATE" then Some(Update)
    else if s == "DELETE" then Some(Delete)
    else if s == "LOGIN" then Some(Login)
    else if s == "LOGOUT" then Some(Logout)
    else if s == "LOGIN_FAILED" then Some(LoginFailed)
    else None
  }

  function EntityName(e: Entity): string
  {
    match e
    case MedicoEntity => "Medico"
    case PacienteEntity => "Paciente"
    case AuthEntity => "Auth"
    case ConsultaEntity => "Consulta"
  }

  /** The `entidade` enum: exactly the four entity names. */
  function ParseEntity(s: string): (r: Option<Entity>)
    ensures r.Some? ==> EntityName(r.value) == s
    ensures r.None? ==> forall e: Entity :: EntityName(e) != s
  {
    if s == "Medico" then Some(MedicoEntity)
    else if s == "Paciente" then Some(PacienteEntity)
    else if s == "Auth" then Some(AuthEntity)
    else if s == "Consulta" then Some(ConsultaEntity)
    else None
  }

  /** Names and parsers agree on both enums. */
  lemma EnumRoundTrips(a: Action, e: Entity)
    ensures ParseAction(ActionName(a)) == Some(a)
    ensures ParseEntity(EntityName(e)) == Some(e)
  {
  }

  /** A stored entry (`ip_address` and `user_agent` are not modelled). */
  datatype AuditEntry = AuditEntry(
    timestamp: int,
    usuarioId: Option<string>,
    usuarioNome: string,
    acao: Action,
    entidade: Entity,
    entidadeId: Option<string>,
    dadosAnteriores: Option<Document>,
    dadosNovos: Option<Document>,
    status: EntryStatus,
    mensagemErro: Option<string>)

  /** The argument of `registrar`; a missing `status` takes the default `sucesso`. */
  datatype AuditRequest = AuditRequest(
    usuarioId: Option<string>,
    usuarioNome: Option<string>,
    acao: Action,
    entidade: Entity,
    entidadeId: Option<string>,
    dadosAnteriores: Option<Document>,
    dadosNovos: Option<Document>,
    status: Option<EntryStatus>,
    mensagemErro: Option<string>)

  /** The log after `registrar`, and the entry it returned (`None` for `null`). */
  datatype Registered = Registered(log: seq<AuditEntry>, entry: Option<AuditEntry>)

  /**
   * `AuditLog.registrar(dados)` at clock `now`.  A missing or empty
   * `usuario_nome` fails validation and a write failure (`writable` false)
   * fails the save; both are caught and give `null` with the log unchanged.
   */
  function Registrar(log: seq<AuditEntry>, req: AuditRequest, now: int, writable: bool): (r: Registered)
    ensures r.entry.Some? <==> writable && req.usuarioNome.Some? && req.usuarioNome.value != ""
    ensures r.entry.None? ==> r.log == log
    ensures r.entry.Some? ==> r.log == log + [r.entry.value]
    ensures r.entry.Some? ==> var e := r.entry.value;
      && e.timestamp == now
      && e.usuarioId == req.usuarioId && Some(e.usuarioNome) == req.usuarioNome
      && e.acao == req.acao && e.entidade == req.entidade && e.entidadeId == req.entidadeId
      && e.dadosAnteriores == req.dadosAnteriores && e.dadosNovos == req.dadosNovos
      && e.status == OptionOr(req.status, Sucesso) && e.mensagemErro == req.mensagemErro
  {
    match req.usuarioNome
    case None => Registered(log, None)
    case Some(nome) =>
      if nome == "" || !writable then Registered(log, None)
      else
        var e := AuditEntry(now, req.usuarioId, nome, req.acao, req.entidade, req.entidadeId,
                            req.dadosAnteriores, req.dadosNovos, OptionOr(req.status, Sucesso),
                            req.mensagemErro);
        Registered(log + [e], Some(e))
  }

  /** `registrar` never rewrites history: the old log is a prefix of the new one. */
  lemma RegistrarAppendOnly(log: seq<AuditEntry>, req: AuditRequest, now: int, writable: bool)
    ensures var r := Registrar(log, req, now, writable);
      |log| <= |r.log| <= |log| + 1 && r.log[..|log|] == log
  {
    var r := Registrar(log, req, now, writable);
    if r.entry.Some? {
      assert r.log[..|log|] == log;
    }
  }

  // ---------------------------------------------------------------------
  // Queries
  // ---------------------------------------------------------------------

  /** The two lookups: `{ usuario_id }` and `{ entidade, entidade_id }`. */
  datatype Query = ByUser(usuarioId: string) | ByEntity(entidade: Entity, entidadeId: string)

  predicate Matches(e: AuditEntry, q: Query)
  {
    match q
    case ByUser(id) => e.usuarioId == Some(id)
    case ByEntity(ent, id) => e.entidade == ent && e.entidadeId == Some(id)
  }

  /** `sort({ timestamp: -1 })`: no entry is later than one before it. */
  predicate NewestFirst(s: seq<AuditEntry>)
  {
    forall i, j :: 0 <= i < j < |s| ==> s[i].timestamp >= s[j].timestamp
  }

  /** The entries of `s` with timestamps at most `t`. */
  predicate NoLaterThan(s: seq<AuditEntry>, t: int)
  {
    forall k :: 0 <= k < |s| ==> s[k].timestamp <= t
  }

  /** The head of a newest-first list is no older than anything in its tail with one older entry added. */
  lemma HeadLeadsInsertion(s: seq<AuditEntry>, x: AuditEntry, rest: seq<AuditEntry>)
    requires NewestFirst(s) && s != [] && s[0].timestamp >= x.timestamp
    requires multiset(rest) == multiset(s[1..]) + multiset{x}
    ensures forall k :: 0 <= k < |rest| ==> s[0].timestamp >= rest[k].timestamp
  {
    forall k | 0 <= k < |rest|
      ensures s[0].timestamp >= rest[k].timestamp
    {
      assert rest[k] in multiset(rest);
      if rest[k] != x {
        assert rest[k] in multiset(s[1..]);
        var i :| 0 <= i < |s[1..]| && s[1..][i] == rest[k];
        assert s[i + 1] == rest[k];
      }
    }
  }

  /**
   * Places `x` in a newest-first list: before the first entry strictly
   * older than it, so among equal timestamps it goes after those already
   * placed.
   */
  function InsertNewest(x: AuditEntry, s: seq<AuditEntry>): (r: seq<AuditEntry>)
    requires NewestFirst(s)
    ensures NewestFirst(r)
    ensures multiset(r) == multiset(s) + multiset{x}
    ensures |r| == |s| + 1
    ensures s != [] && s[0].timestamp >= x.timestamp ==> r[0] == s[0]
  {
    if s == [] || x.timestamp > s[0].timestamp then
      [x] + s
    else
      var rest := InsertNewest(x, s[1..]);
      assert s == [s[0]] + s[1..];
      HeadLeadsInsertion(s, x, rest);
      [s[0]] + rest
  }

  /**
   * The sort a query applies: a newest-first permutation of its input in
   * which, among equal timestamps, the entry written later comes first.
   */
  function SortNewestFirst(s: seq<AuditEntry>): (r: seq<AuditEntry>)
    ensures NewestFirst(r)
    ensures multiset(r) == multiset(s)
    ensures |r| == |s|
  {
    if s == [] then []
    else
      assert s == [s[0]] + s[1..];
      InsertNewest(s[0], SortNewestFirst(s[1..]))
  }

  /** An entry written last, no older than any before it, heads the sorted result. */
  lemma {:induction false} LatestHeadsSort(s: seq<AuditEntry>, x: AuditEntry)
    requires NoLaterThan(s, x.timestamp)
    ensures SortNewestFirst(s + [x])[0] == x
  {
    if s == [] {
      assert [] + [x] == [x];
    } else {
      assert (s + [x])[1..] == s[1..] + [x];
      assert s[0].timestamp <= x.timestamp;
      LatestHeadsSort(s[1..], x);
    }
  }

  /** The query as a test on one entry. */
  function QueryFilter(q: Query): AuditEntry -> bool
  {
    e => Matches(e, q)
  }

  /** `find(q).sort({ timestamp: -1 })`: exactly the matching entries, each as often as it is logged, newest first. */
  function MatchingNewestFirst(log: seq<AuditEntry>, q: Query): (r: seq<AuditEntry>)
    ensures |r| <= |log|
    ensures NewestFirst(r)
    ensures forall e :: e in r <==> e in log && Matches(e, q)
    ensures forall e :: multiset(r)[e] == if Matches(e, q) then multiset(log)[e] else 0
  {
    var m := Select(log, QueryFilter(q));
    var r := SortNewestFirst(m);
    assert forall e :: e in r <==> e in m by {
      forall e
        ensures e in r <==> e in m
      {
        assert e in r <==> e in multiset(r);
        assert e in m <==> e in multiset(m);
      }
    }
    r
  }

  /** Selecting entries keeps every timestamp bound. */
  lemma SelectedNoLater(log: seq<AuditEntry>, keep: AuditEntry -> bool, t: int)
    requires NoLaterThan(log, t)
    ensures NoLaterThan(Select(log, keep), t)
  {
    var m := Select(log, keep);
    forall k | 0 <= k < |m|
      ensures m[k].timestamp <= t
    {
      assert m[k] in log;
    }
  }

  /** An entry appended last, matching the query and no older than the log, heads its answer. */
  lemma {:induction false} LatestMatchHeads(log: seq<AuditEntry>, x: AuditEntry, q: Query)
    requires NoLaterThan(log, x.timestamp) && Matches(x, q)
    ensures MatchingNewestFirst(log + [x], q)[0] == x
  {
    var keep := QueryFilter(q);
    var m := Select(log, keep);
    SelectConcat(log, [x], keep);
    assert Select([x], keep) == [x] + Select([], keep);
    assert Select(log + [x], keep) == m + [x];
    SelectedNoLater(log, keep, x.timestamp);
    LatestHeadsSort(m, x);
  }

  /** `.limit(limite)`: MongoDB reads a limit of 0 as no limit. */
  function Limit(s: seq<AuditEntry>, limite: nat): (r: seq<AuditEntry>)
    ensures limite == 0 || |s| <= limite ==> r == s
    ensures limite > 0 ==> |r| <= limite
    ensures limite > 0 && |s| > limite ==> |r| == limite
    ensures |r| <= |s| && r == s[..|r|]
  {
    if limite == 0 || |s| <= limite then s else s[..limite]
  }

  /** Every prefix of the sorted matches holds only matching entries, newest first. */
  lemma AnswerPrefix(log: seq<AuditEntry>, q: Query, n: nat)
    requires n <= |MatchingNewestFirst(log, q)|
    ensures var r := MatchingNewestFirst(log, q)[..n];
      NewestFirst(r) && forall k :: 0 <= k < |r| ==> Matches(r[k], q) && r[k] in log
  {
    var m := MatchingNewestFirst(log, q);
    var r := m[..n];
    forall k | 0 <= k < |r|
      ensures Matches(r[k], q) && r[k] in log
    {
      assert r[k] == m[k] && m[k] in m;
    }
  }

  /** The default `limite = 50` of both queries. */
  const DefaultLimit: nat := 50

  /** `buscarPorUsuario(usuarioId, limite)` and `buscarPorEntidade(entidade, entidadeId, limite)`. */
  function Buscar(log: seq<AuditEntry>, q: Query, limite: Option<nat>): (r: seq<AuditEntry>)
    ensures forall k :: 0 <= k < |r| ==> Matches(r[k], q) && r[k] in log
    ensures OptionOr(limite, DefaultLimit) > 0 ==> |r| <= OptionOr(limite, DefaultLimit)
    ensures NewestFirst(r)
    ensures |r| <= |MatchingNewestFirst(log, q)| && r == MatchingNewestFirst(log, q)[..|r|]
    ensures var m := MatchingNewestFirst(log, q); var c := OptionOr(limite, DefaultLimit);
      |r| == if c == 0 || |m| <= c then |m| else c
  {
    var m := MatchingNewestFirst(log, q);
    var r := Limit(m, OptionOr(limite, DefaultLimit));
    AnswerPrefix(log, q, |r|);
    r
  }

  /** Without a cap, or below it, every matching entry is returned. */
  lemma BuscarComplete(log: seq<AuditEntry>, q: Query, limite: Option<nat>, e: AuditEntry)
    requires e in log && Matches(e, q)
    requires OptionOr(limite, DefaultLimit) == 0 || |MatchingNewestFirst(log, q)| <= OptionOr(limite, DefaultLimit)
    ensures e in Buscar(log, q, limite)
  {
  }

  /**
   * An entry just written, when no logged entry is stamped later than the
   * clock, is the first answer to any query it matches.
   */
  lemma {:induction false} NewEntryFirst(log: seq<AuditEntry>, req: AuditRequest, now: int, q: Query, limite: Option<nat>)
    requires NoLaterThan(log, now)
    requires Registrar(log, req, now, true).entry.Some?
    requires Matches(Registrar(log, req, now, true).entry.value, q)
    ensures var r := Registrar(log, req, now, true);
      Buscar(r.log, q, limite) != [] && Buscar(r.log, q, limite)[0] == r.entry.value
  {
    var r := Registrar(log, req, now, true);
    assert r.log == log + [r.entry.value];
    LatestMatchHeads(log, r.entry.value, q);
    assert |MatchingNewestFirst(r.log, q)| > 0;
  }
}

=== FILE: auth_controller.dfy ===
/**
 * The authentication controller of the backend (`authController`): the
 * login of doctors and patients by CPF and password, and the registration
 * of a doctor.  The lookups are by CPF over the stored records, as the
 * source means them; `LoginAsWritten` and `RegisteredDoctorAsWritten` run
 * the `where` filter the source actually passes.
 */
module AuthController {
  import opened Base
  import opened Js
  import opened Text
  import opened Schema
  import opened MedicoModel
  import opened PacienteModel
  import opened HashUtils
  import opened JwtUtils
  import opened AuditLog
  import opened Roles
  import opened Database
  import AuthMiddleware

  const MsgMissingCredentials := "CPF e senha são obrigatórios"
  const MsgBadCredentials := "CPF ou senha inválidos"
  const MsgNoPassword := "Usuário sem senha cadastrada. Entre em contato com o administrador."
  const MsgDoctorInactive := "Usuário inativo. Entre em contato com o administrador."
  const MsgPatientInactive := "Paciente inativo. Entre em contato com o administrador."
  const MsgLoggedIn := "Login realizado com sucesso"
  const MsgLoginFailed := "Erro ao realizar login"

  const MsgAllRequired := "Todos os campos obrigatórios devem ser preenchidos"
  const MsgRegistered := "Médico cadastrado com sucesso"
  const MsgRegisterFailed := "Erro ao cadastrar médico"

  /** The audit identity of a login attempt for an unknown CPF. */
  const UnknownUserId := "desconhecido"
  const UnknownUserName := "Tentativa de login"

  // ---------------------------------------------------------------------
  // Account lookup
  // ---------------------------------------------------------------------

  /**
   * The lookup the login and the registration mean: the first doctor, in
   * store order, holding that CPF.  The source writes it as
   * `findOne({ where: { cpf } })`; see `FindAccountWith` for what that
   * filter finds.
   */
  function DoctorByCpf(ds: seq<Doctor>, cpf: string): (r: Option<nat>)
    ensures r.Some? ==> r.value < |ds| && ds[r.value].cpf == cpf
    ensures r.Some? ==> forall k :: 0 <= k < r.value ==> ds[k].cpf != cpf
    ensures r.None? <==> !DoctorCpfTaken(ds, cpf, None)
  {
    if ds == [] then None
    else if ds[0].cpf == cpf then Some(0)
    else match DoctorByCpf(ds[1..], cpf)
      case None =>
        assert forall k :: 1 <= k < |ds| ==> ds[k] == ds[1..][k - 1];
        None
      case Some(k) =>
        assert forall j :: 1 <= j < k + 1 ==> ds[j] == ds[1..][j - 1];
        Some(k + 1)
  }

  function PatientByCpf(ps: seq<Patient>, cpf: string): (r: Option<nat>)
    ensures r.Some? ==> r.value < |ps| && ps[r.value].cpf == cpf
    ensures r.Some? ==> forall k :: 0 <= k < r.value ==> ps[k].cpf != cpf
    ensures r.None? <==> !PatientCpfTaken(ps, cpf, None)
  {
    if ps == [] then None
    else if ps[0].cpf == cpf then Some(0)
    else match PatientByCpf(ps[1..], cpf)
      case None =>
        assert forall k :: 1 <= k < |ps| ==> ps[k] == ps[1..][k - 1];
        None
      case Some(k) =>
        assert forall j :: 1 <= j < k + 1 ==> ps[j] == ps[1..][j - 1];
        Some(k + 1)
  }

  /** The account a login found, with its kind (`tipoUsuario`). */
  datatype Account = DoctorAccount(d: Doctor) | PatientAccount(p: Patient)

  /** The doctors are searched first; only a CPF no doctor holds is looked up among patients. */
  function FindAccount(db: Db, cpf: string): (a: Option<Account>)
    ensures a.None? <==> !DoctorCpfTaken(db.doctors, cpf, None) && !PatientCpfTaken(db.patients, cpf, None)
    ensures a.Some? ==> (a.value.DoctorAccount? <==> DoctorCpfTaken(db.doctors, cpf, None))
    ensures a.Some? && a.value.DoctorAccount? ==> a.value.d in db.doctors && a.value.d.cpf == cpf
    ensures a.Some? && a.value.PatientAccount? ==> a.value.p in db.patients && a.value.p.cpf == cpf
  {
    match DoctorByCpf(db.doctors, cpf)
    case Some(k) => Some(DoctorAccount(db.doctors[k]))
    case None =>
      match PatientByCpf(db.patients, cpf)
      case Some(k) => Some(PatientAccount(db.patients[k]))
      case None => None
  }

  /** The stored doctor and patient documents, in store order: what `findOne` scans. */
  function DoctorDocs(ds: seq<Doctor>): (docs: seq<Document>)
    ensures |docs| == |ds| && forall k :: 0 <= k < |ds| ==> docs[k] == DoctorDocument(ds[k])
  {
    seq(|ds|, k requires 0 <= k < |ds| => DoctorDocument(ds[k]))
  }

  function PatientDocs(ps: seq<Patient>): (docs: seq<Document>)
    ensures |docs| == |ps| && forall k :: 0 <= k < |ps| ==> docs[k] == PatientDocument(ps[k])
  {
    seq(|ps|, k requires 0 <= k < |ps| => PatientDocument(ps[k]))
  }

  /** `{ cpf }` and `{ crm }`: the filters the lookups mean (the `trim` setter applies to the CRM). */
  function CpfFilter(cpf: string): Filter
  {
    PathIs("cpf", Str(cpf))
  }

  function CrmFilter(crm: string): Filter
  {
    PathIs("crm", Str(Trim(crm)))
  }

  /** `{ where: { ... } }`: the Sequelize-style filter the source hands to Mongoose. */
  function WhereFilter(inner: Filter): Filter
  {
    PathHoldsObject("where", inner)
  }

  /**
   * The login lookup with filter `f`: `Medico.findOne(f)`, and only when
   * that finds nothing, `Paciente.findOne(f)`.
   */
  function FindAccountWith(db: Db, f: Filter): (a: Option<Account>)
    ensures a.None? <==>
      (forall k :: 0 <= k < |db.doctors| ==> !FilterMatches(DoctorDocument(db.doctors[k]), f)) &&
      (forall k :: 0 <= k < |db.patients| ==> !FilterMatches(PatientDocument(db.patients[k]), f))
    ensures a.Some? && a.value.DoctorAccount? ==> a.value.d in db.doctors && FilterMatches(DoctorDocument(a.value.d), f)
    ensures a.Some? && a.value.PatientAccount? ==> a.value.p in db.patients && FilterMatches(PatientDocument(a.value.p), f)
  {
    match FindOne(DoctorDocs(db.doctors), f)
    case Some(k) => Some(DoctorAccount(db.doctors[k]))
    case None =>
      match FindOne(PatientDocs(db.patients), f)
      case Some(k) => Some(PatientAccount(db.patients[k]))
      case None => None
  }

  /** The `{ cpf }` filter matches a stored document exactly when the record holds that CPF. */
  lemma DoctorCpfFilter(d: Doctor, cpf: string)
    ensures FilterMatches(DoctorDocument(d), CpfFilter(cpf)) <==> d.cpf == cpf
  {
    assert DoctorDocument(d)["cpf"] == Str(d.cpf);
  }

  lemma PatientCpfFilter(p: Patient, cpf: string)
    ensures FilterMatches(PatientDocument(p), CpfFilter(cpf)) <==> p.cpf == cpf
  {
    assert PatientDocument(p)["cpf"] == Str(p.cpf);
  }

  /** With the `{ cpf }` filter, `findOne` on the doctors is the CPF lookup. */
  lemma {:induction false} DoctorCpfFilterIsByCpf(ds: seq<Doctor>, cpf: string)
    ensures FindOne(DoctorDocs(ds), CpfFilter(cpf)) == DoctorByCpf(ds, cpf)
  {
    var docs := DoctorDocs(ds);
    var r := FindOne(docs, CpfFilter(cpf));
    var q := DoctorByCpf(ds, cpf);
    forall k | 0 <= k < |ds|
      ensures FilterMatches(docs[k], CpfFilter(cpf)) <==> ds[k].cpf == cpf
    {
      DoctorCpfFilter(ds[k], cpf);
    }
    if q.Some? {
      assert FilterMatches(docs[q.value], CpfFilter(cpf));
      assert r.Some? && r.value <= q.value;
      // Both are the first match, so neither index is below the other.
      assert !FilterMatches(docs[r.value], CpfFilter(cpf)) || r.value >= q.value;
    } else {
      assert forall k :: 0 <= k < |docs| ==> !FilterMatches(docs[k], CpfFilter(cpf));
    }
  }

  /** The same on the patients. */
  lemma {:induction false} PatientCpfFilterIsByCpf(ps: seq<Patient>, cpf: string)
    ensures FindOne(PatientDocs(ps), CpfFilter(cpf)) == PatientByCpf(ps, cpf)
  {
    var docs := PatientDocs(ps);
    var r := FindOne(docs, CpfFilter(cpf));
    var q := PatientByCpf(ps, cpf);
    forall k | 0 <= k < |ps|
      ensures FilterMatches(docs[k], CpfFilter(cpf)) <==> ps[k].cpf == cpf
    {
      PatientCpfFilter(ps[k], cpf);
    }
    if q.Some? {
      assert FilterMatches(docs[q.value], CpfFilter(cpf));
      assert r.Some? && r.value <= q.value;
      // Both are the first match, so neither index is below the other.
      assert !FilterMatches(docs[r.value], CpfFilter(cpf)) || r.value >= q.value;
    } else {
      assert forall k :: 0 <= k < |docs| ==> !FilterMatches(docs[k], CpfFilter(cpf));
    }
  }

  /** The lookup the source means: with the `{ cpf }` filter it is `FindAccount`. */
  lemma CpfFilterIsFindAccount(db: Db, cpf: string)
    ensures FindAccountWith(db, CpfFilter(cpf)) == FindAccount(db, cpf)
  {
    DoctorCpfFilterIsByCpf(db.doctors, cpf);
    PatientCpfFilterIsByCpf(db.patients, cpf);
  }

  /**
   * The lookup as written, `findOne({ where: { cpf } })`: no stored doctor
   * or patient has a `where` path, so it finds no one, whatever the CPF.
   */
  lemma WhereFindsNoOne(db: Db, cpf: string, crm: string)
    ensures FindAccountWith(db, WhereFilter(CpfFilter(cpf))).None?
    ensures FindOne(DoctorDocs(db.doctors), WhereFilter(CpfFilter(cpf))).None?
    ensures FindOne(DoctorDocs(db.doctors), WhereFilter(CrmFilter(crm))).None?
  {
  }

  function AccountId(a: Account): string
  {
    match a
    case DoctorAccount(d) => d.id
    case PatientAccount(p) => p.id
  }

  function AccountNome(a: Account): string
  {
    match a
    case DoctorAccount(d) => d.nome
    case PatientAccount(p) => p.nome
  }

  /** The stored hash; a patient may have none. */
  function AccountSenha(a: Account): Option<string>
  {
    match a
    case DoctorAccount(d) => Some(d.senha)
    case PatientAccount(p) => p.senha
  }

  function Tipo(a: Account): string
  {
    if a.DoctorAccount? then "medico" else "paciente"
  }

  /** The role a login issues: a doctor's stored role, always `paciente` for a patient. */
  function IssuedRole(a: Account): string
  {
    match a
    case DoctorAccount(d) => d.role
    case PatientAccount(_) => "paciente"
  }

  /** The activeness login requires: `ativo` for a doctor, status `ativo` for a patient. */
  predicate Active(a: Account)
  {
    match a
    case DoctorAccount(d) => IsActive(d)
    case PatientAccount(p) => p.status == "ativo"
  }

  /** The claims a login signs: id, name, issued role and account kind, valid for the configured lifetime (24 hours by default). */
  function LoginClaims(a: Account, now: int, expiresIn: Option<int>): (r: Result<Claims, string>)
    ensures r.Ok? <==> AccountId(a) != ""
    ensures r.Ok? ==> r.value.id == AccountId(a) && r.value.nome == Some(AccountNome(a))
    ensures r.Ok? ==> r.value.tipo == Some(Tipo(a)) && r.value.exp == now + Lifetime(expiresIn)
    ensures r.Ok? && a.PatientAccount? ==> r.value.role == Some("paciente")
    ensures r.Ok? && a.DoctorAccount? && a.d.role in DoctorRoles ==> r.value.role == Some(a.d.role)
  {
    GerarToken(Some(TokenRequest(Given(AccountId(a)), Some(AccountNome(a)), Given(IssuedRole(a)), Given(Tipo(a)))), now, expiresIn)
  }

  /** The `usuario` of the login reply: common fields, then `crm`, or `email`, `telefone` and `status`. */
  function LoginUser(a: Account): (u: Document)
    ensures "senha" !in u
    ensures "id" in u && u["id"] == Str(AccountId(a))
    ensures "role" in u && u["role"] == Str(IssuedRole(a))
    ensures "tipo" in u && u["tipo"] == Str(Tipo(a))
    ensures "crm" in u <==> a.DoctorAccount?
    ensures "status" in u <==> a.PatientAccount?
  {
    match a
    case DoctorAccount(d) =>
      map["id" := Str(d.id), "nome" := Str(d.nome), "cpf" := Str(d.cpf), "plano" := Str(d.plano),
          "role" := Str(d.role), "tipo" := Str("medico"), "crm" := Str(d.crm)]
    case PatientAccount(p) =>
      map["id" := Str(p.id), "nome" := Str(p.nome), "cpf" := Str(p.cpf), "plano" := Str(p.plano),
          "role" := Str("paciente"), "tipo" := Str("paciente"), "email" := Nullable(p.email),
          "telefone" := Nullable(p.telefone), "status" := Str(p.status)]
  }

  /** The body of a successful login or registration: the token and the user, without the password. */
  datatype Session = Session(token: string, usuario: Document)

  /** The credentials would be accepted: a stored password that bcrypt matches. */
  predicate PasswordMatches(a: Account, senha: string, b: Bcrypt)
  {
    AccountSenha(a).Some? && CompararSenha(Str(senha), Str(AccountSenha(a).value), b)
  }

  // ---------------------------------------------------------------------
  // login
  // ---------------------------------------------------------------------

  /**
   * `login(req)` with body `{ cpf, senha }`: missing fields are a 400; an
   * unknown CPF and a wrong password are the same 401; an account without a
   * password or an inactive one is refused before the comparison.
   */
  function Login(db: Db, cpf: Field<string>, senha: Field<string>, env: Env): (o: Outcome<Session>)
    ensures o.db.doctors == db.doctors && o.db.patients == db.patients && o.db.appointments == db.appointments
    ensures |db.audit| <= |o.db.audit| <= |db.audit| + 1 && o.db.audit[..|db.audit|] == db.audit
    ensures !Present(cpf) || !Present(senha) ==> o == Outcome(db, Failure(400, MsgMissingCredentials, []))
    ensures Present(cpf) && Present(senha) && FindAccount(db, cpf.value).Some? ==> var a := FindAccount(db, cpf.value).value;
      && (AccountSenha(a).None? || AccountSenha(a).value == "" ==> o == Outcome(db, Failure(401, MsgNoPassword, [])))
      && (AccountSenha(a).Some? && AccountSenha(a).value != "" && a.DoctorAccount? && !IsActive(a.d) ==>
            o == Outcome(db, Failure(401, MsgDoctorInactive, [])))
      && (AccountSenha(a).Some? && AccountSenha(a).value != "" && a.PatientAccount? && a.p.status != "ativo" ==>
            o == Outcome(db, Failure(401, MsgPatientInactive, [])))
    ensures o.reply.Failure? && o.reply.message == MsgBadCredentials <==>
      && Present(cpf) && Present(senha)
      && (FindAccount(db, cpf.value).None? ||
          var a := FindAccount(db, cpf.value).value;
          AccountSenha(a).Some? && AccountSenha(a).value != "" && Active(a) && !PasswordMatches(a, senha.value, env.bcrypt))
    ensures o.reply.Failure? && o.reply.message == MsgBadCredentials ==> o.reply.status == 401
    ensures o.reply.Success? <==>
      && Present(cpf) && Present(senha) && FindAccount(db, cpf.value).Some?
      && var a := FindAccount(db, cpf.value).value;
      && Active(a) && PasswordMatches(a, senha.value, env.bcrypt) && AccountId(a) != ""
    ensures o.reply.Success? ==> var a := FindAccount(db, cpf.value).value;
      && o.reply.status == 200
      && o.reply.data.token == env.keys.sign(LoginClaims(a, env.now, env.jwtExpiresIn).value)
      && o.reply.data.usuario == LoginUser(a)
  {
    if !Present(cpf) || !Present(senha) then Outcome(db, Failure(400, MsgMissingCredentials, []))
    else LoginFound(db, senha, FindAccount(db, cpf.value), env)
  }

  /** The rest of `login` once the lookup has answered `found`. */
  function LoginFound(db: Db, senha: Field<string>, found: Option<Account>, env: Env): (o: Outcome<Session>)
    requires Present(senha)
    ensures o.db.doctors == db.doctors && o.db.patients == db.patients && o.db.appointments == db.appointments
    ensures |db.audit| <= |o.db.audit| <= |db.audit| + 1 && o.db.audit[..|db.audit|] == db.audit
    ensures found.None? ==> o.reply == Failure(401, MsgBadCredentials, [])
    ensures found.None? && env.auditWritable ==> |o.db.audit| == |db.audit| + 1 && o.db.audit[|db.audit|].usuarioId == Some(UnknownUserId)
    ensures found.Some? ==> var a := found.value;
      && (AccountSenha(a).None? || AccountSenha(a).value == "" ==> o == Outcome(db, Failure(401, MsgNoPassword, [])))
      && (AccountSenha(a).Some? && AccountSenha(a).value != "" && a.DoctorAccount? && !IsActive(a.d) ==>
            o == Outcome(db, Failure(401, MsgDoctorInactive, [])))
      && (AccountSenha(a).Some? && AccountSenha(a).value != "" && a.PatientAccount? && a.p.status != "ativo" ==>
            o == Outcome(db, Failure(401, MsgPatientInactive, [])))
    ensures o.reply.Failure? && o.reply.message == MsgBadCredentials <==>
      found.None? ||
      var a := found.value;
      AccountSenha(a).Some? && AccountSenha(a).value != "" && Active(a) && !PasswordMatches(a, senha.value, env.bcrypt)
    ensures o.reply.Failure? && o.reply.message == MsgBadCredentials ==> o.reply.status == 401
    ensures o.reply.Success? <==>
      found.Some? && Active(found.value) && PasswordMatches(found.value, senha.value, env.bcrypt) && AccountId(found.value) != ""
    ensures o.reply.Success? ==> var a := found.value;
      && o.reply.status == 200
      && o.reply.data.token == env.keys.sign(LoginClaims(a, env.now, env.jwtExpiresIn).value)
      && o.reply.data.usuario == LoginUser(a)
  {
    match found
    case None =>
      var req := AuditRequest(Some(UnknownUserId), Some(UnknownUserName), LoginFailed, AuthEntity, None,
                              None, None, Some(Falha), Some("CPF não encontrado"));
      Outcome(Audit(db, req, env), Failure(401, MsgBadCredentials, []))
    case Some(a) =>
      if AccountSenha(a).None? || AccountSenha(a).value == "" then Outcome(db, Failure(401, MsgNoPassword, []))
      else if a.DoctorAccount? && !IsActive(a.d) then Outcome(db, Failure(401, MsgDoctorInactive, []))
      else if a.PatientAccount? && a.p.status != "ativo" then Outcome(db, Failure(401, MsgPatientInactive, []))
      else if !CompararSenha(AsValue(senha), Str(AccountSenha(a).value), env.bcrypt) then
        var req := AuditRequest(Some(AccountId(a)), Some(AccountNome(a)), LoginFailed, AuthEntity, None,
                                None, None, Some(Falha), Some("Senha incorreta"));
        Outcome(Audit(db, req, env), Failure(401, MsgBadCredentials, []))
      else
        match LoginClaims(a, env.now, env.jwtExpiresIn)
        case Err(_) => Outcome(db, Failure(500, MsgLoginFailed, []))
        case Ok(c) =>
          var req := AuditRequest(Some(AccountId(a)), Some(AccountNome(a)), AuditLog.Login, AuthEntity, None,
                                  None, None, Some(Sucesso), None);
          Outcome(Audit(db, req, env), Success(200, MsgLoggedIn, Session(env.keys.sign(c), LoginUser(a))))
  }

  /**
   * `login` as written: both lookups are `findOne({ where: { cpf } })`,
   * which finds no one, so every complete request is the unknown-CPF 401,
   * logged as a failed attempt.
   */
  function LoginAsWritten(db: Db, cpf: Field<string>, senha: Field<string>, env: Env): (o: Outcome<Session>)
    ensures o.db.doctors == db.doctors && o.db.patients == db.patients && o.db.appointments == db.appointments
    ensures !Present(cpf) || !Present(senha) ==> o == Outcome(db, Failure(400, MsgMissingCredentials, []))
    ensures Present(cpf) && Present(senha) ==> o.reply == Failure(401, MsgBadCredentials, [])
    ensures Present(cpf) && Present(senha) && env.auditWritable ==>
      |o.db.audit| == |db.audit| + 1 && o.db.audit[|db.audit|].usuarioId == Some(UnknownUserId)
  {
    if !Present(cpf) || !Present(senha) then Outcome(db, Failure(400, MsgMissingCredentials, []))
    else
      WhereFindsNoOne(db, cpf.value, "");
      LoginFound(db, senha, FindAccountWith(db, WhereFilter(CpfFilter(cpf.value))), env)
  }

  /**
   * As written, no one logs in: a request that the intended CPF lookup
   * accepts is refused with 401.
   */
  lemma LoginAsWrittenLocksOut(db: Db, cpf: Field<string>, senha: Field<string>, env: Env)
    requires Login(db, cpf, senha, env).reply.Success?
    ensures Login(db, cpf, senha, env).reply.status == 200
    ensures LoginAsWritten(db, cpf, senha, env).reply == Failure(401, MsgBadCredentials, [])
  {
  }

  /** The same CPF held by a doctor and a patient logs in as the doctor. */
  lemma DoctorBeforePatient(db: Db, cpf: string, senha: Field<string>, env: Env)
    requires DoctorCpfTaken(db.doctors, cpf, None) && PatientCpfTaken(db.patients, cpf, None)
    requires Login(db, Given(cpf), senha, env).reply.Success?
    ensures Login(db, Given(cpf), senha, env).reply.data.usuario["tipo"] == Str("medico")
  {
  }

  /** A store record with a unique id is found again by its id. */
  lemma DoctorIndexOf(ds: seq<Doctor>, k: nat)
    requires DoctorsConsistent(ds) && k < |ds|
    ensures DoctorIndex(ds, ds[k].id) == Some(k)
  {
  }

  lemma PatientIndexOf(ps: seq<Patient>, k: nat)
    requires PatientsConsistent(ps) && k < |ps|
    ensures PatientIndex(ps, ps[k].id) == Some(k)
  {
  }

  /**
   * The claims a login signs for a stored, active account authenticate
   * that account for the token lifetime: `autenticar` looks the id up again and
   * attaches the same id, kind and role.
   */
  lemma {:induction false} ClaimsAuthenticate(db: Db, a: Account, k: Keys, now: int, expiresIn: Option<int>, t: int)
    requires SoundKeys(k)
    requires DoctorsConsistent(db.doctors) && PatientsConsistent(db.patients)
    requires a.DoctorAccount? ==> a.d in db.doctors
    requires a.PatientAccount? ==> a.p in db.patients
    requires Active(a) && AccountId(a) != ""
    requires now <= t < now + Lifetime(expiresIn)
    ensures var r := AuthMiddleware.Autenticar(Some("Bearer " + k.sign(LoginClaims(a, now, expiresIn).value)), db, k, t);
      && r.Attached?
      && r.usuario.id == AccountId(a)
      && r.usuario.tipo == Tipo(a)
      && r.usuario.role == IssuedRole(a)
  {
    var c := LoginClaims(a, now, expiresIn).value;
    var token := k.sign(c);
    ExtrairBearer(token);
    VerifySigned(c, k, t);
    assert VerificarToken(token, k, t) == Ok(c);
    AccountLookup(db, a, now, expiresIn);
  }

  /** The claims issued at login find the same account again. */
  lemma AccountLookup(db: Db, a: Account, now: int, expiresIn: Option<int>)
    requires DoctorsConsistent(db.doctors) && PatientsConsistent(db.patients)
    requires a.DoctorAccount? ==> a.d in db.doctors
    requires a.PatientAccount? ==> a.p in db.patients
    requires Active(a) && AccountId(a) != ""
    ensures var u := AuthMiddleware.Lookup(LoginClaims(a, now, expiresIn).value, db);
      && u.Ok? && u.value.id == AccountId(a) && u.value.tipo == Tipo(a) && u.value.role == IssuedRole(a)
  {
    var c := LoginClaims(a, now, expiresIn).value;
    assert AuthMiddleware.TipoUsuario(c) == Tipo(a);
    match a
    case DoctorAccount(d) =>
      var i :| 0 <= i < |db.doctors| && db.doctors[i] == d;
      DoctorFound(db, i, c);
    case PatientAccount(p) =>
      var i :| 0 <= i < |db.patients| && db.patients[i] == p;
      PatientFound(db, i, c);
  }

  lemma DoctorFound(db: Db, i: nat, c: Claims)
    requires DoctorsConsistent(db.doctors) && i < |db.doctors|
    requires c.id == db.doctors[i].id && AuthMiddleware.TipoUsuario(c) != "paciente" && IsActive(db.doctors[i])
    ensures AuthMiddleware.Lookup(c, db) == Ok(AuthMiddleware.DoctorIdentity(db.doctors[i]))
  {
    DoctorIndexOf(db.doctors, i);
  }

  lemma PatientFound(db: Db, i: nat, c: Claims)
    requires PatientsConsistent(db.patients) && i < |db.patients|
    requires c.id == db.patients[i].id && AuthMiddleware.TipoUsuario(c) == "paciente" && db.patients[i].status == "ativo"
    ensures AuthMiddleware.Lookup(c, db) == Ok(AuthMiddleware.PatientIdentity(db.patients[i]))
  {
    PatientIndexOf(db.patients, i);
  }

  /**
   * Login and the authentication middleware agree: within the token lifetime, the
   * token a successful login returns, sent as `Bearer <token>`, attaches
   * the logged-in account with the role the login issued.
   */
  lemma {:induction false} LoginTokenAuthenticates(db: Db, cpf: Field<string>, senha: Field<string>, env: Env, t: int)
    requires SoundKeys(env.keys)
    requires DoctorsConsistent(db.doctors) && PatientsConsistent(db.patients)
    requires Login(db, cpf, senha, env).reply.Success?
    requires env.now <= t < env.now + Lifetime(env.jwtExpiresIn)
    ensures var o := Login(db, cpf, senha, env);
      var a := FindAccount(db, cpf.value).value;
      var r := AuthMiddleware.Autenticar(Some("Bearer " + o.reply.data.token), o.db, env.keys, t);
      && r.Attached?
      && r.usuario.id == AccountId(a)
      && r.usuario.tipo == Tipo(a)
      && r.usuario.role == IssuedRole(a)
  {
    var o := Login(db, cpf, senha, env);
    var a := FindAccount(db, cpf.value).value;
    assert o.reply.data.token == env.keys.sign(LoginClaims(a, env.now, env.jwtExpiresIn).value);
    assert o.db.doctors == db.doctors && o.db.patients == db.patients;
    ClaimsAuthenticate(o.db, a, env.keys, env.now, env.jwtExpiresIn, t);
  }

  // ---------------------------------------------------------------------
  // registro
  // ---------------------------------------------------------------------

  /** The body of `POST /api/auth/registro`. */
  datatype Registro = Registro(
    nome: Field<string>,
    cpf: Field<string>,
    crm: Field<string>,
    dataNascimento: Field<string>,
    plano: Field<string>,
    senha: Field<string>,
    role: Field<string>)

  predicate RequiredPresent(b: Registro)
  {
    Present(b.nome) && Present(b.cpf) && Present(b.crm) && Present(b.dataNascimento) && Present(b.senha)
  }

  /** The `usuario` of the registration reply. */
  function RegisteredUser(d: Doctor): (u: Document)
    ensures "senha" !in u
    ensures "id" in u && u["id"] == Str(d.id)
    ensures "plano" in u && u["plano"] == Str(d.plano)
    ensures "role" in u && u["role"] == Str(d.role)
  {
    map["id" := Str(d.id), "nome" := Str(d.nome), "cpf" := Str(d.cpf), "crm" := Str(d.crm),
        "plano" := Str(d.plano), "role" := Str(d.role)]
  }

  /** The record `registro` asks to create with plan `plano`, once the setters have run. */
  function RegistrationRecord(b: Registro, env: Env, plano: string): (d: Doctor)
    ensures d.id == env.freshId && d.cpf == Raw(b.cpf) && d.plano == plano && d.role == OrElse(b.role, "medico")
    ensures d.senha == env.bcrypt.hash(Raw(b.senha)) && IsActive(d)
    ensures d.nome == Trim(Raw(b.nome)) && d.crm == Trim(Raw(b.crm))
  {
    Setters(Doctor(env.freshId, Raw(b.nome), Raw(b.cpf), Raw(b.crm), Raw(b.dataNascimento),
                   plano, env.bcrypt.hash(Raw(b.senha)), OrElse(b.role, "medico"), Some(true)))
  }

  /**
   * The checks of `registro` up to `Medico.create`, storing plan `plano`:
   * the required fields, the password rule, a free CPF and a free CRM, in
   * that order, each a 400.  The catch answers 400 only for a
   * `SequelizeValidationError`, which Mongoose never throws, so a record
   * the schema or a unique index refuses is a 500.
   */
  function RegisteredDoctor(db: Db, b: Registro, env: Env, plano: string): (r: Result<Doctor, Reply<Session>>)
    ensures !RequiredPresent(b) ==> r == Err(Failure(400, MsgAllRequired, []))
    ensures RequiredPresent(b) && !ValidarSenha(AsValue(b.senha)).valida ==>
      r == Err(Failure(400, ValidarSenha(AsValue(b.senha)).mensagem, []))
    ensures RequiredPresent(b) && ValidarSenha(AsValue(b.senha)).valida && DoctorCpfTaken(db.doctors, b.cpf.value, None) ==>
      r == Err(Failure(400, MsgCpfTaken, []))
    ensures (RequiredPresent(b) && ValidarSenha(AsValue(b.senha)).valida && !DoctorCpfTaken(db.doctors, b.cpf.value, None)
             && DoctorCrmTaken(db.doctors, b.crm.value, None)) ==> r == Err(Failure(400, MsgCrmTaken, []))
    ensures r.Err? ==> r.error.Failure? && r.error.status in {400, 500}
    ensures r.Ok? <==>
      && RequiredPresent(b) && ValidarSenha(AsValue(b.senha)).valida
      && !DoctorCpfTaken(db.doctors, b.cpf.value, None) && !DoctorCrmTaken(db.doctors, b.crm.value, None)
      && ValidDoctor(RegistrationRecord(b, env, plano))
      && DoctorKeysFree(db.doctors, RegistrationRecord(b, env, plano), None)
    ensures r.Ok? ==> r.value == RegistrationRecord(b, env, plano)
    ensures r.Ok? ==> var d := r.value;
      && RequiredPresent(b)
      && ValidDoctor(d) && d.id == env.freshId && IsActive(d) && d.cpf == b.cpf.value
      && d.plano == plano && d.role == OrElse(b.role, "medico")
      && d.senha == env.bcrypt.hash(b.senha.value)
      && DoctorKeysFree(db.doctors, d, None)
  {
    if !RequiredPresent(b) then Err(Failure(400, MsgAllRequired, []))
    else
      var check := ValidarSenha(AsValue(b.senha));
      if !check.valida then Err(Failure(400, check.mensagem, []))
      else if DoctorCpfTaken(db.doctors, b.cpf.value, None) then Err(Failure(400, MsgCpfTaken, []))
      else if DoctorCrmTaken(db.doctors, b.crm.value, None) then Err(Failure(400, MsgCrmTaken, []))
      else CreateRegistered(db, b, env, plano)
  }

  /** `Medico.create` for a registration past the 400 checks: a refusal is a 500. */
  function CreateRegistered(db: Db, b: Registro, env: Env, plano: string): (r: Result<Doctor, Reply<Session>>)
    requires RequiredPresent(b) && ValidarSenha(AsValue(b.senha)).valida
    ensures r.Err? ==> r.error == Failure(500, MsgRegisterFailed, [])
    ensures r.Ok? <==> ValidDoctor(RegistrationRecord(b, env, plano)) && DoctorKeysFree(db.doctors, RegistrationRecord(b, env, plano), None)
    ensures r.Ok? ==> r.value == RegistrationRecord(b, env, plano)
  {
    ValidPasswordHashes(b.senha.value, env.bcrypt);
    var senhaHash := HashSenha(AsValue(b.senha), env.bcrypt).value;
    var raw := Doctor(env.freshId, b.nome.value, b.cpf.value, b.crm.value, b.dataNascimento.value,
                      plano, senhaHash, OrElse(b.role, "medico"), Some(true));
    match BuildDoctor(raw)
    case Err(_) => Err(Failure(500, MsgRegisterFailed, []))
    case Ok(d) =>
      if DoctorDuplicateKey(db.doctors, d, None).Some? then Err(Failure(500, MsgRegisterFailed, []))
      else Ok(d)
  }

  /** The two duplicate-key answers of `registro`. */
  const CpfTakenReply: Reply<Session> := Failure(400, MsgCpfTaken, [])
  const CrmTakenReply: Reply<Session> := Failure(400, MsgCrmTaken, [])

  /**
   * The 400 checks of `registro` as written: the CPF and the CRM are looked
   * up with `findOne({ where: { ... } })`, which finds no one, so a taken
   * CPF or CRM goes on to `Medico.create` and its unique index.
   */
  function RegisteredDoctorAsWritten(db: Db, b: Registro, env: Env, plano: string): (r: Result<Doctor, Reply<Session>>)
    ensures !RequiredPresent(b) || !ValidarSenha(AsValue(b.senha)).valida ==> r == RegisteredDoctor(db, b, env, plano)
    ensures RequiredPresent(b) && ValidarSenha(AsValue(b.senha)).valida ==> r == CreateRegistered(db, b, env, plano)
    ensures r.Err? ==> r.error != CpfTakenReply && r.error != CrmTakenReply
  {
    if !RequiredPresent(b) then Err(Failure(400, MsgAllRequired, []))
    else
      var check := ValidarSenha(AsValue(b.senha));
      if !check.valida then Err(Failure(400, check.mensagem, []))
      else if FindOne(DoctorDocs(db.doctors), WhereFilter(CpfFilter(b.cpf.value))).Some? then Err(CpfTakenReply)
      else if FindOne(DoctorDocs(db.doctors), WhereFilter(CrmFilter(b.crm.value))).Some? then Err(CrmTakenReply)
      else CreateRegistered(db, b, env, plano)
  }

  /**
   * As written, registering a CPF some doctor already holds is a 500 from
   * the unique index, where the intended lookup answers 400 `CPF já
   * cadastrado`.
   */
  lemma {:induction false} TakenCpfAsWritten(db: Db, b: Registro, env: Env, plano: string, k: nat)
    requires RequiredPresent(b) && ValidarSenha(AsValue(b.senha)).valida
    requires k < |db.doctors| && db.doctors[k].cpf == b.cpf.value
    ensures RegisteredDoctor(db, b, env, plano) == Err(Failure(400, MsgCpfTaken, []))
    ensures RegisteredDoctorAsWritten(db, b, env, plano) == Err(Failure(500, MsgRegisterFailed, []))
  {
    assert DoctorCpfTaken(db.doctors, b.cpf.value, None);
    assert !DoctorKeysFree(db.doctors, RegistrationRecord(b, env, plano), None) by {
      assert RegistrationRecord(b, env, plano).cpf == db.doctors[k].cpf;
    }
  }

  /**
   * `registro(req)` storing plan `plano`: the doctor is saved and audited,
   * then a token is signed for it.  A token failure after the save is a
   * 500, with the doctor already stored.
   */
  function RegistroWith(db: Db, b: Registro, env: Env, plano: string): (o: Outcome<Session>)
    ensures o.db.patients == db.patients && o.db.appointments == db.appointments
    ensures |db.audit| <= |o.db.audit| <= |db.audit| + 1 && o.db.audit[..|db.audit|] == db.audit
    ensures RegisteredDoctor(db, b, env, plano).Err? ==> o == Outcome(db, RegisteredDoctor(db, b, env, plano).error)
    ensures RegisteredDoctor(db, b, env, plano).Ok? ==> o.db.doctors == db.doctors + [RegisteredDoctor(db, b, env, plano).value]
    ensures o.reply.Success? <==> RegisteredDoctor(db, b, env, plano).Ok? && env.freshId != ""
    ensures o.reply.Success? ==> var d := RegisteredDoctor(db, b, env, plano).value;
      && o.reply.status == 201
      && o.reply.data.usuario == RegisteredUser(d)
      && o.reply.data.token == env.keys.sign(Claims(d.id, Some(d.nome), None, Some(d.role), Some("medico"), None,
                                                    env.now, env.now + Lifetime(env.jwtExpiresIn)))
  {
    match RegisteredDoctor(db, b, env, plano)
    case Err(reply) => Outcome(db, reply)
    case Ok(d) =>
      var stored := db.(doctors := db.doctors + [d]);
      var req := AuditRequest(Some(d.id), Some(d.nome), Create, MedicoEntity, Some(d.id), None,
                              Some(map["nome" := Str(d.nome), "cpf" := Str(d.cpf), "crm" := Str(d.crm),
                                       "plano" := Str(d.plano), "role" := Str(d.role)]),
                              Some(Sucesso), None);
      var audited := Audit(stored, req, env);
      match GerarToken(Some(TokenRequest(Given(d.id), Some(d.nome), Given(d.role), Absent)), env.now, env.jwtExpiresIn)
      case Err(_) => Outcome(audited, Failure(500, MsgRegisterFailed, []))
      case Ok(c) => Outcome(audited, Success(201, MsgRegistered, Session(env.keys.sign(c), RegisteredUser(d))))
  }

  /** `registro` as written: a falsy `plano` becomes `básico`. */
  const WrittenDefaultPlano := "básico"

  /**
   * `registro` with the plan default as written, composed with the intended
   * CPF and CRM lookups (`RegistroWith`): a request without `plano` that
   * passes the 400 checks is refused by the plan enum, a 500.
   */
  function RegistroAsWritten(db: Db, b: Registro, env: Env): (o: Outcome<Session>)
    ensures !Present(b.plano) ==> !o.reply.Success?
    ensures !Present(b.plano) && RequiredPresent(b) && ValidarSenha(AsValue(b.senha)).valida
            && !DoctorCpfTaken(db.doctors, b.cpf.value, None) && !DoctorCrmTaken(db.doctors, b.crm.value, None) ==>
      o == Outcome(db, Failure(500, MsgRegisterFailed, []))
    ensures Present(b.plano) ==> o == RegistroWith(db, b, env, b.plano.value)
  {
    assert WrittenDefaultPlano !in PlanNames;
    assert !ValidDoctor(RegistrationRecord(b, env, WrittenDefaultPlano));
    RegistroWith(db, b, env, OrElse(b.plano, WrittenDefaultPlano))
  }

  /** `registro` with the default the schema admits, `nenhum`: the model's registration. */
  const DefaultPlano := "nenhum"

  function RegistroCorrected(db: Db, b: Registro, env: Env): (o: Outcome<Session>)
    ensures o.reply.Success? ==> |o.db.doctors| == |db.doctors| + 1 && o.db.doctors[|db.doctors|].plano == OrElse(b.plano, DefaultPlano)
    ensures Present(b.plano) ==> o == RegistroAsWritten(db, b, env)
  {
    RegistroWith(db, b, env, OrElse(b.plano, DefaultPlano))
  }

  /**
   * As written, leaving out `plano` makes every registration fail, even
   * one that succeeds when it names the plan `nenhum`.
   */
  lemma {:induction false} OmittedPlanNeverRegisters(db: Db, b: Registro, env: Env)
    ensures !RegistroAsWritten(db, b.(plano := Absent), env).reply.Success?
    ensures RegistroAsWritten(db, b.(plano := Given(DefaultPlano)), env) == RegistroCorrected(db, b.(plano := Given(DefaultPlano)), env)
  {
  }

  /**
   * Corrected, leaving out `plano` is the same request as sending `nenhum`:
   * it succeeds exactly when that one does, storing the same doctor.
   */
  lemma {:induction false} OmittedPlanIsNenhum(db: Db, b: Registro, env: Env)
    ensures RegistroCorrected(db, b.(plano := Absent), env) == RegistroCorrected(db, b.(plano := Given(DefaultPlano)), env)
  {
    var omitted := b.(plano := Absent);
    var named := b.(plano := Given(DefaultPlano));
    assert OrElse(omitted.plano, DefaultPlano) == DefaultPlano == OrElse(named.plano, DefaultPlano);
    RegistroIgnoresPlanField(db, omitted, named, env, DefaultPlano);
  }

  /** Once the effective plan is fixed, the `plano` field of the body plays no further part. */
  lemma RegistroIgnoresPlanField(db: Db, b1: Registro, b2: Registro, env: Env, plano: string)
    requires b1.(plano := Absent) == b2.(plano := Absent)
    ensures RegistroWith(db, b1, env, plano) == RegistroWith(db, b2, env, plano)
  {
    assert b1.nome == b2.nome && b1.cpf == b2.cpf && b1.crm == b2.crm && b1.dataNascimento == b2.dataNascimento
      && b1.senha == b2.senha && b1.role == b2.role by {
      assert b1.(plano := Absent).nome == b1.nome && b2.(plano := Absent).nome == b2.nome;
    }
    assert RegisteredDoctor(db, b1, env, plano) == RegisteredDoctor(db, b2, env, plano);
  }

  /** Registration keeps the stored doctors valid, with unique `_id`, `cpf` and `crm`. */
  lemma {:induction false} RegistroPreservesConsistency(db: Db, b: Registro, env: Env, plano: string)
    requires DoctorsConsistent(db.doctors)
    ensures DoctorsConsistent(RegistroWith(db, b, env, plano).db.doctors)
  {
    if RegisteredDoctor(db, b, env, plano).Ok? {
      AppendDoctorConsistent(db.doctors, RegisteredDoctor(db, b, env, plano).value);
    }
  }
}

=== FILE: auth_middleware.dfy ===
/**
 * The authentication middlewares of the backend (`authMiddleware`): the
 * bearer token is extracted and verified, its kind picks the collection,
 * and the stored account, if it still exists and is active, becomes the
 * request's identity.
 */
module AuthMiddleware {
  import opened Base
  import opened Js
  import opened Text
  import opened MedicoModel
  import opened PacienteModel
  import opened JwtUtils
  import opened Roles
  import opened Database

  const MsgNoToken := "Token de autenticação não fornecido"
  const MsgNotFound := "Usuário não encontrado"
  const MsgInactive := "Usuário inativo"
  const MsgExpiredLogin := "Token expirado. Faça login novamente."
  const MsgBadToken := "Token inválido"
  const MsgFailed := "Falha na autenticação"

  /** `autenticar`'s decision: `next()` with an identity attached, or a 401 with a message. */
  datatype AuthResult = Attached(usuario: Identity) | Rejected(status: nat, message: string)

  /**
   * The account kind a token names: its `tipo` when truthy, otherwise
   * `paciente` exactly when its `role` is `paciente`, otherwise `medico`.
   */
  function TipoUsuario(c: Claims): (tipo: string)
    ensures c.tipo.Some? && c.tipo.value != "" ==> tipo == c.tipo.value
    ensures (c.tipo.None? || c.tipo.value == "") ==> (tipo == "paciente" <==> c.role == Some("paciente"))
    ensures (c.tipo.None? || c.tipo.value == "") ==> tipo in {"paciente", "medico"}
  {
    if c.tipo.Some? && c.tipo.value != "" then c.tipo.value
    else if c.role == Some("paciente") then "paciente"
    else "medico"
  }

  /** The identity attached for a patient: the stored record, with role and kind `paciente`. */
  function PatientIdentity(p: Patient): (u: Identity)
    ensures u.id == p.id && u.nome == p.nome && u.cpf == p.cpf && u.plano == p.plano
    ensures u.role == "paciente" && u.tipo == "paciente"
  {
    Identity(p.id, p.nome, p.cpf, "paciente", "paciente", p.plano)
  }

  /** The identity attached for a doctor: the stored record and stored role, kind `medico`. */
  function DoctorIdentity(d: Doctor): (u: Identity)
    ensures u.id == d.id && u.nome == d.nome && u.cpf == d.cpf && u.plano == d.plano
    ensures u.role == d.role && u.tipo == "medico"
  {
    Identity(d.id, d.nome, d.cpf, d.role, "medico", d.plano)
  }

  /**
   * An identity that stands for a stored, active account: a patient with
   * status `ativo`, or a doctor with `ativo` set, whose record it copies.
   */
  predicate ActiveAccount(db: Db, u: Identity)
  {
    || (u.tipo == "paciente" &&
        exists k :: 0 <= k < |db.patients| && db.patients[k].status == "ativo" && PatientIdentity(db.patients[k]) == u)
    || (u.tipo == "medico" &&
        exists k :: 0 <= k < |db.doctors| && IsActive(db.doctors[k]) && DoctorIdentity(db.doctors[k]) == u)
  }

  /**
   * The account a verified token leads to: `Ok` with the identity, or
   * `Err` with the 401 message (missing account, inactive account).
   */
  function Lookup(c: Claims, db: Db): (r: Result<Identity, string>)
    ensures r.Ok? ==> ActiveAccount(db, r.value)
    ensures r.Err? ==> r.error in {MsgNotFound, MsgInactive}
    ensures TipoUsuario(c) == "paciente" ==> match PatientIndex(db.patients, c.id)
      case None => r == Err(MsgNotFound)
      case Some(k) => r == (if db.patients[k].status == "ativo" then Ok(PatientIdentity(db.patients[k])) else Err(MsgInactive))
    ensures TipoUsuario(c) != "paciente" ==> match DoctorIndex(db.doctors, c.id)
      case None => r == Err(MsgNotFound)
      case Some(k) => r == (if IsActive(db.doctors[k]) then Ok(DoctorIdentity(db.doctors[k])) else Err(MsgInactive))
  {
    if TipoUsuario(c) == "paciente" then
      match PatientIndex(db.patients, c.id)
      case None => Err(MsgNotFound)
      case Some(k) =>
        if db.patients[k].status != "ativo" then Err(MsgInactive) else Ok(PatientIdentity(db.patients[k]))
    else
      match DoctorIndex(db.doctors, c.id)
      case None => Err(MsgNotFound)
      case Some(k) =>
        if !IsActive(db.doctors[k]) then Err(MsgInactive) else Ok(DoctorIdentity(db.doctors[k]))
  }

  /** The `catch` of `autenticar`: expired and invalid tokens keep their own messages. */
  function TokenFailure(message: string): (m: string)
    ensures message == JwtUtils.MsgExpired ==> m == MsgExpiredLogin
    ensures message == JwtUtils.MsgInvalid ==> m == MsgBadToken
    ensures message != JwtUtils.MsgExpired && message != JwtUtils.MsgInvalid ==> m == MsgFailed
  {
    if message == JwtUtils.MsgExpired then MsgExpiredLogin
    else if message == JwtUtils.MsgInvalid then MsgBadToken
    else MsgFailed
  }

  /**
   * `autenticar(req)` for the `Authorization` header `header` at clock
   * `now`: every way of failing answers 401.
   */
  function Autenticar(header: Option<string>, db: Db, k: Keys, now: int): (r: AuthResult)
    ensures r.Rejected? ==> r.status == 401
    ensures r.Attached? ==> ActiveAccount(db, r.usuario)
    ensures ExtrairToken(header).None? || ExtrairToken(header).value == "" ==> r == Rejected(401, MsgNoToken)
    ensures ExtrairToken(header).Some? && ExtrairToken(header).value != "" ==>
      match VerificarToken(ExtrairToken(header).value, k, now)
      case Err(e) => r == Rejected(401, TokenFailure(e))
      case Ok(c) => match Lookup(c, db)
        case Ok(u) => r == Attached(u)
        case Err(m) => r == Rejected(401, m)
  {
    match ExtrairToken(header)
    case None => Rejected(401, MsgNoToken)
    case Some(token) =>
      if token == "" then Rejected(401, MsgNoToken)
      else
        match VerificarToken(token, k, now)
        case Err(e) => Rejected(401, TokenFailure(e))
        case Ok(c) =>
          match Lookup(c, db)
          case Ok(u) => Attached(u)
          case Err(m) => Rejected(401, m)
  }

  /**
   * `autenticarOpcional(req)`: it always calls `next()`; the identity is
   * attached only for an existing, active account behind a valid token.
   */
  function AutenticarOpcional(header: Option<string>, db: Db, k: Keys, now: int): (usuario: Option<Identity>)
    ensures usuario.Some? ==> ActiveAccount(db, usuario.value)
    ensures usuario.Some? ==>
      ExtrairToken(header).Some? &&
      exists c :: VerificarToken(ExtrairToken(header).value, k, now) == Ok(c) && Lookup(c, db) == Ok(usuario.value)
  {
    match ExtrairToken(header)
    case None => None
    case Some(token) =>
      if token == "" then None
      else
        match VerificarToken(token, k, now)
        case Err(_) => None
        case Ok(c) =>
          match Lookup(c, db)
          case Ok(u) => Some(u)
          case Err(_) => None
  }

  /** The optional middleware attaches exactly the identities the strict one admits. */
  lemma OpcionalAgreesWithAutenticar(header: Option<string>, db: Db, k: Keys, now: int)
    ensures AutenticarOpcional(header, db, k, now).Some? <==> Autenticar(header, db, k, now).Attached?
    ensures AutenticarOpcional(header, db, k, now).Some? ==>
      AutenticarOpcional(header, db, k, now).value == Autenticar(header, db, k, now).usuario
  {
  }

  /**
   * The role gates behind `autenticar` never see a patient as a doctor:
   * an identity it attaches carries role `paciente` only for a patient
   * account, and otherwise the stored role of the doctor.
   */
  lemma AttachedRoleIsStored(header: Option<string>, db: Db, k: Keys, now: int)
    requires DoctorsConsistent(db.doctors)
    requires Autenticar(header, db, k, now).Attached?
    ensures var u := Autenticar(header, db, k, now).usuario;
      u.tipo == "paciente" ==> u.role == "paciente"
    ensures var u := Autenticar(header, db, k, now).usuario;
      u.tipo == "medico" ==> u.role in DoctorRoles
  {
    var token := ExtrairToken(header).value;
    var c := VerificarToken(token, k, now).value;
    if TipoUsuario(c) != "paciente" {
      var i := DoctorIndex(db.doctors, c.id).value;
      assert ValidDoctor(db.doctors[i]);
    }
  }
}

=== FILE: base.dfy ===
/** Failure-compatible wrappers shared by every module of the model. */
module Base {

  /** A value that may be missing: JavaScript `null`/`undefined` on the way out. */
  datatype Option<+T> = None | Some(value: T)

  /** The outcome of a step that can fail with an error value. */
  datatype Result<+T, +E> = Ok(value: T) | Err(error: E)

  function OptionOr<T>(o: Option<T>, default: T): (r: T)
    ensures o.Some? ==> r == o.value
    ensures o.None? ==> r == default
  {
    match o
    case Some(v) => v
    case None => default
  }

  /** The elements `keep` admits, in their original order, each with its multiplicity. */
  function Select<T(==,!new)>(s: seq<T>, keep: T -> bool): (r: seq<T>)
    ensures |r| <= |s|
    ensures forall a :: a in r <==> a in s && keep(a)
    ensures forall a :: keep(a) ==> multiset(r)[a] == multiset(s)[a]
    ensures forall a :: !keep(a) ==> multiset(r)[a] == 0
  {
    if s == [] then []
    else
      assert s == [s[0]] + s[1..];
      if keep(s[0]) then [s[0]] + Select(s[1..], keep) else Select(s[1..], keep)
  }

  /** Selection keeps the original order: selecting from a concatenation selects from each part in turn. */
  lemma {:induction false} SelectConcat<T(!new)>(a: seq<T>, b: seq<T>, keep: T -> bool)
    ensures Select(a + b, keep) == Select(a, keep) + Select(b, keep)
  {
    if a == [] {
      assert a + b == b;
    } else {
      assert (a + b)[1..] == a[1..] + b;
      SelectConcat(a[1..], b, keep);
    }
  }
}

=== FILE: consulta_controller.dfy ===
/**
 * The write side of the appointment controller as transitions of the
 * store: booking with the slot-conflict check, partial update, cancel and
 * delete, each followed by its audit entry.  The invariant "at most one
 * active appointment per doctor, date and time" is preserved by booking,
 * cancelling and deleting, and broken by updating.
 */
module ConsultaController {
  import opened Base
  import opened Js
  import opened Schema
  import opened ConsultaModel
  import opened AuditLog
  import opened Roles
  import opened Database

  const MsgDoctorNotFound := "Médico não encontrado"
  const MsgPatientNotFound := "Paciente não encontrado"
  const MsgSlotTaken := "Já existe uma consulta agendada para este médico neste horário"
  const MsgCreated := "Consulta agendada com sucesso"
  const MsgNotFound := "Consulta não encontrada"
  const MsgUpdated := "Consulta atualizada com sucesso"
  const MsgAlreadyCancelled := "Esta consulta já está cancelada"
  const MsgCancelled := "Consulta cancelada com sucesso"
  const MsgCancelFailed := "Erro ao cancelar consulta"
  const MsgDeleted := "Consulta deletada com sucesso"
  /** The start of the driver's `error.message` for a duplicate `_id`. */
  const MsgDuplicateId := "E11000 duplicate key error"

  /** At most one active (`agendada` or `confirmada`) appointment per doctor, date and time. */
  predicate NoDoubleBooking(as_: seq<Appointment>)
  {
    forall i, j :: 0 <= i < j < |as_| && Active(as_[i]) && Active(as_[j]) ==>
      !SameSlot(as_[i], as_[j].medicoId, as_[j].data, as_[j].hora)
  }

  // ---------------------------------------------------------------------
  // criarConsulta
  // ---------------------------------------------------------------------

  /** The body of a booking request. */
  datatype NovaConsulta = NovaConsulta(
    medicoId: Field<string>,
    pacienteId: Field<string>,
    data: Field<string>,
    hora: Field<string>,
    observacoes: Field<string>)

  /**
   * The conflict query: an active appointment of that doctor at that date
   * and time.  A date or time left out of the body is sent as `null`,
   * which no stored appointment holds.
   */
  predicate SlotTaken(as_: seq<Appointment>, medicoId: string, data: Field<string>, hora: Field<string>)
  {
    && data.Given? && hora.Given?
    && exists k :: 0 <= k < |as_| && Active(as_[k]) && SameSlot(as_[k], medicoId, data.value, hora.value)
  }

  /** The record `Consulta.create` is given. */
  function NewAppointment(body: NovaConsulta, id: string): (a: Appointment)
    ensures a.id == id && a.status == "agendada" && a.motivo.None?
    ensures a.medicoId == Raw(body.medicoId) && a.pacienteId == Raw(body.pacienteId)
    ensures a.data == Raw(body.data) && a.hora == Raw(body.hora) && a.observacoes == Js.Text(body.observacoes)
  {
    Appointment(id, Raw(body.medicoId), Raw(body.pacienteId), Raw(body.data), Raw(body.hora), "agendada",
                Js.Text(body.observacoes), None)
  }

  /** The `findById` of both parties: `undefined` and `null` find nothing. */
  predicate DoctorFound(db: Db, f: Field<string>)
  {
    f.Given? && DoctorIndex(db.doctors, f.value).Some?
  }

  predicate PatientFound(db: Db, f: Field<string>)
  {
    f.Given? && PatientIndex(db.patients, f.value).Some?
  }

  /** The audit entry of a booking has a name: the user's, or else the patient's (`usuario?.nome || paciente.nome`). */
  predicate AuditNameGiven(db: Db, body: NovaConsulta, usuario: Identity)
  {
    usuario.nome != "" ||
    (PatientFound(db, body.pacienteId) && db.patients[PatientIndex(db.patients, body.pacienteId.value).value].nome != "")
  }

  /**
   * `criarConsulta(req)` by the authenticated `usuario`: 404 for a missing
   * doctor (checked first) or patient, 400 for a taken slot, 500 with the
   * error's message when the record fails validation or its `_id` exists;
   * otherwise the appointment is stored as `agendada`, audited, and 201.
   */
  function CriarConsulta(db: Db, body: NovaConsulta, usuario: Identity, env: Env): (o: Outcome<Appointment>)
    ensures o.db.doctors == db.doctors && o.db.patients == db.patients
    ensures !DoctorFound(db, body.medicoId) ==> o == Outcome(db, Failure(404, MsgDoctorNotFound, []))
    ensures DoctorFound(db, body.medicoId) && !PatientFound(db, body.pacienteId) ==>
      o == Outcome(db, Failure(404, MsgPatientNotFound, []))
    ensures DoctorFound(db, body.medicoId) && PatientFound(db, body.pacienteId) ==>
      (o == Outcome(db, Failure(400, MsgSlotTaken, [])) <==> SlotTaken(db.appointments, body.medicoId.value, body.data, body.hora))
    ensures o.reply.Success? <==>
      && DoctorFound(db, body.medicoId) && PatientFound(db, body.pacienteId)
      && !SlotTaken(db.appointments, body.medicoId.value, body.data, body.hora)
      && ValidAppointment(NewAppointment(body, env.freshId)) && AppointmentIndex(db.appointments, env.freshId).None?
    ensures o.reply.Success? ==>
      && o.reply.status == 201 && o.reply.data == NewAppointment(body, env.freshId)
      && ValidAppointment(o.reply.data) && o.db.appointments == db.appointments + [o.reply.data]
    ensures o.reply.Success? ==> forall k :: 0 <= k < |db.appointments| ==> db.appointments[k].id != env.freshId
    ensures o.reply.Failure? ==> o.db == db && o.reply.status in {400, 404, 500}
    ensures |db.audit| <= |o.db.audit| <= |db.audit| + 1 && o.db.audit[..|db.audit|] == db.audit
    ensures |o.db.audit| > |db.audit| ==> o.reply.Success? && var e := o.db.audit[|db.audit|];
      && e.acao == Create && e.entidade == ConsultaEntity && e.entidadeId == Some(env.freshId)
      && e.usuarioId == Some(usuario.id)
    ensures o.reply.Success? && env.auditWritable && AuditNameGiven(db, body, usuario) ==> |o.db.audit| == |db.audit| + 1
  {
    if !DoctorFound(db, body.medicoId) then Outcome(db, Failure(404, MsgDoctorNotFound, []))
    else if !PatientFound(db, body.pacienteId) then Outcome(db, Failure(404, MsgPatientNotFound, []))
    else if SlotTaken(db.appointments, body.medicoId.value, body.data, body.hora) then
      Outcome(db, Failure(400, MsgSlotTaken, []))
    else
      var paciente := db.patients[PatientIndex(db.patients, body.pacienteId.value).value];
      var a := NewAppointment(body, env.freshId);
      match BuildAppointment(a)
      case Err(errs) => Outcome(db, Failure(500, ValidationMessage("Consulta", errs), []))
      case Ok(a) =>
        if AppointmentIndex(db.appointments, a.id).Some? then Outcome(db, Failure(500, MsgDuplicateId, []))
        else
          var stored := db.(appointments := db.appointments + [a]);
          var nome := if usuario.nome != "" then usuario.nome else paciente.nome;
          var req := AuditRequest(Some(usuario.id), Some(nome), Create, ConsultaEntity, Some(a.id),
                                  None, Some(AppointmentJson(a)), Some(Sucesso), None);
          Outcome(Audit(stored, req, env), Success(201, MsgCreated, a))
  }

  /** Booking keeps every doctor's active appointments in distinct slots. */
  lemma CriarPreservesNoDoubleBooking(db: Db, body: NovaConsulta, usuario: Identity, env: Env)
    requires NoDoubleBooking(db.appointments)
    ensures NoDoubleBooking(CriarConsulta(db, body, usuario, env).db.appointments)
  {
    var o := CriarConsulta(db, body, usuario, env);
    if o.reply.Success? {
      var as_ := o.db.appointments;
      var n := |db.appointments|;
      var a := o.reply.data;
      assert a.data != "" && a.hora != "";
      assert !SlotTaken(db.appointments, body.medicoId.value, body.data, body.hora);
      forall i, j | 0 <= i < j < |as_| && Active(as_[i]) && Active(as_[j])
        ensures !SameSlot(as_[i], as_[j].medicoId, as_[j].data, as_[j].hora)
      {
        assert as_[i] == db.appointments[i];
        if j < n {
          assert as_[j] == db.appointments[j];
        }
      }
    }
  }

  /** Booking keeps the collection valid with distinct ids. */
  lemma CriarPreservesConsistency(db: Db, body: NovaConsulta, usuario: Identity, env: Env)
    requires AppointmentsConsistent(db.appointments)
    ensures AppointmentsConsistent(CriarConsulta(db, body, usuario, env).db.appointments)
  {
    var o := CriarConsulta(db, body, usuario, env);
    if o.reply.Success? {
      AppendAppointmentConsistent(db.appointments, o.reply.data);
    }
  }

  // ---------------------------------------------------------------------
  // atualizarConsulta
  // ---------------------------------------------------------------------

  /** The body of an update request. */
  datatype AtualizacaoConsulta = AtualizacaoConsulta(
    data: Field<string>,
    hora: Field<string>,
    status: Field<string>,
    observacoes: Field<string>,
    motivo: Field<string>)

  /**
   * The assignments of `atualizarConsulta`: date, time, status and reason
   * only when truthy, notes whenever defined (so `null` clears them); the
   * parties and the id never change.
   */
  function ApplyUpdate(a: Appointment, b: AtualizacaoConsulta): (r: Appointment)
    ensures r.id == a.id && r.medicoId == a.medicoId && r.pacienteId == a.pacienteId
    ensures r.data == (if Present(b.data) then b.data.value else a.data)
    ensures r.hora == (if Present(b.hora) then b.hora.value else a.hora)
    ensures r.status == (if Present(b.status) then b.status.value else a.status)
    ensures b.observacoes.Absent? ==> r.observacoes == a.observacoes
    ensures !b.observacoes.Absent? ==> r.observacoes == Js.Text(b.observacoes)
    ensures r.motivo == (if Present(b.motivo) then Some(b.motivo.value) else a.motivo)
  {
    a.(data := OrElse(b.data, a.data),
       hora := OrElse(b.hora, a.hora),
       status := OrElse(b.status, a.status),
       observacoes := if b.observacoes.Absent? then a.observacoes else Js.Text(b.observacoes),
       motivo := if Present(b.motivo) then Some(b.motivo.value) else a.motivo)
  }

  /**
   * `atualizarConsulta(req)`: 404 for an unknown id; otherwise the
   * supplied fields are assigned and the record saved, with no slot check
   * and no status transition rule; a validation failure answers 500 with
   * the error's message.
   */
  function AtualizarConsulta(db: Db, id: string, b: AtualizacaoConsulta, usuario: Identity, env: Env): (o: Outcome<Appointment>)
    ensures o.db.doctors == db.doctors && o.db.patients == db.patients
    ensures AppointmentIndex(db.appointments, id).None? ==> o == Outcome(db, Failure(404, MsgNotFound, []))
    ensures o.reply.Failure? ==> o.db.appointments == db.appointments && o.reply.status in {404, 500}
    ensures o.reply.Success? ==> var i := AppointmentIndex(db.appointments, id).value;
      && o.reply.status == 200
      && o.reply.data == ApplyUpdate(db.appointments[i], b)
      && ValidAppointment(o.reply.data)
      && o.db.appointments == db.appointments[i := o.reply.data]
    ensures AppointmentIndex(db.appointments, id).Some? ==>
      (o.reply.Success? <==> ValidAppointment(ApplyUpdate(db.appointments[AppointmentIndex(db.appointments, id).value], b)))
    ensures |db.audit| <= |o.db.audit| <= |db.audit| + 1 && o.db.audit[..|db.audit|] == db.audit
  {
    match AppointmentIndex(db.appointments, id)
    case None => Outcome(db, Failure(404, MsgNotFound, []))
    case Some(i) =>
      var antes := db.appointments[i];
      match BuildAppointment(ApplyUpdate(antes, b))
      case Err(errs) => Outcome(db, Failure(500, ValidationMessage("Consulta", errs), []))
      case Ok(depois) =>
        var stored := db.(appointments := db.appointments[i := depois]);
        var req := AuditRequest(Some(usuario.id), Some(usuario.nome), Update, ConsultaEntity, Some(depois.id),
                                Some(AppointmentJson(antes)), Some(AppointmentJson(depois)), Some(Sucesso), None);
        Outcome(Audit(stored, req, env), Success(200, MsgUpdated, depois))
  }

  /**
   * Updating has no conflict check: re-activating a cancelled appointment
   * in a slot another active appointment holds is accepted and leaves two
   * active appointments in one slot.
   */
  lemma AtualizarBreaksNoDoubleBooking(a: Appointment, c: Appointment, usuario: Identity, env: Env, audit: seq<AuditEntry>)
    requires ValidAppointment(a) && ValidAppointment(c) && a.id != c.id
    requires a.status == "agendada" && c.status == "cancelada"
    requires SameSlot(c, a.medicoId, a.data, a.hora)
    ensures var o := AtualizarConsulta(Db([], [], [a, c], audit), c.id, Reactivate, usuario, env);
      && NoDoubleBooking([a, c])
      && o.reply.Success?
      && !NoDoubleBooking(o.db.appointments)
  {
    ReactivatedStore(a, c, usuario, env, audit);
    SlotClash(a, c);
  }

  /** Turning the cancelled one of two same-slot appointments active again creates a double booking. */
  lemma SlotClash(a: Appointment, c: Appointment)
    requires a.status == "agendada" && c.status == "cancelada"
    requires SameSlot(c, a.medicoId, a.data, a.hora)
    ensures NoDoubleBooking([a, c])
    ensures !NoDoubleBooking([a, c.(status := "agendada")])
  {
    var after := [a, c.(status := "agendada")];
    assert Active(after[0]) && Active(after[1]);
    assert SameSlot(after[0], after[1].medicoId, after[1].data, after[1].hora);
    assert !Active(c);
  }

  /** Re-activating the second of two stored appointments succeeds and stores it in place. */
  lemma ReactivatedStore(a: Appointment, c: Appointment, usuario: Identity, env: Env, audit: seq<AuditEntry>)
    requires ValidAppointment(c) && a.id != c.id
    ensures var o := AtualizarConsulta(Db([], [], [a, c], audit), c.id, Reactivate, usuario, env);
      o.reply.Success? && o.db.appointments == [a, c.(status := "agendada")]
  {
    var db := Db([], [], [a, c], audit);
    ReactivateValid(c);
    assert AppointmentIndex(db.appointments, c.id) == Some(1);
  }

  /** Re-activating a valid appointment changes only its status and keeps it valid. */
  lemma ReactivateValid(c: Appointment)
    requires ValidAppointment(c)
    ensures ApplyUpdate(c, Reactivate) == c.(status := "agendada")
    ensures ValidAppointment(ApplyUpdate(c, Reactivate))
  {
  }

  /** The update body `{ status: "agendada" }`. */
  const Reactivate := AtualizacaoConsulta(Absent, Absent, Given("agendada"), Absent, Absent)

  // ---------------------------------------------------------------------
  // cancelarConsulta
  // ---------------------------------------------------------------------

  /** The cancellation assignments: status `cancelada` and the reason as sent (`undefined` unsets it). */
  function CancelRecord(a: Appointment, motivo: Field<string>): (r: Appointment)
    ensures !Active(r) && r.status == "cancelada"
    ensures r.motivo == Js.Text(motivo)
    ensures r.id == a.id && SameSlot(r, a.medicoId, a.data, a.hora) && r.pacienteId == a.pacienteId
    ensures r.observacoes == a.observacoes
  {
    a.(status := "cancelada", motivo := Js.Text(motivo))
  }

  /**
   * `cancelarConsulta(req)`: 404 for an unknown id, 400 when already
   * cancelled; otherwise the record is cancelled, saved and audited.
   */
  function CancelarConsulta(db: Db, id: string, motivo: Field<string>, usuario: Identity, env: Env): (o: Outcome<Appointment>)
    ensures o.db.doctors == db.doctors && o.db.patients == db.patients
    ensures AppointmentIndex(db.appointments, id).None? ==> o == Outcome(db, Failure(404, MsgNotFound, []))
    ensures (AppointmentIndex(db.appointments, id).Some?
             && db.appointments[AppointmentIndex(db.appointments, id).value].status == "cancelada") ==>
      o == Outcome(db, Failure(400, MsgAlreadyCancelled, []))
    ensures o.reply.Failure? ==> o.db.appointments == db.appointments && o.reply.status in {400, 404, 500}
    ensures o.reply.Success? ==> var i := AppointmentIndex(db.appointments, id).value;
      && db.appointments[i].status != "cancelada"
      && o.reply.status == 200
      && o.reply.data == CancelRecord(db.appointments[i], motivo)
      && o.db.appointments == db.appointments[i := o.reply.data]
    ensures (AppointmentsConsistent(db.appointments) && AppointmentIndex(db.appointments, id).Some?
             && db.appointments[AppointmentIndex(db.appointments, id).value].status != "cancelada") ==>
      o.reply.Success?
    ensures |db.audit| <= |o.db.audit| <= |db.audit| + 1 && o.db.audit[..|db.audit|] == db.audit
  {
    match AppointmentIndex(db.appointments, id)
    case None => Outcome(db, Failure(404, MsgNotFound, []))
    case Some(i) =>
      var antes := db.appointments[i];
      if antes.status == "cancelada" then Outcome(db, Failure(400, MsgAlreadyCancelled, []))
      else
        match BuildAppointment(CancelRecord(antes, motivo))
        case Err(_) => Outcome(db, Failure(500, MsgCancelFailed, []))
        case Ok(depois) =>
          var stored := db.(appointments := db.appointments[i := depois]);
          var nome := if usuario.nome != "" then usuario.nome else "Usuário";
          var req := AuditRequest(Some(usuario.id), Some(nome), Update, ConsultaEntity, Some(depois.id),
                                  Some(AppointmentJson(antes)), Some(AppointmentJson(depois)), Some(Sucesso), None);
          Outcome(Audit(stored, req, env), Success(200, MsgCancelled, depois))
  }

  /** Cancelling frees a slot and occupies none. */
  lemma CancelarPreservesNoDoubleBooking(db: Db, id: string, motivo: Field<string>, usuario: Identity, env: Env)
    requires NoDoubleBooking(db.appointments)
    ensures NoDoubleBooking(CancelarConsulta(db, id, motivo, usuario, env).db.appointments)
  {
    var o := CancelarConsulta(db, id, motivo, usuario, env);
    if o.reply.Success? {
      var i := AppointmentIndex(db.appointments, id).value;
      var as_ := o.db.appointments;
      forall p, q | 0 <= p < q < |as_| && Active(as_[p]) && Active(as_[q])
        ensures !SameSlot(as_[p], as_[q].medicoId, as_[q].data, as_[q].hora)
      {
        assert p != i && q != i;
        assert as_[p] == db.appointments[p] && as_[q] == db.appointments[q];
      }
    }
  }

  /** A cancelled appointment cannot be cancelled again: the second attempt is a 400. */
  lemma CancelTwiceFails(db: Db, id: string, m1: Field<string>, m2: Field<string>, usuario: Identity, env1: Env, env2: Env)
    requires CancelarConsulta(db, id, m1, usuario, env1).reply.Success?
    ensures var db1 := CancelarConsulta(db, id, m1, usuario, env1).db;
      CancelarConsulta(db1, id, m2, usuario, env2).reply == Failure(400, MsgAlreadyCancelled, [])
  {
    var o := CancelarConsulta(db, id, m1, usuario, env1);
    var i := AppointmentIndex(db.appointments, id).value;
    var after := o.db.appointments;
    assert after == db.appointments[i := o.reply.data];
    assert after[i].id == id && after[i].status == "cancelada";
    assert forall k :: 0 <= k < i ==> after[k] == db.appointments[k];
    AppointmentIndexIs(after, i);
  }

  // ---------------------------------------------------------------------
  // deletarConsulta
  // ---------------------------------------------------------------------

  /** `deletarConsulta(req)`: 404 for an unknown id; otherwise exactly that record is removed and audited. */
  function DeletarConsulta(db: Db, id: string, usuario: Identity, env: Env): (o: Outcome<()>)
    ensures o.db.doctors == db.doctors && o.db.patients == db.patients
    ensures AppointmentIndex(db.appointments, id).None? <==> o == Outcome(db, Failure(404, MsgNotFound, []))
    ensures o.reply.Success? <==> AppointmentIndex(db.appointments, id).Some?
    ensures o.reply.Success? && env.auditWritable && usuario.nome != "" ==>
      |o.db.audit| == |db.audit| + 1 && o.db.audit[|db.audit|].acao == Delete && o.db.audit[|db.audit|].entidadeId == Some(id)
    ensures o.reply.Success? ==> var i := AppointmentIndex(db.appointments, id).value;
      o.reply.status == 200 && o.db.appointments == RemoveAt(db.appointments, i)
    ensures |db.audit| <= |o.db.audit| <= |db.audit| + 1 && o.db.audit[..|db.audit|] == db.audit
  {
    match AppointmentIndex(db.appointments, id)
    case None => Outcome(db, Failure(404, MsgNotFound, []))
    case Some(i) =>
      var antes := db.appointments[i];
      var stored := db.(appointments := RemoveAt(db.appointments, i));
      var req := AuditRequest(Some(usuario.id), Some(usuario.nome), Delete, ConsultaEntity, Some(id),
                              Some(AppointmentJson(antes)), None, Some(Sucesso), None);
      Outcome(Audit(stored, req, env), Success(200, MsgDeleted, ()))
  }

  /** Deleting never creates a conflict. */
  lemma DeletarPreservesNoDoubleBooking(db: Db, id: string, usuario: Identity, env: Env)
    requires NoDoubleBooking(db.appointments)
    ensures NoDoubleBooking(DeletarConsulta(db, id, usuario, env).db.appointments)
  {
    var o := DeletarConsulta(db, id, usuario, env);
    if o.reply.Success? {
      var i := AppointmentIndex(db.appointments, id).value;
      var as_ := o.db.appointments;
      forall p, q | 0 <= p < q < |as_| && Active(as_[p]) && Active(as_[q])
        ensures !SameSlot(as_[p], as_[q].medicoId, as_[q].data, as_[q].hora)
      {
        var p' := if p < i then p else p + 1;
        var q' := if q < i then q else q + 1;
        assert as_[p] == db.appointments[p'] && as_[q] == db.appointments[q'];
      }
    }
  }
}

=== FILE: consulta_listing.dfy ===
/**
 * The read side of the appointment controller: the filters of
 * `listarConsultas` and the `(data_consulta, hora_consulta)` sort, proved
 * to be a sorted permutation of the matching records.
 */
module ConsultaListing {
  import opened Base
  import opened Text
  import opened ConsultaModel

  // ---------------------------------------------------------------------
  // Slot order
  // ---------------------------------------------------------------------

  /** `sort({ data_consulta: 1, hora_consulta: 1 })`: by date, then by time. */
  predicate SlotLe(a: Appointment, b: Appointment)
  {
    LexLe(a.data, b.data) && (a.data == b.data ==> LexLe(a.hora, b.hora))
  }

  /** Ascending, or descending for `-1` keys. */
  predicate InOrder(a: Appointment, b: Appointment, desc: bool)
  {
    if desc then SlotLe(b, a) else SlotLe(a, b)
  }

  lemma SlotLeTotal(a: Appointment, b: Appointment)
    ensures SlotLe(a, b) || SlotLe(b, a)
  {
    LexLeTotal(a.data, b.data);
    LexLeTotal(a.hora, b.hora);
    if LexLe(a.data, b.data) && LexLe(b.data, a.data) {
      LexLeAntisymmetric(a.data, b.data);
    }
  }

  lemma SlotLeTransitive(a: Appointment, b: Appointment, c: Appointment)
    requires SlotLe(a, b) && SlotLe(b, c)
    ensures SlotLe(a, c)
  {
    LexLeTransitive(a.data, b.data, c.data);
    if a.data == c.data {
      LexLeAntisymmetric(a.data, b.data);
      LexLeTransitive(a.hora, b.hora, c.hora);
    }
  }

  lemma InOrderTransitive(a: Appointment, b: Appointment, c: Appointment, desc: bool)
    requires InOrder(a, b, desc) && InOrder(b, c, desc)
    ensures InOrder(a, c, desc)
  {
    if desc {
      SlotLeTransitive(c, b, a);
    } else {
      SlotLeTransitive(a, b, c);
    }
  }

  predicate Sorted(s: seq<Appointment>, desc: bool)
  {
    forall i, j :: 0 <= i < j < |s| ==> InOrder(s[i], s[j], desc)
  }

  /** An element in order before the head of a sorted list is in order before all of it. */
  lemma HeadBoundsAll(x: Appointment, s: seq<Appointment>, desc: bool)
    requires Sorted(s, desc) && s != [] && InOrder(x, s[0], desc)
    ensures forall j :: 0 <= j < |s| ==> InOrder(x, s[j], desc)
  {
    forall j | 0 < j < |s|
      ensures InOrder(x, s[j], desc)
    {
      InOrderTransitive(x, s[0], s[j], desc);
    }
  }

  /**
   * The head of a sorted list is in order before every element of a
   * permutation of its tail plus one element it also precedes.
   */
  lemma HeadBoundsPermutation(s: seq<Appointment>, x: Appointment, rest: seq<Appointment>, desc: bool)
    requires Sorted(s, desc) && s != [] && InOrder(s[0], x, desc)
    requires multiset(rest) == multiset(s[1..]) + multiset{x}
    ensures forall j :: 0 <= j < |rest| ==> InOrder(s[0], rest[j], desc)
  {
    forall j | 0 <= j < |rest|
      ensures InOrder(s[0], rest[j], desc)
    {
      var y := rest[j];
      assert y in multiset(rest);
      if y != x {
        assert y in multiset(s[1..]);
        var i :| 0 <= i < |s[1..]| && s[1..][i] == y;
        assert s[i + 1] == y;
      }
    }
  }

  /** Inserting into a sorted list keeps it sorted and adds exactly one element. */
  function Insert(x: Appointment, s: seq<Appointment>, desc: bool): (r: seq<Appointment>)
    requires Sorted(s, desc)
    ensures Sorted(r, desc)
    ensures multiset(r) == multiset(s) + multiset{x}
  {
    if s == [] then [x]
    else if InOrder(x, s[0], desc) then
      HeadBoundsAll(x, s, desc);
      [x] + s
    else
      var rest := Insert(x, s[1..], desc);
      assert InOrder(s[0], x, desc) by {
        SlotLeTotal(x, s[0]);
      }
      assert s == [s[0]] + s[1..];
      HeadBoundsPermutation(s, x, rest, desc);
      [s[0]] + rest
  }

  /** The sort a query applies: a sorted permutation of its input. */
  function SortBySlot(s: seq<Appointment>, desc: bool): (r: seq<Appointment>)
    ensures Sorted(r, desc)
    ensures multiset(r) == multiset(s)
  {
    if s == [] then []
    else
      assert s == [s[0]] + s[1..];
      Insert(s[0], SortBySlot(s[1..], desc), desc)
  }

  // ---------------------------------------------------------------------
  // Filters
  // ---------------------------------------------------------------------

  /** A query-string parameter: `None` when absent; an empty value is falsy and ignored too. */
  predicate Given(p: Option<string>)
  {
    p.Some? && p.value != ""
  }

  /** The query of `listarConsultas`. */
  datatype ListFilter = ListFilter(
    medicoId: Option<string>,
    pacienteId: Option<string>,
    status: Option<string>,
    dataInicio: Option<string>,
    dataFim: Option<string>)

  /**
   * The filter document it builds: each truthy parameter is an equality,
   * and the date range applies only when both bounds are truthy.
   */
  predicate Matches(a: Appointment, f: ListFilter)
  {
    && (Given(f.medicoId) ==> a.medicoId == f.medicoId.value)
    && (Given(f.pacienteId) ==> a.pacienteId == f.pacienteId.value)
    && (Given(f.status) ==> a.status == f.status.value)
    && (Given(f.dataInicio) && Given(f.dataFim) ==>
          LexLe(f.dataInicio.value, a.data) && LexLe(a.data, f.dataFim.value))
  }

  /** Sorting the records `keep` admits: the shared shape of the three listings. */
  function SelectSorted(s: seq<Appointment>, keep: Appointment -> bool, desc: bool): (r: seq<Appointment>)
    ensures Sorted(r, desc)
    ensures forall a :: a in r <==> a in s && keep(a)
    ensures forall a :: keep(a) ==> multiset(r)[a] == multiset(s)[a]
  {
    var sel := Select(s, keep);
    var r := SortBySlot(sel, desc);
    assert forall a :: a in r <==> a in multiset(r);
    assert forall a :: a in sel <==> a in multiset(sel);
    r
  }

  /**
   * `listarConsultas(query)`: exactly the records matching every given
   * filter (with their multiplicity), ascending by date and time.
   */
  function ListarConsultas(s: seq<Appointment>, f: ListFilter): (r: seq<Appointment>)
    ensures Sorted(r, false)
    ensures forall a :: a in r <==> a in s && Matches(a, f)
    ensures forall a :: Matches(a, f) ==> multiset(r)[a] == multiset(s)[a]
  {
    SelectSorted(s, a => Matches(a, f), false)
  }

  /** `listarConsultasPaciente(id)`: that patient's records, latest date and time first. */
  function ListarConsultasPaciente(s: seq<Appointment>, pacienteId: string): (r: seq<Appointment>)
    ensures Sorted(r, true)
    ensures forall a :: a in r <==> a in s && a.pacienteId == pacienteId
    ensures forall a: Appointment :: a.pacienteId == pacienteId ==> multiset(r)[a] == multiset(s)[a]
  {
    SelectSorted(s, (a: Appointment) => a.pacienteId == pacienteId, true)
  }

  /** `listarConsultasMedico(id)`: that doctor's records, ascending by date and time. */
  function ListarConsultasMedico(s: seq<Appointment>, medicoId: string): (r: seq<Appointment>)
    ensures Sorted(r, false)
    ensures forall a :: a in r <==> a in s && a.medicoId == medicoId
    ensures forall a: Appointment :: a.medicoId == medicoId ==> multiset(r)[a] == multiset(s)[a]
  {
    SelectSorted(s, (a: Appointment) => a.medicoId == medicoId, false)
  }

  /** A date range with a missing or empty bound filters nothing. */
  lemma HalfRangeIgnored(s: seq<Appointment>, f: ListFilter)
    requires !Given(f.dataInicio) || !Given(f.dataFim)
    ensures forall a :: a in ListarConsultas(s, f) <==>
      a in ListarConsultas(s, f.(dataInicio := None, dataFim := None))
  {
  }
}

=== FILE: consulta_model.dfy ===
/**
 * The `Consulta` schema: an appointment record as stored, its path
 * validators in schema order, the `toJSON` view, and the notion of an
 * active booking of a slot.
 */
module ConsultaModel {
  import opened Base
  import opened Js
  import opened Text
  import opened Schema

  /** A stored appointment; `observacoes` and `motivo` default to `null` (`None`). */
  datatype Appointment = Appointment(
    id: string,
    medicoId: string,
    pacienteId: string,
    data: string,
    hora: string,
    status: string,
    observacoes: Option<string>,
    motivo: Option<string>)

  const AppointmentStatuses: seq<string> := ["agendada", "confirmada", "realizada", "cancelada"]

  /** Every schema rule a stored appointment satisfies. */
  predicate ValidAppointment(a: Appointment)
  {
    && a.medicoId != ""
    && a.pacienteId != ""
    && DateShape(a.data)
    && TimeShape(a.hora)
    && a.status in AppointmentStatuses
  }

  /** `data_consulta`: required, then the custom `\d{4}-\d{2}-\d{2}` validator. */
  function DataCheck(data: string): (e: Option<FieldError>)
    ensures e.None? <==> DateShape(data)
  {
    if data == "" then Some(FieldError("data_consulta", "Path `data_consulta` is required."))
    else if !DateShape(data) then Some(FieldError("data_consulta", "Formato de data inválido. Use YYYY-MM-DD"))
    else None
  }

  /** `hora_consulta`: required, then the `HH:MM` match. */
  function HoraCheck(hora: string): (e: Option<FieldError>)
    ensures e.None? <==> TimeShape(hora)
  {
    if hora == "" then Some(FieldError("hora_consulta", "Path `hora_consulta` is required."))
    else if !TimeShape(hora) then Some(FieldError("hora_consulta", "Hora inválida. Use formato HH:MM"))
    else None
  }

  /** The validation errors of an appointment, one per failing path in schema order. */
  function AppointmentErrors(a: Appointment): (errs: seq<FieldError>)
  {
    Collect([
      RequiredCheck("medico_id", a.medicoId, "Path `medico_id` is required."),
      RequiredCheck("paciente_id", a.pacienteId, "Path `paciente_id` is required."),
      DataCheck(a.data),
      HoraCheck(a.hora),
      EnumCheck("status", a.status, AppointmentStatuses, "Status inválido")])
  }

  /** The validators pass exactly on the records the schema admits. */
  lemma NoErrorsIffValid(a: Appointment)
    ensures AppointmentErrors(a) == [] <==> ValidAppointment(a)
  {
    var checks := [
      RequiredCheck("medico_id", a.medicoId, "Path `medico_id` is required."),
      RequiredCheck("paciente_id", a.pacienteId, "Path `paciente_id` is required."),
      DataCheck(a.data),
      HoraCheck(a.hora),
      EnumCheck("status", a.status, AppointmentStatuses, "Status inválido")];
    assert AppointmentErrors(a) == Collect(checks);
    assert (forall k :: 0 <= k < |checks| ==> checks[k].None?) <==>
      checks[0].None? && checks[1].None? && checks[2].None? && checks[3].None? && checks[4].None?;
  }

  /** Validation of a new or modified appointment (the schema has no setters). */
  function BuildAppointment(raw: Appointment): (r: Result<Appointment, seq<FieldError>>)
    ensures r.Ok? <==> ValidAppointment(raw)
    ensures r.Ok? ==> r.value == raw
    ensures r.Err? ==> |r.error| > 0
  {
    NoErrorsIffValid(raw);
    var errs := AppointmentErrors(raw);
    if errs == [] then Ok(raw) else Err(errs)
  }

  /** An appointment holds its slot while it is `agendada` or `confirmada`. */
  predicate Active(a: Appointment)
  {
    a.status == "agendada" || a.status == "confirmada"
  }

  /** Two appointments compete for the same slot: same doctor, date and time. */
  predicate SameSlot(a: Appointment, medicoId: string, data: string, hora: string)
  {
    a.medicoId == medicoId && a.data == data && a.hora == hora
  }

  /** The stored document, with Mongoose's `_id` and `__v`. */
  function AppointmentDocument(a: Appointment): (doc: Document)
    ensures "_id" in doc && doc["_id"] == Str(a.id) && "id" !in doc
  {
    map["_id" := Str(a.id), "__v" := Num(0), "medico_id" := Str(a.medicoId),
        "paciente_id" := Str(a.pacienteId), "data_consulta" := Str(a.data),
        "hora_consulta" := Str(a.hora), "status" := Str(a.status),
        "observacoes" := Nullable(a.observacoes), "motivo_cancelamento" := Nullable(a.motivo)]
  }

  /** `consulta.toJSON()`: the document with `id` for `_id`; nothing is hidden. */
  function AppointmentJson(a: Appointment): (j: Document)
    ensures "_id" !in j && "__v" !in j
  {
    ToJson(AppointmentDocument(a), {})
  }

  function AppointmentFromJson(j: Document): (r: Option<Appointment>)
  {
    if && "id" in j && j["id"].Str? && "medico_id" in j && j["medico_id"].Str?
       && "paciente_id" in j && j["paciente_id"].Str? && "data_consulta" in j && j["data_consulta"].Str?
       && "hora_consulta" in j && j["hora_consulta"].Str? && "status" in j && j["status"].Str?
       && "observacoes" in j && "motivo_cancelamento" in j
    then Some(Appointment(j["id"].s, j["medico_id"].s, j["paciente_id"].s, j["data_consulta"].s,
                          j["hora_consulta"].s, j["status"].s, ReadNullable(j["observacoes"]),
                          ReadNullable(j["motivo_cancelamento"])))
    else None
  }

  /** The JSON view of an appointment loses nothing: the record is recovered from it. */
  lemma AppointmentJsonRoundTrip(a: Appointment)
    ensures AppointmentFromJson(AppointmentJson(a)) == Some(a)
  {
    AppointmentJsonParties(a);
    AppointmentJsonDetails(a);
  }

  lemma AppointmentJsonParties(a: Appointment)
    ensures var j := AppointmentJson(a);
      && "id" in j && j["id"] == Str(a.id) && "medico_id" in j && j["medico_id"] == Str(a.medicoId)
      && "paciente_id" in j && j["paciente_id"] == Str(a.pacienteId)
      && "data_consulta" in j && j["data_consulta"] == Str(a.data)
  {
    var doc := AppointmentDocument(a);
    var j := AppointmentJson(a);
    assert j["medico_id"] == doc["medico_id"];
    assert j["paciente_id"] == doc["paciente_id"];
    assert j["data_consulta"] == doc["data_consulta"];
  }

  lemma AppointmentJsonDetails(a: Appointment)
    ensures var j := AppointmentJson(a);
      && "hora_consulta" in j && j["hora_consulta"] == Str(a.hora)
      && "status" in j && j["status"] == Str(a.status)
      && "observacoes" in j && j["observacoes"] == Nullable(a.observacoes)
      && "motivo_cancelamento" in j && j["motivo_cancelamento"] == Nullable(a.motivo)
  {
    var doc := AppointmentDocument(a);
    var j := AppointmentJson(a);
    assert j["hora_consulta"] == doc["hora_consulta"];
    assert j["status"] == doc["status"];
    assert j["observacoes"] == doc["observacoes"];
    assert j["motivo_cancelamento"] == doc["motivo_cancelamento"];
  }
}

=== FILE: fala_doutor_auth.dfy ===
/**
 * The authentication of the second backend (`fala-doutor/backend`): patient
 * sign-up, patient and doctor login by e-mail, and the four bearer-token
 * guards.  Its records live in a relational store of their own; the route
 * validators run first, so every body field is a string.
 */
module FalaDoutorAuth {
  import opened Base
  import opened Js
  import opened Text
  import opened HashUtils
  import opened JwtUtils
  import Schema

  /** The fallback `'7d'` of `JWT_EXPIRES_IN` in this backend, in seconds. */
  const DefaultLifetime: int := 7 * 24 * 60 * 60

  /** `process.env.JWT_EXPIRES_IN || '7d'`, with `configured` the variable's duration in seconds. */
  function TokenLifetime(configured: Option<int>): (r: int)
    ensures configured.None? ==> r == DefaultLifetime
    ensures configured.Some? ==> r == configured.value
  {
    OptionOr(configured, DefaultLifetime)
  }

  const MsgNoToken := "Token não fornecido"
  const MsgBadToken := "Token inválido ou expirado"
  const MsgUnauthorized := "Acesso não autorizado"
  const MsgPatientNotFound := "Paciente não encontrado"
  const MsgDoctorUnavailable := "Médico não encontrado ou inativo"
  const MsgAdminOnly := "Acesso restrito a administradores"

  const MsgEmailTaken := "E-mail já cadastrado"
  const MsgCpfTaken := "CPF já cadastrado"
  const MsgSignedUp := "Cadastro realizado com sucesso"
  const MsgSignUpFailed := "Erro ao realizar cadastro"
  const MsgBadCredentials := "E-mail ou senha incorretos"
  const MsgLoggedIn := "Login realizado com sucesso"
  const MsgLoginFailed := "Erro ao realizar login"

  // ---------------------------------------------------------------------
  // Records and store
  // ---------------------------------------------------------------------

  /** A stored patient; `senhaHash` is the bcrypt hash. */
  datatype Paciente = Paciente(
    id: string,
    nome: string,
    cpf: string,
    email: string,
    senhaHash: string,
    telefone: Option<string>,
    dataNascimento: string)

  /** A stored doctor; the profile columns (especialidade, bio and the like) are not modelled. */
  datatype Medico = Medico(
    id: string,
    nome: string,
    crm: string,
    email: string,
    senhaHash: string,
    ativo: bool,
    isAdmin: bool)

  /** The two tables. */
  datatype Clinic = Clinic(pacientes: seq<Paciente>, medicos: seq<Medico>)

  /** What a request sees besides the store: clock, next id, bcrypt, signing keys and token lifetime. */
  datatype Env = Env(now: int, freshId: string, bcrypt: Bcrypt, keys: Keys, expiresIn: Option<int>)

  /** The unique columns: patient `id`, `email` and `cpf`; doctor `id` and `email`. */
  predicate Consistent(c: Clinic)
  {
    && (forall i, j :: 0 <= i < j < |c.pacientes| ==>
          c.pacientes[i].id != c.pacientes[j].id && c.pacientes[i].email != c.pacientes[j].email
          && c.pacientes[i].cpf != c.pacientes[j].cpf)
    && (forall i, j :: 0 <= i < j < |c.medicos| ==>
          c.medicos[i].id != c.medicos[j].id && c.medicos[i].email != c.medicos[j].email)
  }

  /** `findUnique({ where: { id } })` on patients. */
  function PacienteById(ps: seq<Paciente>, id: string): (r: Option<nat>)
    ensures r.Some? ==> r.value < |ps| && ps[r.value].id == id
    ensures r.None? ==> forall k :: 0 <= k < |ps| ==> ps[k].id != id
  {
    if ps == [] then None
    else if ps[0].id == id then Some(0)
    else match PacienteById(ps[1..], id)
      case None => None
      case Some(k) => Some(k + 1)
  }

  /** `findUnique({ where: { email } })` on patients. */
  function PacienteByEmail(ps: seq<Paciente>, email: string): (r: Option<nat>)
    ensures r.Some? ==> r.value < |ps| && ps[r.value].email == email
    ensures r.None? ==> forall k :: 0 <= k < |ps| ==> ps[k].email != email
  {
    if ps == [] then None
    else if ps[0].email == email then Some(0)
    else match PacienteByEmail(ps[1..], email)
      case None => None
      case Some(k) => Some(k + 1)
  }

  function MedicoById(ms: seq<Medico>, id: string): (r: Option<nat>)
    ensures r.Some? ==> r.value < |ms| && ms[r.value].id == id
    ensures r.None? ==> forall k :: 0 <= k < |ms| ==> ms[k].id != id
  {
    if ms == [] then None
    else if ms[0].id == id then Some(0)
    else match MedicoById(ms[1..], id)
      case None => None
      case Some(k) => Some(k + 1)
  }

  function MedicoByEmail(ms: seq<Medico>, email: string): (r: Option<nat>)
    ensures r.Some? ==> r.value < |ms| && ms[r.value].email == email
    ensures r.None? ==> forall k :: 0 <= k < |ms| ==> ms[k].email != email
  {
    if ms == [] then None
    else if ms[0].email == email then Some(0)
    else match MedicoByEmail(ms[1..], email)
      case None => None
      case Some(k) => Some(k + 1)
  }

  /** With unique ids, a lookup by a stored record's id finds that record. */
  lemma PacienteByIdOf(c: Clinic, k: nat)
    requires Consistent(c) && k < |c.pacientes|
    ensures PacienteById(c.pacientes, c.pacientes[k].id) == Some(k)
  {
  }

  lemma MedicoByIdOf(c: Clinic, k: nat)
    requires Consistent(c) && k < |c.medicos|
    ensures MedicoById(c.medicos, c.medicos[k].id) == Some(k)
  {
  }

  /** The record without its password hash (`const { senhaHash, ...resto }`). */
  function PacientePublico(p: Paciente): (d: Schema.Document)
    ensures "senhaHash" !in d
    ensures "id" in d && d["id"] == Str(p.id) && "email" in d && d["email"] == Str(p.email)
  {
    map["id" := Str(p.id), "nome" := Str(p.nome), "email" := Str(p.email), "cpf" := Str(p.cpf),
        "telefone" := Nullable(p.telefone), "dataNascimento" := Str(p.dataNascimento)]
  }

  function MedicoPublico(m: Medico): (d: Schema.Document)
    ensures "senhaHash" !in d
    ensures "id" in d && d["id"] == Str(m.id) && "isAdmin" in d && d["isAdmin"] == Bool(m.isAdmin)
  {
    map["id" := Str(m.id), "nome" := Str(m.nome), "crm" := Str(m.crm), "email" := Str(m.email),
        "ativo" := Bool(m.ativo), "isAdmin" := Bool(m.isAdmin)]
  }

  // ---------------------------------------------------------------------
  // Tokens
  // ---------------------------------------------------------------------

  /** `gerarToken(payload, tipo)`: the payload spread with `tipo`, signed for the configured lifetime (7 days by default). */
  function PatientClaims(p: Paciente, env: Env): (c: Claims)
    ensures c.id == p.id && c.email == Some(p.email) && c.tipo == Some("paciente")
    ensures c.isAdmin.None? && c.exp == env.now + TokenLifetime(env.expiresIn)
  {
    Claims(p.id, None, Some(p.email), None, Some("paciente"), None, env.now, env.now + TokenLifetime(env.expiresIn))
  }

  function DoctorClaims(m: Medico, env: Env): (c: Claims)
    ensures c.id == m.id && c.email == Some(m.email) && c.tipo == Some("medico")
    ensures c.isAdmin == Some(m.isAdmin) && c.exp == env.now + TokenLifetime(env.expiresIn)
  {
    Claims(m.id, None, Some(m.email), None, Some("medico"), Some(m.isAdmin), env.now, env.now + TokenLifetime(env.expiresIn))
  }

  /** `verificarToken(token)`: the claims, or `null` for any failure. */
  function VerificarToken(token: string, k: Keys, now: int): (r: Option<Claims>)
    ensures r.Some? <==> k.verify(token, now).Verified?
    ensures r.Some? ==> r.value == k.verify(token, now).claims
  {
    match k.verify(token, now)
    case Verified(c) => Some(c)
    case _ => None
  }

  /** A signed token verifies to its own claims until its `exp`. */
  lemma VerifyOwnToken(c: Claims, k: Keys, now: int)
    requires SoundKeys(k) && now < c.exp
    ensures VerificarToken(k.sign(c), k, now) == Some(c)
  {
  }

  // ---------------------------------------------------------------------
  // Bearer header
  // ---------------------------------------------------------------------

  /** `Bearer x` splits at its first space, so its second piece is the start of `x`. */
  lemma SplitAfterBearer(h: string)
    requires StartsWith(h, "Bearer ")
    ensures |Split(h, ' ')| >= 2 && Split(h, ' ')[1] == Split(h[7..], ' ')[0]
  {
    assert h[..7] == "Bearer ";
    assert h[6] == ' ';
    assert ' ' !in h[..6] by {
      assert h[..6] == "Bearer";
    }
    assert IndexOfChar(h, ' ') == Some(6);
  }

  /** The first piece of a split is a space-free prefix. */
  lemma FirstPiece(s: string)
    ensures ' ' !in Split(s, ' ')[0]
    ensures StartsWith(s, Split(s, ' ')[0])
    ensures |Split(s, ' ')[0]| == |s| || s[|Split(s, ' ')[0]|] == ' '
  {
    match IndexOfChar(s, ' ')
    case None =>
    case Some(i) =>
  }

  /**
   * The token the guards read: `None` unless the header exists and starts
   * with `Bearer `; then `authHeader.split(' ')[1]`, the text after
   * `Bearer ` up to the next space.
   */
  function BearerToken(header: Option<string>): (t: Option<string>)
    ensures t.Some? <==> header.Some? && StartsWith(header.value, "Bearer ")
    ensures t.Some? ==> ' ' !in t.value && StartsWith(header.value[7..], t.value)
    ensures t.Some? ==> |t.value| == |header.value| - 7 || header.value[7 + |t.value|] == ' '
  {
    match header
    case None => None
    case Some(h) =>
      if StartsWith(h, "Bearer ") then
        SplitAfterBearer(h);
        FirstPiece(h[7..]);
        Some(Split(h, ' ')[1])
      else None
  }

  /** Round trip: `Bearer <t>` gives back `t` for a space-free token. */
  lemma BearerOfToken(t: string)
    requires ' ' !in t
    ensures BearerToken(Some("Bearer " + t)) == Some(t)
  {
    var h := "Bearer " + t;
    assert h[..7] == "Bearer ";
    assert h[7..] == t;
    var p := BearerToken(Some(h)).value;
    assert p == t[..|p|];
  }

  // ---------------------------------------------------------------------
  // Guards
  // ---------------------------------------------------------------------

  /** A guard's decision: `next()` with what it attached, or the status and `error` sent. */
  datatype Guard<+T> = Pass(value: T) | Reject(status: nat, error: string)

  /** `autenticado`: a verifiable token attaches its claims unchanged. */
  function Autenticado(header: Option<string>, k: Keys, now: int): (g: Guard<Claims>)
    ensures BearerToken(header).None? ==> g == Reject(401, MsgNoToken)
    ensures g.Reject? ==> g.status == 401
    ensures g.Pass? <==> BearerToken(header).Some? && k.verify(BearerToken(header).value, now).Verified?
    ensures g.Pass? ==> g.value == k.verify(BearerToken(header).value, now).claims
  {
    match BearerToken(header)
    case None => Reject(401, MsgNoToken)
    case Some(token) =>
      match VerificarToken(token, k, now)
      case None => Reject(401, MsgBadToken)
      case Some(c) => Pass(c)
  }

  /** The claims behind the header when they name account kind `tipo`. */
  function ClaimsOfKind(header: Option<string>, k: Keys, now: int, tipo: string): (r: Result<Claims, Guard<()>>)
    ensures BearerToken(header).None? ==> r == Err(Reject(401, MsgNoToken))
    ensures r.Err? ==> r.error.Reject? && r.error.status == 401
    ensures r.Ok? <==> Autenticado(header, k, now).Pass? && Autenticado(header, k, now).value.tipo == Some(tipo)
    ensures r.Ok? ==> r.value == Autenticado(header, k, now).value
  {
    match BearerToken(header)
    case None => Err(Reject(401, MsgNoToken))
    case Some(token) =>
      match VerificarToken(token, k, now)
      case None => Err(Reject(401, MsgUnauthorized))
      case Some(c) => if c.tipo != Some(tipo) then Err(Reject(401, MsgUnauthorized)) else Ok(c)
  }

  /** `autenticarPaciente`: a patient token whose patient still exists; no activeness check. */
  function AutenticarPaciente(header: Option<string>, db: Clinic, k: Keys, now: int): (g: Guard<Paciente>)
    ensures BearerToken(header).None? ==> g == Reject(401, MsgNoToken)
    ensures g.Reject? ==> g.status == 401
    ensures g.Pass? <==> ClaimsOfKind(header, k, now, "paciente").Ok?
                         && PacienteById(db.pacientes, ClaimsOfKind(header, k, now, "paciente").value.id).Some?
    ensures g.Pass? ==> g.value in db.pacientes && g.value.id == Autenticado(header, k, now).value.id
  {
    match ClaimsOfKind(header, k, now, "paciente")
    case Err(Reject(s, e)) => Reject(s, e)
    case Ok(c) =>
      match PacienteById(db.pacientes, c.id)
      case None => Reject(401, MsgPatientNotFound)
      case Some(i) => Pass(db.pacientes[i])
  }

  /** `autenticarMedico`: a doctor token whose doctor exists and is active; every failure is a 401. */
  function AutenticarMedico(header: Option<string>, db: Clinic, k: Keys, now: int): (g: Guard<Medico>)
    ensures BearerToken(header).None? ==> g == Reject(401, MsgNoToken)
    ensures g.Reject? ==> g.status == 401
    ensures g.Pass? <==> ClaimsOfKind(header, k, now, "medico").Ok?
                         && var i := MedicoById(db.medicos, ClaimsOfKind(header, k, now, "medico").value.id);
                         i.Some? && db.medicos[i.value].ativo
    ensures g.Pass? ==> g.value in db.medicos && g.value.ativo && g.value.id == Autenticado(header, k, now).value.id
  {
    match ClaimsOfKind(header, k, now, "medico")
    case Err(Reject(s, e)) => Reject(s, e)
    case Ok(c) =>
      match MedicoById(db.medicos, c.id)
      case None => Reject(401, MsgDoctorUnavailable)
      case Some(i) => if !db.medicos[i].ativo then Reject(401, MsgDoctorUnavailable) else Pass(db.medicos[i])
  }

  /**
   * `autenticarAdmin`: a wrong or missing token is a 401; a doctor token
   * whose doctor is missing, inactive or not an admin is a 403.
   */
  function AutenticarAdmin(header: Option<string>, db: Clinic, k: Keys, now: int): (g: Guard<Medico>)
    ensures ClaimsOfKind(header, k, now, "medico").Err? <==> g.Reject? && g.status == 401
    ensures ClaimsOfKind(header, k, now, "medico").Ok? && g.Reject? ==> g == Reject(403, MsgAdminOnly)
    ensures g.Pass? ==> g.value in db.medicos && g.value.ativo && g.value.isAdmin
  {
    match ClaimsOfKind(header, k, now, "medico")
    case Err(Reject(s, e)) => Reject(s, e)
    case Ok(c) =>
      match MedicoById(db.medicos, c.id)
      case None => Reject(403, MsgAdminOnly)
      case Some(i) =>
        var m := db.medicos[i];
        if !m.ativo || !m.isAdmin then Reject(403, MsgAdminOnly) else Pass(m)
  }

  /** The admin guard admits exactly the doctors the doctor guard admits that are admins. */
  lemma AdminIsMedicoAndAdmin(header: Option<string>, db: Clinic, k: Keys, now: int)
    ensures AutenticarAdmin(header, db, k, now).Pass? <==>
      AutenticarMedico(header, db, k, now).Pass? && AutenticarMedico(header, db, k, now).value.isAdmin
    ensures AutenticarAdmin(header, db, k, now).Pass? ==>
      AutenticarAdmin(header, db, k, now).value == AutenticarMedico(header, db, k, now).value
  {
  }

  // ---------------------------------------------------------------------
  // cadastroPaciente
  // ---------------------------------------------------------------------

  /** The sign-up body, already trimmed and checked by the route validators. */
  datatype Cadastro = Cadastro(
    nome: string,
    cpf: string,
    email: string,
    senha: string,
    telefone: Option<string>,
    dataNascimento: string)

  /** `findFirst({ where: { OR: [{ email }, { cpf }] } })`: the first patient sharing either. */
  function FirstConflict(ps: seq<Paciente>, email: string, cpf: string): (r: Option<nat>)
    ensures r.Some? ==> r.value < |ps| && (ps[r.value].email == email || ps[r.value].cpf == cpf)
    ensures r.Some? ==> forall k :: 0 <= k < r.value ==> ps[k].email != email && ps[k].cpf != cpf
    ensures r.None? <==> forall k :: 0 <= k < |ps| ==> ps[k].email != email && ps[k].cpf != cpf
  {
    if ps == [] then None
    else if ps[0].email == email || ps[0].cpf == cpf then Some(0)
    else match FirstConflict(ps[1..], email, cpf)
      case None => None
      case Some(k) => Some(k + 1)
  }

  /** The reply body: the token and the selected columns, never the hash. */
  datatype Signed = Signed(token: string, record: Schema.Document)

  /** A request's effect on this backend: the store afterwards, the status, and the body. */
  datatype Answer = Answer(db: Clinic, status: nat, message: string, body: Option<Signed>)

  /**
   * `cadastroPaciente(req)`: a patient sharing the e-mail or the CPF is a
   * 400 naming the e-mail when the patient found has it; otherwise the
   * patient is created with the hashed password and a patient token.
   */
  function CadastroPaciente(db: Clinic, b: Cadastro, env: Env): (o: Answer)
    ensures o.db.medicos == db.medicos
    ensures o.status != 201 ==> o.db == db && o.body.None?
    ensures FirstConflict(db.pacientes, b.email, b.cpf).Some? ==>
      o.status == 400 && (o.message == MsgEmailTaken <==> db.pacientes[FirstConflict(db.pacientes, b.email, b.cpf).value].email == b.email)
    ensures o.status == 400 ==> o.message in {MsgEmailTaken, MsgCpfTaken}
    ensures o.status == 201 <==> FirstConflict(db.pacientes, b.email, b.cpf).None? && PacienteById(db.pacientes, env.freshId).None?
    ensures o.status == 201 ==> |o.db.pacientes| == |db.pacientes| + 1 && var p := o.db.pacientes[|db.pacientes|];
      && o.db.pacientes == db.pacientes + [p]
      && p.id == env.freshId && p.email == b.email && p.cpf == b.cpf && p.senhaHash == env.bcrypt.hash(b.senha)
      && p.nome == b.nome && p.telefone == b.telefone && p.dataNascimento == b.dataNascimento
      && o.body == Some(Signed(env.keys.sign(PatientClaims(p, env)), PacientePublico(p)))
  {
    match FirstConflict(db.pacientes, b.email, b.cpf)
    case Some(i) =>
      Answer(db, 400, if db.pacientes[i].email == b.email then MsgEmailTaken else MsgCpfTaken, None)
    case None =>
      if PacienteById(db.pacientes, env.freshId).Some? then Answer(db, 500, MsgSignUpFailed, None)
      else
        var p := Paciente(env.freshId, b.nome, b.cpf, b.email, env.bcrypt.hash(b.senha), b.telefone, b.dataNascimento);
        Answer(db.(pacientes := db.pacientes + [p]), 201, MsgSignedUp,
               Some(Signed(env.keys.sign(PatientClaims(p, env)), PacientePublico(p))))
  }

  /**
   * Which field the rejection names: the e-mail when only the e-mail is
   * taken, the CPF when only the CPF is taken.
   */
  lemma ConflictMessage(db: Clinic, b: Cadastro, env: Env)
    ensures (exists k :: 0 <= k < |db.pacientes| && db.pacientes[k].email == b.email) &&
            (forall k :: 0 <= k < |db.pacientes| ==> db.pacientes[k].cpf != b.cpf) ==>
      CadastroPaciente(db, b, env).message == MsgEmailTaken
    ensures (exists k :: 0 <= k < |db.pacientes| && db.pacientes[k].cpf == b.cpf) &&
            (forall k :: 0 <= k < |db.pacientes| ==> db.pacientes[k].email != b.email) ==>
      CadastroPaciente(db, b, env).message == MsgCpfTaken
  {
  }

  lemma {:induction false} CadastroPreservesConsistency(db: Clinic, b: Cadastro, env: Env)
    requires Consistent(db)
    ensures Consistent(CadastroPaciente(db, b, env).db)
  {
    var o := CadastroPaciente(db, b, env);
    if o.status == 201 {
      var n := |db.pacientes|;
      var ps := o.db.pacientes;
      assert FirstConflict(db.pacientes, b.email, b.cpf).None?;
      forall i, j | 0 <= i < j < |ps|
        ensures ps[i].id != ps[j].id && ps[i].email != ps[j].email && ps[i].cpf != ps[j].cpf
      {
        assert ps[i] == db.pacientes[i];
        if j < n {
          assert ps[j] == db.pacientes[j];
        }
      }
    }
  }

  // ---------------------------------------------------------------------
  // loginPaciente and loginMedico
  // ---------------------------------------------------------------------

  /**
   * `loginPaciente(req)`: an unknown e-mail and a wrong password give the
   * same 401; a comparison that throws is a 500.
   */
  function LoginPaciente(db: Clinic, email: string, senha: string, env: Env): (o: Answer)
    ensures o.db == db
    ensures o.status == 401 <==>
      PacienteByEmail(db.pacientes, email).None? ||
      env.bcrypt.compare(senha, db.pacientes[PacienteByEmail(db.pacientes, email).value].senhaHash) == Mismatched
    ensures o.status == 401 ==> o.message == MsgBadCredentials && o.body.None?
    ensures o.status == 200 <==>
      PacienteByEmail(db.pacientes, email).Some? &&
      env.bcrypt.compare(senha, db.pacientes[PacienteByEmail(db.pacientes, email).value].senhaHash) == Matched
    ensures o.status == 200 ==> var p := db.pacientes[PacienteByEmail(db.pacientes, email).value];
      o.body == Some(Signed(env.keys.sign(PatientClaims(p, env)), PacientePublico(p)))
    ensures o.status in {200, 401, 500}
  {
    match PacienteByEmail(db.pacientes, email)
    case None => Answer(db, 401, MsgBadCredentials, None)
    case Some(i) =>
      var p := db.pacientes[i];
      match env.bcrypt.compare(senha, p.senhaHash)
      case Threw => Answer(db, 500, MsgLoginFailed, None)
      case Mismatched => Answer(db, 401, MsgBadCredentials, None)
      case Matched => Answer(db, 200, MsgLoggedIn, Some(Signed(env.keys.sign(PatientClaims(p, env)), PacientePublico(p))))
  }

  /**
   * `loginMedico(req)`: an unknown e-mail, an inactive doctor and a wrong
   * password all give the same 401; an inactive doctor is refused without
   * the comparison.
   */
  function LoginMedico(db: Clinic, email: string, senha: string, env: Env): (o: Answer)
    ensures o.db == db
    ensures MedicoByEmail(db.medicos, email).Some? && !db.medicos[MedicoByEmail(db.medicos, email).value].ativo ==>
      o == Answer(db, 401, MsgBadCredentials, None)
    ensures o.status == 401 <==>
      || MedicoByEmail(db.medicos, email).None?
      || !db.medicos[MedicoByEmail(db.medicos, email).value].ativo
      || env.bcrypt.compare(senha, db.medicos[MedicoByEmail(db.medicos, email).value].senhaHash) == Mismatched
    ensures o.status == 401 ==> o.message == MsgBadCredentials && o.body.None?
    ensures o.status == 200 <==>
      && MedicoByEmail(db.medicos, email).Some?
      && db.medicos[MedicoByEmail(db.medicos, email).value].ativo
      && env.bcrypt.compare(senha, db.medicos[MedicoByEmail(db.medicos, email).value].senhaHash) == Matched
    ensures o.status == 200 ==> var m := db.medicos[MedicoByEmail(db.medicos, email).value];
      o.body == Some(Signed(env.keys.sign(DoctorClaims(m, env)), MedicoPublico(m)))
    ensures o.status in {200, 401, 500}
  {
    match MedicoByEmail(db.medicos, email)
    case None => Answer(db, 401, MsgBadCredentials, None)
    case Some(i) =>
      var m := db.medicos[i];
      if !m.ativo then Answer(db, 401, MsgBadCredentials, None)
      else
        match env.bcrypt.compare(senha, m.senhaHash)
        case Threw => Answer(db, 500, MsgLoginFailed, None)
        case Mismatched => Answer(db, 401, MsgBadCredentials, None)
        case Matched => Answer(db, 200, MsgLoggedIn, Some(Signed(env.keys.sign(DoctorClaims(m, env)), MedicoPublico(m))))
  }

  // ---------------------------------------------------------------------
  // Tokens issued here pass the guards
  // ---------------------------------------------------------------------

  /** A patient's own token, before it expires, passes the patient guard and attaches that patient. */
  lemma {:induction false} PatientTokenPasses(db: Clinic, p: Paciente, env: Env, t: int)
    requires SoundKeys(env.keys) && Consistent(db)
    requires p in db.pacientes
    requires t < env.now + TokenLifetime(env.expiresIn)
    ensures AutenticarPaciente(Some("Bearer " + env.keys.sign(PatientClaims(p, env))), db, env.keys, t) == Pass(p)
  {
    var c := PatientClaims(p, env);
    BearerOfToken(env.keys.sign(c));
    VerifyOwnToken(c, env.keys, t);
    var i :| 0 <= i < |db.pacientes| && db.pacientes[i] == p;
    PacienteByIdOf(db, i);
  }

  /** The same for a doctor: the doctor guard admits an active doctor's own token. */
  lemma {:induction false} DoctorTokenPasses(db: Clinic, m: Medico, env: Env, t: int)
    requires SoundKeys(env.keys) && Consistent(db)
    requires m in db.medicos && m.ativo
    requires t < env.now + TokenLifetime(env.expiresIn)
    ensures AutenticarMedico(Some("Bearer " + env.keys.sign(DoctorClaims(m, env))), db, env.keys, t) == Pass(m)
  {
    var c := DoctorClaims(m, env);
    BearerOfToken(env.keys.sign(c));
    VerifyOwnToken(c, env.keys, t);
    var i :| 0 <= i < |db.medicos| && db.medicos[i] == m;
    MedicoByIdOf(db, i);
  }

  /** A patient token is refused with the generic 401 where a doctor is required, and the reverse. */
  lemma {:induction false} KindsDoNotMix(db: Clinic, p: Paciente, m: Medico, env: Env, t: int)
    requires SoundKeys(env.keys)
    ensures AutenticarMedico(Some("Bearer " + env.keys.sign(PatientClaims(p, env))), db, env.keys, t) == Reject(401, MsgUnauthorized)
    ensures AutenticarAdmin(Some("Bearer " + env.keys.sign(PatientClaims(p, env))), db, env.keys, t) == Reject(401, MsgUnauthorized)
    ensures AutenticarPaciente(Some("Bearer " + env.keys.sign(DoctorClaims(m, env))), db, env.keys, t) == Reject(401, MsgUnauthorized)
  {
    BearerOfToken(env.keys.sign(PatientClaims(p, env)));
    BearerOfToken(env.keys.sign(DoctorClaims(m, env)));
  }

  /** Logging in, or signing up, returns a token the matching guard accepts for its whole lifetime. */
  lemma {:induction false} LoginTokensPass(db: Clinic, email: string, senha: string, b: Cadastro, env: Env, t: int)
    requires SoundKeys(env.keys) && Consistent(db)
    requires t < env.now + TokenLifetime(env.expiresIn)
    ensures LoginPaciente(db, email, senha, env).status == 200 ==>
      AutenticarPaciente(Some("Bearer " + LoginPaciente(db, email, senha, env).body.value.token), db, env.keys, t).Pass?
    ensures LoginMedico(db, email, senha, env).status == 200 ==>
      AutenticarMedico(Some("Bearer " + LoginMedico(db, email, senha, env).body.value.token), db, env.keys, t).Pass?
    ensures CadastroPaciente(db, b, env).status == 201 ==> var o := CadastroPaciente(db, b, env);
      AutenticarPaciente(Some("Bearer " + o.body.value.token), o.db, env.keys, t).Pass?
  {
    if LoginPaciente(db, email, senha, env).status == 200 {
      PatientTokenPasses(db, db.pacientes[PacienteByEmail(db.pacientes, email).value], env, t);
    }
    if LoginMedico(db, email, senha, env).status == 200 {
      DoctorTokenPasses(db, db.medicos[MedicoByEmail(db.medicos, email).value], env, t);
    }
    var o := CadastroPaciente(db, b, env);
    if o.status == 201 {
      CadastroPreservesConsistency(db, b, env);
      PatientTokenPasses(o.db, o.db.pacientes[|db.pacientes|], env, t);
    }
  }
}

=== FILE: hash_utils.dfy ===
/**
 * Password handling of the Mongoose backend: the strength rule
 * `validarSenha` and the input guards around bcrypt in `hashSenha` and
 * `compararSenha`.  bcrypt itself is an opaque pair of functions.
 */
module HashUtils {
  import opened Base
  import opened Js

  const MinLength: nat := 6
  const MaxLength: nat := 100

  const MsgRequired := "Senha é obrigatória"
  const MsgTooShort := "Senha deve ter no mínimo 6 caracteres"
  const MsgTooLong := "Senha muito longa (máximo 100 caracteres)"
  const MsgValid := "Senha válida"
  const MsgInvalid := "Senha inválida"

  /** `{ valida, mensagem }` as `validarSenha` returns it. */
  datatype PasswordCheck = PasswordCheck(valida: bool, mensagem: string)

  /**
   * `validarSenha(senha)`.  A truthy number or boolean has no `length`, and
   * `undefined < 6` and `undefined > 100` are both false, so such a value
   * passes; only a string is measured.
   */
  function ValidarSenha(senha: Value): (r: PasswordCheck)
    ensures r.valida <==> Truthy(senha) && (senha.Str? ==> MinLength <= |senha.s| <= MaxLength)
    ensures !Truthy(senha) ==> r.mensagem == MsgRequired
    ensures Truthy(senha) && senha.Str? && |senha.s| < MinLength ==> r.mensagem == MsgTooShort
    ensures senha.Str? && |senha.s| > MaxLength ==> r.mensagem == MsgTooLong
    ensures r.valida ==> r.mensagem == MsgValid
    ensures !r.valida ==> r.mensagem in {MsgRequired, MsgTooShort, MsgTooLong}
  {
    if !Truthy(senha) then PasswordCheck(false, MsgRequired)
    else if senha.Str? && |senha.s| < MinLength then PasswordCheck(false, MsgTooShort)
    else if senha.Str? && |senha.s| > MaxLength then PasswordCheck(false, MsgTooLong)
    else PasswordCheck(true, MsgValid)
  }

  /** The message alone tells which rule fired: each message is given for exactly one cause. */
  lemma MessageIdentifiesCause(senha: Value)
    ensures var r := ValidarSenha(senha);
      && (r.mensagem == MsgRequired <==> !Truthy(senha))
      && (r.mensagem == MsgTooShort <==> Truthy(senha) && senha.Str? && |senha.s| < MinLength)
      && (r.mensagem == MsgTooLong <==> senha.Str? && |senha.s| > MaxLength)
      && (r.mensagem == MsgValid <==> r.valida)
  {
    assert MsgRequired[6] != MsgTooShort[6];
    assert MsgRequired[6] != MsgTooLong[6];
    assert MsgRequired[6] != MsgValid[6];
    assert MsgTooShort[6] != MsgTooLong[6];
    assert MsgTooShort[6] != MsgValid[6];
    assert MsgTooLong[6] != MsgValid[6];
  }

  /** The outcome of `bcrypt.compare`: it can also throw on malformed arguments. */
  datatype CompareOutcome = Matched | Mismatched | Threw

  /**
   * The bcrypt library, opaque: `hash` stands for `bcrypt.hash(senha, 10)`
   * (its random salt folded into the function) and `compare` for
   * `bcrypt.compare`.
   */
  datatype Bcrypt = Bcrypt(hash: string -> string, compare: (string, string) -> CompareOutcome)

  /** What the rest of the model assumes of bcrypt: a hash is non-empty and matches its own password. */
  ghost predicate SoundBcrypt(b: Bcrypt)
  {
    forall s: string :: b.hash(s) != "" && b.compare(s, b.hash(s)) == Matched
  }

  /**
   * `hashSenha(senha)`: rejects a falsy or non-string value and a string
   * shorter than 6, then hashes.  It does not apply the 100-character cap.
   */
  function HashSenha(senha: Value, b: Bcrypt): (r: Result<string, string>)
    ensures r.Ok? <==> senha.Str? && |senha.s| >= MinLength
    ensures r.Ok? ==> r.value == b.hash(senha.s)
    ensures !Truthy(senha) || !senha.Str? ==> r == Err(MsgInvalid)
    ensures senha.Str? && 0 < |senha.s| < MinLength ==> r == Err(MsgTooShort)
  {
    if !Truthy(senha) || !senha.Str? then Err(MsgInvalid)
    else if |senha.s| < MinLength then Err(MsgTooShort)
    else Ok(b.hash(senha.s))
  }

  /**
   * `compararSenha(senha, hash)`: false for a falsy argument; a non-string
   * argument makes bcrypt throw, which is caught and also gives false.
   */
  function CompararSenha(senha: Value, hash: Value, b: Bcrypt): (ok: bool)
    ensures ok ==> senha.Str? && senha.s != "" && hash.Str? && hash.s != ""
    ensures ok ==> b.compare(senha.s, hash.s) == Matched
    ensures senha.Str? && senha.s != "" && hash.Str? && hash.s != "" && b.compare(senha.s, hash.s) == Matched ==> ok
  {
    if !Truthy(senha) || !Truthy(hash) then false
    else if senha.Str? && hash.Str? then b.compare(senha.s, hash.s) == Matched
    else false
  }

  /** A password that passes the strength rule can always be hashed. */
  lemma ValidPasswordHashes(s: string, b: Bcrypt)
    requires ValidarSenha(Str(s)).valida
    ensures HashSenha(Str(s), b).Ok?
  {
  }

  /**
   * The two guards differ: `hashSenha` accepts a 101-character password
   * that `validarSenha` rejects.
   */
  lemma HashSenhaSkipsMaximum(b: Bcrypt)
    ensures HashSenha(Str(seq(101, _ => 'a')), b).Ok?
    ensures !ValidarSenha(Str(seq(101, _ => 'a'))).valida
  {
  }

  /** Round trip: a hashed password is accepted by the comparison against its own hash. */
  lemma HashThenCompare(s: string, b: Bcrypt)
    requires SoundBcrypt(b)
    requires HashSenha(Str(s), b).Ok?
    ensures CompararSenha(Str(s), Str(HashSenha(Str(s), b).value), b)
  {
  }
}

=== FILE: js.dfy ===
/**
 * The JavaScript values the backends receive: function arguments and the
 * fields of a JSON request body.  Arrays and objects are not modelled.
 */
module Js {
  import opened Base

  /** A JSON scalar as a JavaScript function sees it. */
  datatype Value = Undefined | Null | Bool(b: bool) | Num(n: int) | Str(s: string)

  /** JavaScript truthiness (`!v` is its negation). */
  predicate Truthy(v: Value)
  {
    match v
    case Undefined => false
    case Null => false
    case Bool(b) => b
    case Num(n) => n != 0
    case Str(s) => s != ""
  }

  /**
   * A request-body field that is expected to hold a `T`: left out of the
   * body (`undefined`), sent as JSON `null`, or given.
   */
  datatype Field<+T> = Absent | Cleared | Given(value: T)

  /** `if (field)` for a string field. */
  predicate Present(f: Field<string>)
  {
    f.Given? && f.value != ""
  }

  /** The field as the argument value a helper function receives. */
  function AsValue(f: Field<string>): (v: Value)
    ensures Truthy(v) <==> Present(f)
    ensures f.Given? <==> v.Str?
  {
    match f
    case Absent => Undefined
    case Cleared => Null
    case Given(s) => Str(s)
  }

  /** The field's string, when one was sent (`null` and `undefined` both give `None`). */
  function Text(f: Field<string>): (o: Option<string>)
    ensures o.Some? <==> f.Given?
    ensures o.Some? ==> o.value == f.value
  {
    match f
    case Given(s) => Some(s)
    case _ => None
  }

  /** A sent string, or `""` for `undefined` / `null` (both fail a `required` path alike). */
  function Raw(f: Field<string>): (s: string)
    ensures f.Given? ==> s == f.value
    ensures !f.Given? ==> s == ""
  {
    if f.Given? then f.value else ""
  }

  /** `field || fallback`: the sent string when truthy, else the fallback. */
  function OrElse(f: Field<string>, fallback: string): (r: string)
    ensures Present(f) ==> r == f.value
    ensures !Present(f) ==> r == fallback
  {
    if Present(f) then f.value else fallback
  }

  /** A string field that defaults to `null`, as a JSON value. */
  function Nullable(o: Option<string>): (v: Value)
    ensures o.None? <==> v == Null
    ensures o.Some? ==> v == Str(o.value)
  {
    match o
    case None => Null
    case Some(s) => Str(s)
  }

  /** Reads a nullable string field back. */
  function ReadNullable(v: Value): (o: Option<string>)
  {
    if v.Str? then Some(v.s) else None
  }
}

=== FILE: jwt_utils.dfy ===
/**
 * Token handling of the Mongoose backend (`jwtUtils`): header extraction,
 * the payload `gerarToken` signs, the error mapping of `verificarToken` and
 * the expiry test of `tokenExpirado`.  Signing and signature checking are
 * an opaque key set.
 */
module JwtUtils {
  import opened Base
  import opened Js
  import opened Text

  /** The fallback `'24h'` of `JWT_EXPIRES_IN`, in seconds. */
  const DefaultExpiresIn: int := 24 * 60 * 60

  /**
   * The token lifetime in seconds: `process.env.JWT_EXPIRES_IN || '24h'`,
   * where `configured` is the variable's duration (`None` when it is unset
   * or empty).
   */
  function Lifetime(configured: Option<int>): (r: int)
    ensures configured.None? ==> r == DefaultExpiresIn
    ensures configured.Some? ==> r == configured.value
  {
    OptionOr(configured, DefaultExpiresIn)
  }

  const MsgNoPayloadId := "Payload inválido: id é obrigatório"
  const MsgNoToken := "Token não fornecido"
  const MsgExpired := "Token expirado"
  const MsgInvalid := "Token inválido"

  /**
   * The claims of a signed token.  Fields a backend does not set are
   * `None`; `iat` and `exp` are in seconds since the epoch.
   */
  datatype Claims = Claims(
    id: string,
    nome: Option<string>,
    email: Option<string>,
    role: Option<string>,
    tipo: Option<string>,
    isAdmin: Option<bool>,
    iat: int,
    exp: int)

  /** How `jwt.verify` ends: the claims, or the error it throws. */
  datatype VerifyOutcome = Verified(claims: Claims) | Expired | Malformed | OtherFailure(message: string)

  /**
   * The signing library with its secret: `sign` is `jwt.sign`, `verify` is
   * `jwt.verify` at a given clock, `decode` is `jwt.decode` (no signature
   * check).
   */
  datatype Keys = Keys(
    sign: Claims -> string,
    verify: (string, int) -> VerifyOutcome,
    decode: string -> Option<Claims>)

  /**
   * What the model assumes of the library: a token it signed verifies to
   * its own claims until the second `exp` (from then on it is expired),
   * decodes to them, and is a non-empty string with no space in it (a JWT
   * is three base64url parts joined by dots).
   */
  ghost predicate SoundKeys(k: Keys)
  {
    && (forall c: Claims, now: int :: k.verify(k.sign(c), now) == if now < c.exp then Verified(c) else Expired)
    && (forall c: Claims :: k.decode(k.sign(c)) == Some(c))
    && (forall c: Claims :: k.sign(c) != "" && ' ' !in k.sign(c))
  }

  // ---------------------------------------------------------------------
  // extrairToken
  // ---------------------------------------------------------------------

  /** `extrairToken(authHeader)`: `None` is `null`. */
  function ExtrairToken(authHeader: Option<string>): (r: Option<string>)
    ensures authHeader.None? || authHeader.value == "" ==> r.None?
    ensures authHeader.Some? && StartsWith(authHeader.value, "Bearer ") ==> r == Some(authHeader.value[7..])
    ensures authHeader.Some? && authHeader.value != "" && !StartsWith(authHeader.value, "Bearer ") ==> r == authHeader
  {
    match authHeader
    case None => None
    case Some(h) =>
      if h == "" then None
      else if StartsWith(h, "Bearer ") then Some(h[7..])
      else Some(h)
  }

  /** The header `Bearer <t>` gives back exactly `t`. */
  lemma ExtrairBearer(t: string)
    ensures ExtrairToken(Some("Bearer " + t)) == Some(t)
  {
    assert ("Bearer " + t)[..7] == "Bearer ";
    assert ("Bearer " + t)[7..] == t;
  }

  // ---------------------------------------------------------------------
  // gerarToken
  // ---------------------------------------------------------------------

  /** The argument of `gerarToken`: the fields its callers pass. */
  datatype TokenRequest = TokenRequest(id: Field<string>, nome: Option<string>, role: Field<string>, tipo: Field<string>)

  /**
   * The claims `gerarToken(payload)` signs at clock `now` (seconds):
   * `id` and `nome` copied, `role` and `tipo` defaulting to `medico`,
   * `iat = now` and `exp = iat` plus the configured lifetime, 86400
   * seconds when `JWT_EXPIRES_IN` is not set.
   */
  function GerarToken(payload: Option<TokenRequest>, now: int, expiresIn: Option<int>): (r: Result<Claims, string>)
    ensures r.Err? <==> payload.None? || !Present(payload.value.id)
    ensures r.Err? ==> r.error == MsgNoPayloadId
    ensures r.Ok? ==> r.value.id == payload.value.id.value && r.value.nome == payload.value.nome
    ensures r.Ok? && Present(payload.value.role) ==> r.value.role == Some(payload.value.role.value)
    ensures r.Ok? && !Present(payload.value.role) ==> r.value.role == Some("medico")
    ensures r.Ok? && Present(payload.value.tipo) ==> r.value.tipo == Some(payload.value.tipo.value)
    ensures r.Ok? && !Present(payload.value.tipo) ==> r.value.tipo == Some("medico")
    ensures r.Ok? ==> r.value.email.None? && r.value.isAdmin.None?
    ensures r.Ok? ==> r.value.iat == now && r.value.exp - r.value.iat == Lifetime(expiresIn)
    ensures r.Ok? && expiresIn.None? ==> r.value.exp == now + 86400
  {
    match payload
    case None => Err(MsgNoPayloadId)
    case Some(p) =>
      if !Present(p.id) then Err(MsgNoPayloadId)
      else Ok(Claims(p.id.value, p.nome, None, Some(OrElse(p.role, "medico")),
                     Some(OrElse(p.tipo, "medico")), None, now, now + Lifetime(expiresIn)))
  }

  // ---------------------------------------------------------------------
  // verificarToken
  // ---------------------------------------------------------------------

  /**
   * `verificarToken(token)` at clock `now`: the first `Bearer ` is removed,
   * the library's expired / malformed errors become `Token expirado` /
   * `Token inválido`, and any other error passes through unchanged.
   */
  function VerificarToken(token: string, k: Keys, now: int): (r: Result<Claims, string>)
    ensures token == "" ==> r == Err(MsgNoToken)
    ensures token != "" ==> match k.verify(ReplaceFirst(token, "Bearer ", ""), now)
      case Verified(c) => r == Ok(c)
      case Expired => r == Err(MsgExpired)
      case Malformed => r == Err(MsgInvalid)
      case OtherFailure(m) => r == Err(m)
  {
    if token == "" then Err(MsgNoToken)
    else
      match k.verify(ReplaceFirst(token, "Bearer ", ""), now)
      case Verified(c) => Ok(c)
      case Expired => Err(MsgExpired)
      case Malformed => Err(MsgInvalid)
      case OtherFailure(m) => Err(m)
  }

  /** A space-free string has no `Bearer ` in it to remove. */
  lemma NoBearerInside(t: string)
    requires ' ' !in t
    ensures ReplaceFirst(t, "Bearer ", "") == t
  {
    forall j | 0 <= j
      ensures !OccursAt(t, "Bearer ", j)
    {
      if j + 7 <= |t| {
        assert t[j..j + 7][6] == t[j + 6];
        assert t[j + 6] in t;
      }
    }
    ReplaceFirstAbsent(t, "Bearer ", "");
  }

  /**
   * Round trip: a token the keys signed verifies to its claims before
   * `exp`, whether or not it still carries the `Bearer ` prefix.
   */
  lemma VerifySigned(c: Claims, k: Keys, now: int)
    requires SoundKeys(k)
    requires now < c.exp
    ensures k.sign(c) != "" ==> VerificarToken(k.sign(c), k, now) == Ok(c)
    ensures VerificarToken("Bearer " + k.sign(c), k, now) == Ok(c)
  {
    var t := k.sign(c);
    NoBearerInside(t);
    ReplaceFirstAtStart("Bearer " + t, "Bearer ");
    assert ("Bearer " + t)[7..] == t;
  }

  /** From the second `exp` on, a signed token is reported as expired. */
  lemma VerifyExpired(c: Claims, k: Keys, now: int)
    requires SoundKeys(k)
    requires c.exp <= now
    ensures VerificarToken("Bearer " + k.sign(c), k, now) == Err(MsgExpired)
  {
    var t := k.sign(c);
    NoBearerInside(t);
    ReplaceFirstAtStart("Bearer " + t, "Bearer ");
    assert ("Bearer " + t)[7..] == t;
  }

  // ---------------------------------------------------------------------
  // decodificarToken and tokenExpirado
  // ---------------------------------------------------------------------

  /** `decodificarToken(token)`: the claims without a signature check, `None` for garbage. */
  function DecodificarToken(token: string, k: Keys): (r: Option<Claims>)
    ensures r == k.decode(ReplaceFirst(token, "Bearer ", ""))
  {
    k.decode(ReplaceFirst(token, "Bearer ", ""))
  }

  /**
   * `tokenExpirado(token)` at clock `now`: true when nothing decodes or the
   * claims have no `exp` (0 is falsy), otherwise `exp < now`.
   */
  function TokenExpirado(token: string, k: Keys, now: int): (expired: bool)
    ensures DecodificarToken(token, k).None? ==> expired
    ensures DecodificarToken(token, k).Some? && DecodificarToken(token, k).value.exp == 0 ==> expired
    ensures DecodificarToken(token, k).Some? && DecodificarToken(token, k).value.exp != 0 ==>
      (expired <==> DecodificarToken(token, k).value.exp < now)
  {
    match DecodificarToken(token, k)
    case None => true
    case Some(c) => c.exp == 0 || c.exp < now
  }

  /**
   * `tokenExpirado` and `jwt.verify` disagree for exactly one second: at
   * `now == exp` the token is no longer accepted by `verificarToken` but
   * is not yet reported expired.  Anywhere else they agree.
   */
  lemma ExpiryBoundary(c: Claims, k: Keys, now: int)
    requires SoundKeys(k)
    requires c.exp != 0
    ensures TokenExpirado(k.sign(c), k, now) <==> c.exp < now
    ensures VerificarToken("Bearer " + k.sign(c), k, now).Ok? <==> now < c.exp
    ensures now == c.exp ==> !TokenExpirado(k.sign(c), k, now) && VerificarToken("Bearer " + k.sign(c), k, now).Err?
  {
    NoBearerInside(k.sign(c));
    if now < c.exp {
      VerifySigned(c, k, now);
    } else {
      VerifyExpired(c, k, now);
    }
  }
}

=== FILE: masks.dfy ===
/**
 * The input masks of the sign-up forms and what the forms submit: the CPF
 * mask (`000.000.000-00`) of both front ends, the phone mask, the CRM digit
 * filter, and the bodies the pages build from their fields.  Each mask is
 * modelled step by step as the chain of first-match `replace` calls it is,
 * and then shown equal to a layout stated by the number of digits.
 */
module Masks {
  import opened Base
  import opened Js
  import opened Text
  import Schema
  import PacienteModel
  import PacienteController
  import AuthController
  import Database
  import FalaDoutorAuth
  import Validation

  // ---------------------------------------------------------------------
  // The regular-expression steps
  // ---------------------------------------------------------------------

  /** `\d{n}` matches at position `i`. */
  predicate RunAt(s: string, i: nat, n: nat)
  {
    i + n <= |s| && forall k :: i <= k < i + n ==> IsDigit(s[k])
  }

  /** The leftmost position, from `i` on, where `n` digits in a row start. */
  function FirstRun(s: string, n: nat, i: nat): (r: Option<nat>)
    ensures r.Some? ==> i <= r.value && RunAt(s, r.value, n)
    ensures r.Some? ==> forall j :: i <= j < r.value ==> !RunAt(s, j, n)
    ensures r.None? ==> forall j :: i <= j ==> !RunAt(s, j, n)
    decreases |s| - i
  {
    if i + n > |s| then None
    else if RunAt(s, i, n) then Some(i)
    else FirstRun(s, n, i + 1)
  }

  /** `FirstRun` is the leftmost match: a run at `i` with none before it is what it finds. */
  lemma FirstRunIs(s: string, n: nat, i: nat)
    requires RunAt(s, i, n)
    requires forall j :: 0 <= j < i ==> !RunAt(s, j, n)
    ensures FirstRun(s, n, 0) == Some(i)
  {
  }

  function Insert(s: string, i: nat, c: char): (r: string)
    requires i <= |s|
    ensures |r| == |s| + 1 && r[i] == c
    ensures r[..i] == s[..i] && r[i + 1..] == s[i..]
  {
    s[..i] + [c] + s[i..]
  }

  /**
   * `.replace(/(\d{3})(\d)/, '$1' + sep + '$2')`, and equally
   * `.replace(/(\d{3})(\d{1,2})/, '$1-$2')`: at the first place where four
   * digits follow one another, `sep` goes after the third.  The second
   * group only decides where the match ends, and the text after the match
   * is kept, so how much it takes does not change the result.
   */
  function SeparateAfterThree(s: string, sep: char): (r: string)
    ensures FirstRun(s, 4, 0).None? ==> r == s
    ensures FirstRun(s, 4, 0).Some? ==> var i := FirstRun(s, 4, 0).value;
      i + 3 < |s| && r == Insert(s, i + 3, sep)
  {
    match FirstRun(s, 4, 0)
    case None => s
    case Some(i) => Insert(s, i + 3, sep)
  }

  /**
   * `.replace(/(\d{3})(\d{1,2})$/, '$1-$2')`: the match is the leftmost
   * start of a digit suffix of length four or five, so a five-digit suffix
   * wins and the hyphen leaves two digits after it; otherwise a four-digit
   * suffix leaves one.
   */
  function HyphenBeforeEnd(s: string): (r: string)
  {
    if |s| >= 5 && RunAt(s, |s| - 5, 5) then Insert(s, |s| - 2, '-')
    else if |s| >= 4 && RunAt(s, |s| - 4, 4) then Insert(s, |s| - 1, '-')
    else s
  }

  /** `/(-\d{2})\d+?$/` matches at `p`: a hyphen, two digits, then at least one more digit up to the end. */
  predicate OverlongAt(s: string, p: nat)
  {
    p + 4 <= |s| && s[p] == '-' && RunAt(s, p + 1, |s| - p - 1)
  }

  function FirstOverlong(s: string, p: nat): (r: Option<nat>)
    ensures r.Some? ==> p <= r.value && OverlongAt(s, r.value)
    ensures r.Some? ==> forall j :: p <= j < r.value ==> !OverlongAt(s, j)
    ensures r.None? ==> forall j :: p <= j ==> !OverlongAt(s, j)
    decreases |s| - p
  {
    if p + 4 > |s| then None
    else if OverlongAt(s, p) then Some(p)
    else FirstOverlong(s, p + 1)
  }

  /** `.replace(/(-\d{2})\d+?$/, '$1')`: whatever follows the two digits after the hyphen is cut. */
  function CutAfterCheckDigits(s: string): (r: string)
    ensures FirstOverlong(s, 0).None? ==> r == s
    ensures FirstOverlong(s, 0).Some? ==> r == s[..FirstOverlong(s, 0).value + 3]
  {
    match FirstOverlong(s, 0)
    case None => s
    case Some(p) => s[..p + 3]
  }

  // ---------------------------------------------------------------------
  // The CPF masks
  // ---------------------------------------------------------------------

  /**
   * The CPF as the masks lay it out, by the number of digits typed: a dot
   * after the third and the sixth digit, and from ten digits on a hyphen
   * before the last one (ten digits) or the last two (more).
   */
  function CpfLayout(d: string): (r: string)
  {
    var n := |d|;
    if n <= 3 then d
    else if n <= 6 then d[..3] + ['.'] + d[3..]
    else if n <= 9 then d[..3] + ['.'] + (d[3..6] + ['.'] + d[6..])
    else
      var c := if n == 10 then 9 else n - 2;
      d[..3] + ['.'] + (d[3..6] + ['.'] + (d[6..c] + ['-'] + d[c..]))
  }

  /** `/^\d{3}\.\d{3}\.\d{3}-\d{2}$/`, the CPF pattern of both sign-up forms and of the second backend. */
  predicate MaskedCpfShape(s: string)
  {
    && |s| == 14
    && s[3] == '.' && s[7] == '.' && s[11] == '-'
    && forall k :: 0 <= k < 14 && k != 3 && k != 7 && k != 11 ==> IsDigit(s[k])
  }

  /** `formatarCPF` of the clinic's forms: strip, two dots, then the end-anchored hyphen. */
  function FormatarCpf(valor: string): (r: string)
    ensures r == CpfLayout(Digits(valor))
  {
    var d := Digits(valor);
    CpfSteps(d);
    HyphenBeforeEnd(SeparateAfterThree(SeparateAfterThree(d, '.'), '.'))
  }

  /** `formatarCPF` of the second front end: strip, two dots, a hyphen, then the cut after two check digits. */
  function FormatarCpfTruncado(valor: string): (r: string)
    ensures var d := Digits(valor); r == CpfLayout(if |d| <= 11 then d else d[..11])
  {
    var d := Digits(valor);
    TruncatedSteps(d);
    CutAfterCheckDigits(SeparateAfterThree(SeparateAfterThree(SeparateAfterThree(d, '.'), '.'), '-'))
  }

  /** The first dot, on a string of digits. */
  lemma FirstDot(d: string)
    requires AllDigits(d)
    ensures |d| < 4 ==> SeparateAfterThree(d, '.') == d
    ensures |d| >= 4 ==> SeparateAfterThree(d, '.') == d[..3] + ['.'] + d[3..]
  {
    if |d| >= 4 {
      FirstRunIs(d, 4, 0);
    }
  }

  /** The second dot, on `ddd.` followed by digits. */
  lemma SecondDot(d: string, sep: char)
    requires AllDigits(d) && |d| >= 4 && !IsDigit(sep)
    ensures var s := d[..3] + ['.'] + d[3..];
      && (|d| < 7 ==> SeparateAfterThree(s, sep) == s)
      && (|d| >= 7 ==> SeparateAfterThree(s, sep) == d[..3] + ['.'] + (d[3..6] + [sep] + d[6..]))
  {
    var s := d[..3] + ['.'] + d[3..];
    assert s[3] == '.';
    forall j | 0 <= j < 4
      ensures !RunAt(s, j, 4)
    {
      assert !IsDigit(s[3]);
    }
    if |d| >= 7 {
      assert forall k :: 4 <= k < 8 ==> s[k] == d[k - 1];
      FirstRunIs(s, 4, 4);
      assert Insert(s, 7, sep) == d[..3] + ['.'] + (d[3..6] + [sep] + d[6..]);
    } else {
      forall j | 4 <= j
        ensures !RunAt(s, j, 4)
      {
      }
    }
  }

  /** `ddd.ddd.` followed by the remaining digits: the string after both dots. */
  function TwoDots(d: string): (r: string)
    requires |d| >= 6
    ensures |r| == |d| + 2 && r[3] == '.' && r[7] == '.'
    ensures forall k :: 0 <= k < 3 ==> r[k] == d[k]
    ensures forall k :: 4 <= k < 7 ==> r[k] == d[k - 1]
    ensures forall k :: 8 <= k < |r| ==> r[k] == d[k - 2]
  {
    d[..3] + ['.'] + (d[3..6] + ['.'] + d[6..])
  }

  /** A hyphen inside the digits after `ddd.ddd.`. */
  lemma HyphenInTail(d: string, c: nat)
    requires 6 <= c <= |d|
    ensures Insert(TwoDots(d), c + 2, '-') == d[..3] + ['.'] + (d[3..6] + ['.'] + (d[6..c] + ['-'] + d[c..]))
  {
    var t := TwoDots(d);
    var r := d[..3] + ['.'] + (d[3..6] + ['.'] + (d[6..c] + ['-'] + d[c..]));
    assert |Insert(t, c + 2, '-')| == |r|;
    forall k | 0 <= k < |r|
      ensures Insert(t, c + 2, '-')[k] == r[k]
    {
      if k < 3 {
      } else if k == 3 || k == 7 {
      } else if k < 7 {
        assert r[k] == d[k - 1];
      } else if k < c + 2 {
        assert r[k] == d[k - 2];
      } else if k == c + 2 {
      } else {
        assert r[k] == d[k - 3];
      }
    }
  }

  /** The end-anchored hyphen on `ddd.ddd.` and the rest of the digits. */
  lemma {:induction false} HyphenAfterTwoDots(d: string)
    requires AllDigits(d) && |d| >= 7
    ensures HyphenBeforeEnd(TwoDots(d)) == CpfLayout(d)
  {
    var n := |d|;
    var s2 := TwoDots(d);
    if n <= 9 {
      assert !IsDigit(s2[7]);
      assert !RunAt(s2, |s2| - 4, 4);
      assert !RunAt(s2, |s2| - 5, 5);
    } else if n == 10 {
      assert !IsDigit(s2[7]);
      assert !RunAt(s2, |s2| - 5, 5);
      assert RunAt(s2, |s2| - 4, 4);
      HyphenInTail(d, 9);
    } else {
      assert RunAt(s2, |s2| - 5, 5);
      HyphenInTail(d, n - 2);
    }
  }

  /** A digit string of each length through the clinic's mask. */
  lemma {:induction false} CpfSteps(d: string)
    requires AllDigits(d)
    ensures HyphenBeforeEnd(SeparateAfterThree(SeparateAfterThree(d, '.'), '.')) == CpfLayout(d)
  {
    var n := |d|;
    FirstDot(d);
    if n >= 4 {
      SecondDot(d, '.');
      var s1 := d[..3] + ['.'] + d[3..];
      if n < 7 {
        assert !IsDigit(s1[3]);
        assert !RunAt(s1, |s1| - 4, 4);
      } else {
        HyphenAfterTwoDots(d);
      }
    }
  }

  /** On `ddd.ddd.` and at least four more digits, the third step puts a hyphen after the ninth digit. */
  lemma {:induction false} ThirdStep(d: string)
    requires AllDigits(d) && |d| >= 10
    ensures SeparateAfterThree(TwoDots(d), '-') == d[..3] + ['.'] + (d[3..6] + ['.'] + (d[6..9] + ['-'] + d[9..]))
  {
    var s2 := TwoDots(d);
    forall j | 0 <= j < 8
      ensures !RunAt(s2, j, 4)
    {
      if j < 4 { assert !IsDigit(s2[3]); } else { assert !IsDigit(s2[7]); }
    }
    FirstRunIs(s2, 4, 8);
    HyphenInTail(d, 9);
  }

  /** The cut, on `ddd.ddd.ddd-` and the rest of the digits. */
  lemma {:induction false} CutStep(d: string)
    requires AllDigits(d) && |d| >= 10
    ensures var s3 := d[..3] + ['.'] + (d[3..6] + ['.'] + (d[6..9] + ['-'] + d[9..]));
      CutAfterCheckDigits(s3) == CpfLayout(if |d| <= 11 then d else d[..11])
  {
    var s3 := d[..3] + ['.'] + (d[3..6] + ['.'] + (d[6..9] + ['-'] + d[9..]));
    CpfTextHyphen(d);
    forall j: nat | j != 11
      ensures !OverlongAt(s3, j)
    {
      if j < |s3| {
        assert s3[j] != '-';
      }
    }
    if |d| > 11 {
      CpfTextDigitsAfter(d);
      assert OverlongAt(s3, 11);
      assert FirstOverlong(s3, 0) == Some(11);
      CpfTextPrefix(d);
      CpfLayoutEleven(d);
    }
  }

  /** The layout of the first eleven digits. */
  lemma CpfLayoutEleven(d: string)
    requires |d| >= 11
    ensures CpfLayout(d[..11]) == d[..3] + ['.'] + (d[3..6] + ['.'] + (d[6..9] + ['-'] + d[9..11]))
  {
    var e := d[..11];
    assert e[..3] == d[..3] && e[3..6] == d[3..6] && e[6..9] == d[6..9] && e[9..] == d[9..11];
  }

  /** In `ddd.ddd.ddd-` followed by digits the only hyphen is the twelfth character. */
  lemma CpfTextHyphen(d: string)
    requires AllDigits(d) && |d| >= 10
    ensures var s3 := d[..3] + ['.'] + (d[3..6] + ['.'] + (d[6..9] + ['-'] + d[9..]));
      forall j :: 0 <= j < |s3| && j != 11 ==> s3[j] != '-'
  {
    var s3 := d[..3] + ['.'] + (d[3..6] + ['.'] + (d[6..9] + ['-'] + d[9..]));
    forall j | 0 <= j < |s3| && j != 11
      ensures s3[j] != '-'
    {
      if j < 3 { assert s3[j] == d[j]; }
      else if 3 < j < 7 { assert s3[j] == d[j - 1]; }
      else if 7 < j < 11 { assert s3[j] == d[j - 2]; }
      else if j > 11 { assert s3[j] == d[j - 3]; }
    }
  }

  /** Everything after the hyphen of `ddd.ddd.ddd-` is a digit. */
  lemma CpfTextDigitsAfter(d: string)
    requires AllDigits(d) && |d| >= 10
    ensures var s3 := d[..3] + ['.'] + (d[3..6] + ['.'] + (d[6..9] + ['-'] + d[9..]));
      RunAt(s3, 12, |s3| - 12)
  {
    var s3 := d[..3] + ['.'] + (d[3..6] + ['.'] + (d[6..9] + ['-'] + d[9..]));
    forall k | 12 <= k < |s3|
      ensures IsDigit(s3[k])
    {
      assert s3[k] == d[k - 3];
    }
  }

  /** Cutting `ddd.ddd.ddd-` plus more than two digits after fourteen characters keeps two. */
  lemma CpfTextPrefix(d: string)
    requires |d| >= 11
    ensures (d[..3] + ['.'] + (d[3..6] + ['.'] + (d[6..9] + ['-'] + d[9..])))[..14]
      == d[..3] + ['.'] + (d[3..6] + ['.'] + (d[6..9] + ['-'] + d[9..11]))
  {
    var tail := d[6..9] + ['-'] + d[9..];
    assert tail[..6] == d[6..9] + ['-'] + d[9..11];
    var mid := d[3..6] + ['.'] + tail;
    assert mid[..10] == d[3..6] + ['.'] + tail[..6];
  }

  /** A digit string of each length through the truncating mask. */
  lemma {:induction false} TruncatedSteps(d: string)
    requires AllDigits(d)
    ensures CutAfterCheckDigits(SeparateAfterThree(SeparateAfterThree(SeparateAfterThree(d, '.'), '.'), '-'))
         == CpfLayout(if |d| <= 11 then d else d[..11])
  {
    var n := |d|;
    FirstDot(d);
    if n < 4 {
      NoHyphenNoCut(d);
    } else {
      SecondDot(d, '.');
      var s1 := d[..3] + ['.'] + d[3..];
      if n < 7 {
        SecondDot(d, '-');
        NoHyphenNoCut(s1);
      } else if n <= 9 {
        var s2 := TwoDots(d);
        forall j | 0 <= j
          ensures !RunAt(s2, j, 4)
        {
          if j < 4 { assert !IsDigit(s2[3]); } else if j < 8 { assert !IsDigit(s2[7]); }
        }
        NoHyphenNoCut(s2);
      } else {
        ThirdStep(d);
        CutStep(d);
      }
    }
  }

  /** Without a hyphen there is nothing to cut. */
  lemma NoHyphenNoCut(s: string)
    requires '-' !in s
    ensures CutAfterCheckDigits(s) == s
  {
    forall j | 0 <= j
      ensures !OverlongAt(s, j)
    {
      if j < |s| { assert s[j] in s; }
    }
  }

  /** The digits of a laid-out CPF are the digits it was laid out from. */
  lemma CpfLayoutDigits(d: string)
    requires AllDigits(d)
    ensures Digits(CpfLayout(d)) == d
  {
    var n := |d|;
    DigitsOfDigits(d);
    if n > 3 {
      if n <= 6 {
        DigitsAfterDigits(d[..3], '.', d[3..]);
        DigitsOfDigits(d[3..]);
        assert d[..3] + d[3..] == d;
      } else {
        var c := if n <= 9 then 6 else if n == 10 then 9 else n - 2;
        var tail := if n <= 9 then d[6..] else d[6..c] + ['-'] + d[c..];
        TailDigits(d, c);
        DigitsAfterDigits(d[3..6], '.', tail);
        DigitsAfterDigits(d[..3], '.', d[3..6] + ['.'] + tail);
        assert d[..3] + (d[3..6] + d[6..]) == d;
      }
    }
  }

  /** A separator after a run of digits: the digit filter keeps the run and drops the separator. */
  lemma DigitsAfterDigits(a: string, c: char, b: string)
    requires AllDigits(a) && !IsDigit(c)
    ensures Digits(a + [c] + b) == a + Digits(b)
  {
    DigitsSkipSeparator(a, c, b);
    DigitsOfDigits(a);
  }

  /** The digits of the part after `ddd.ddd.`. */
  lemma TailDigits(d: string, c: nat)
    requires AllDigits(d) && 6 <= c <= |d|
    ensures Digits(if |d| <= 9 then d[6..] else d[6..c] + ['-'] + d[c..]) == d[6..]
  {
    DigitsOfDigits(d[6..]);
    if |d| > 9 {
      DigitsAfterDigits(d[6..c], '-', d[c..]);
      DigitsOfDigits(d[c..]);
      assert d[6..c] + d[c..] == d[6..];
    }
  }

  /** The length of the layout: one separator from four digits on, two from seven, three from ten. */
  lemma CpfLayoutLength(d: string)
    ensures |CpfLayout(d)| == |d| + (if |d| <= 3 then 0 else if |d| <= 6 then 1 else if |d| <= 9 then 2 else 3)
  {
  }

  /** Stripping the clinic's mask gives back exactly the digits typed. */
  lemma {:induction false} CpfMaskRoundTrip(s: string)
    ensures Digits(FormatarCpf(s)) == Digits(s)
  {
    CpfLayoutDigits(Digits(s));
  }

  /** The mask is stable: masking a masked value changes nothing, so applying it on every keystroke is safe. */
  lemma {:induction false} CpfMaskIdempotent(s: string)
    ensures FormatarCpf(FormatarCpf(s)) == FormatarCpf(s)
  {
    CpfMaskRoundTrip(s);
  }

  /** The layout of eleven digits is the pattern `000.000.000-00`, with the digits in order. */
  lemma ElevenDigitsShape(d: string)
    requires AllDigits(d) && |d| == 11
    ensures CpfLayout(d) == d[..3] + "." + d[3..6] + "." + d[6..9] + "-" + d[9..]
    ensures MaskedCpfShape(CpfLayout(d))
  {
    var r := CpfLayout(d);
    assert r == d[..3] + "." + d[3..6] + "." + d[6..9] + "-" + d[9..];
    forall k | 0 <= k < 14 && k != 3 && k != 7 && k != 11
      ensures IsDigit(r[k])
    {
      if k < 3 { assert r[k] == d[k]; }
      else if k < 7 { assert r[k] == d[k - 1]; }
      else if k < 11 { assert r[k] == d[k - 2]; }
      else { assert r[k] == d[k - 3]; }
    }
  }

  /** The clinic's forms accept the masked CPF exactly when eleven digits were typed. */
  lemma {:induction false} CpfPatternIffEleven(s: string)
    ensures MaskedCpfShape(FormatarCpf(s)) <==> |Digits(s)| == 11
  {
    CpfLayoutLength(Digits(s));
    if |Digits(s)| == 11 {
      ElevenDigitsShape(Digits(s));
    }
  }

  /** The truncating mask never outgrows the pattern: at most fourteen characters. */
  lemma {:induction false} TruncatedAtMostFourteen(s: string)
    ensures |FormatarCpfTruncado(s)| <= 14
  {
    var d := Digits(s);
    CpfLayoutLength(if |d| <= 11 then d else d[..11]);
  }

  /** The truncating mask keeps the first eleven digits typed, and all of them when there are no more. */
  lemma {:induction false} TruncatedRoundTrip(s: string)
    ensures var d := Digits(s); Digits(FormatarCpfTruncado(s)) == if |d| <= 11 then d else d[..11]
  {
    var d := Digits(s);
    CpfLayoutDigits(if |d| <= 11 then d else d[..11]);
  }

  /** The second backend's `matches` accepts the masked CPF exactly when at least eleven digits were typed. */
  lemma {:induction false} TruncatedPatternIffAtLeastEleven(s: string)
    ensures MaskedCpfShape(FormatarCpfTruncado(s)) <==> |Digits(s)| >= 11
  {
    var d := Digits(s);
    var e := if |d| <= 11 then d else d[..11];
    CpfLayoutLength(e);
    if |d| >= 11 {
      ElevenDigitsShape(e);
    }
  }

  /** The pattern's digits are an eleven-digit CPF, which the clinic's backend stores. */
  lemma MaskedCpfDigits(m: string)
    requires MaskedCpfShape(m)
    ensures Schema.CpfShape(Digits(m))
    ensures Digits(m) == m[..3] + m[4..7] + m[8..11] + m[12..]
  {
    assert m == m[..3] + ['.'] + (m[4..7] + ['.'] + (m[8..11] + ['-'] + m[12..]));
    assert AllDigits(m[..3]) && AllDigits(m[4..7]) && AllDigits(m[8..11]) && AllDigits(m[12..]) by {
      assert forall k :: 0 <= k < 3 ==> m[..3][k] == m[k];
      assert forall k :: 0 <= k < 3 ==> m[4..7][k] == m[k + 4];
      assert forall k :: 0 <= k < 3 ==> m[8..11][k] == m[k + 8];
      assert forall k :: 0 <= k < 2 ==> m[12..][k] == m[k + 12];
    }
    Validation.DigitsOfFormattedCpf(m[..3], m[4..7], m[8..11], m[12..]);
  }

  // ---------------------------------------------------------------------
  // The phone mask
  // ---------------------------------------------------------------------

  /**
   * `.replace(/(\d{2})(\d{b})(\d{0,4})/, '($1) $2-$3')`: at the first run
   * of `2 + b` digits, the area code goes in parentheses and a hyphen
   * follows the next `b` digits; as with the CPF, the optional last group
   * does not change the text.
   */
  function PhoneGroups(s: string, b: nat): (r: string)
    ensures FirstRun(s, 2 + b, 0).None? ==> r == s
  {
    match FirstRun(s, 2 + b, 0)
    case None => s
    case Some(i) => s[..i] + "(" + s[i..i + 2] + ") " + s[i + 2..i + 2 + b] + "-" + s[i + 2 + b..]
  }

  /** `formatarTelefone`: up to ten digits take the landline grouping, more the mobile one. */
  function FormatarTelefone(valor: string): (r: string)
    ensures r == PhoneLayout(Digits(valor))
  {
    var n := Digits(valor);
    PhoneSteps(n);
    if |n| <= 10 then PhoneGroups(n, 4) else PhoneGroups(n, 5)
  }

  /** A digit string of each length through the phone mask. */
  lemma PhoneSteps(n: string)
    requires AllDigits(n)
    ensures (if |n| <= 10 then PhoneGroups(n, 4) else PhoneGroups(n, 5)) == PhoneLayout(n)
  {
    if |n| <= 10 {
      if |n| >= 6 {
        FirstRunIs(n, 6, 0);
      } else {
        assert FirstRun(n, 6, 0).None?;
      }
    } else {
      FirstRunIs(n, 7, 0);
    }
  }

  /** The phone as laid out: `(DD) DDDD-…` below eleven digits (from six on), `(DD) DDDDD-…` from eleven. */
  function PhoneLayout(n: string): (r: string)
  {
    if |n| < 6 then n
    else if |n| <= 10 then "(" + n[..2] + ") " + n[2..6] + "-" + n[6..]
    else "(" + n[..2] + ") " + n[2..7] + "-" + n[7..]
  }

  /** Ten digits give `(DD) DDDD-DDDD`; eleven give `(DD) DDDDD-DDDD`. */
  lemma PhoneShapes(s: string)
    ensures var n := Digits(s); |n| == 10 ==> |FormatarTelefone(s)| == 14 && FormatarTelefone(s)[0] == '(' && FormatarTelefone(s)[9] == '-'
    ensures var n := Digits(s); |n| == 11 ==> |FormatarTelefone(s)| == 15 && FormatarTelefone(s)[0] == '(' && FormatarTelefone(s)[10] == '-'
  {
  }

  /** Stripping the phone mask gives back exactly the digits typed. */
  lemma {:induction false} PhoneMaskRoundTrip(s: string)
    ensures Digits(FormatarTelefone(s)) == Digits(s)
  {
    var n := Digits(s);
    DigitsOfDigits(n);
    if |n| >= 6 {
      var j := if |n| <= 10 then 6 else 7;
      DigitsOfDigits(n[..2]);
      DigitsOfDigits(n[2..j]);
      DigitsOfDigits(n[j..]);
      DigitsOfPhone(n[..2], n[2..j], n[j..]);
      assert n[..2] + n[2..j] + n[j..] == n;
    }
  }

  /** The digits of `(a) b-c` are those of `a`, `b` and `c` in order. */
  lemma DigitsOfPhone(a: string, b: string, c: string)
    requires Digits(a) == a && Digits(b) == b && Digits(c) == c
    ensures Digits("(" + a + ") " + b + "-" + c) == a + b + c
  {
    var t1 := b + ['-'] + c;
    DigitsSkipSeparator(b, '-', c);
    var t2 := [] + [' '] + t1;
    DigitsSkipSeparator([], ' ', t1);
    var t3 := a + [')'] + t2;
    DigitsSkipSeparator(a, ')', t2);
    var t4 := [] + ['('] + t3;
    DigitsSkipSeparator([], '(', t3);
    PhoneText(a, b, c);
    AppendAssoc(a, b, c);
  }

  lemma AppendAssoc(a: string, b: string, c: string)
    ensures a + (b + c) == a + b + c
  {
  }

  lemma PhoneText(a: string, b: string, c: string)
    ensures "(" + a + ") " + b + "-" + c == [] + ['('] + (a + [')'] + ([] + [' '] + (b + ['-'] + c)))
  {
    assert ") " == [')'] + [' '];
  }

  lemma {:induction false} PhoneMaskIdempotent(s: string)
    ensures FormatarTelefone(FormatarTelefone(s)) == FormatarTelefone(s)
  {
    PhoneMaskRoundTrip(s);
  }

  // ---------------------------------------------------------------------
  // The CRM filter
  // ---------------------------------------------------------------------

  /** `formatarCRM`: the digits typed, cut to the first six (`substring(0, 6)`). */
  function FormatarCrm(valor: string): (r: string)
    ensures AllDigits(r) && |r| <= 6 && |r| <= |Digits(valor)|
    ensures r == Digits(valor)[..|r|]
    ensures |r| == if |Digits(valor)| <= 6 then |Digits(valor)| else 6
  {
    var d := Digits(valor);
    if |d| <= 6 then d else d[..6]
  }

  /** Filtering a filtered CRM changes nothing. */
  lemma {:induction false} CrmIdempotent(s: string)
    ensures FormatarCrm(FormatarCrm(s)) == FormatarCrm(s)
  {
    DigitsOfDigits(FormatarCrm(s));
  }

  // ---------------------------------------------------------------------
  // What the clinic's forms submit
  // ---------------------------------------------------------------------

  /** The public sign-up form's fields, as the browser holds them (after the masks). */
  datatype PublicForm = PublicForm(
    nome: string,
    cpf: string,
    dataNascimento: string,
    email: string,
    telefone: string,
    plano: string,
    senha: string)

  /** `onSubmit`: the CPF goes without its mask; the phone too, or `undefined` when left empty. */
  function DadosLimpos(f: PublicForm): (b: PacienteController.CadastroPublico)
    ensures b.cpf == Given(Digits(f.cpf))
    ensures f.telefone == "" <==> b.telefone == Absent
    ensures f.telefone != "" ==> b.telefone == Given(Digits(f.telefone))
    ensures b.nome == Given(f.nome) && b.senha == Given(f.senha) && b.plano == Given(f.plano)
  {
    PacienteController.CadastroPublico(
      Given(f.nome), Given(Digits(f.cpf)), Given(f.dataNascimento), Given(f.email),
      if f.telefone != "" then Given(Digits(f.telefone)) else Absent,
      Given(f.senha), Given(f.plano))
  }

  /**
   * A form that passed its CPF pattern sends an eleven-digit CPF, the
   * digits that were typed; a phone masked from ten or eleven digits is
   * sent as a number the patient schema accepts.
   */
  lemma {:induction false} PublicFormSendsValidNumbers(f: PublicForm, typedCpf: string, typedPhone: string)
    requires f.cpf == FormatarCpf(typedCpf) && MaskedCpfShape(f.cpf)
    requires f.telefone == FormatarTelefone(typedPhone)
    ensures var b := DadosLimpos(f);
      && Schema.CpfShape(b.cpf.value) && b.cpf.value == Digits(typedCpf)
      && (10 <= |Digits(typedPhone)| <= 11 ==> PacienteModel.TelefoneOk(Some(b.telefone.value)))
  {
    MaskedCpfDigits(f.cpf);
    CpfMaskRoundTrip(typedCpf);
    PhoneMaskRoundTrip(typedPhone);
    if 10 <= |Digits(typedPhone)| <= 11 {
      assert f.telefone != "" by {
        assert |f.telefone| >= 14;
      }
    }
  }

  /** The doctor sign-up form's fields. */
  datatype MedicoForm = MedicoForm(
    nome: string,
    cpf: string,
    crm: string,
    uf: string,
    dataNascimento: string,
    plano: string,
    senha: string)

  /**
   * `onSubmit`: CPF and CRM without their masks, the CRM written
   * `CRM/<UF> <digits>`, the plan `'nenhum'` when none was chosen, and the
   * role always `'medico'`.
   */
  function DadosMedico(f: MedicoForm): (b: AuthController.Registro)
    ensures b.cpf == Given(Digits(f.cpf))
    ensures b.crm == Given("CRM/" + f.uf + " " + Digits(f.crm))
    ensures b.plano.Given? && Present(b.plano) && (f.plano != "" ==> b.plano.value == f.plano)
    ensures f.plano == "" ==> b.plano == Given("nenhum")
    ensures b.role == Given("medico")
  {
    AuthController.Registro(
      Given(f.nome), Given(Digits(f.cpf)), Given("CRM/" + f.uf + " " + Digits(f.crm)),
      Given(f.dataNascimento), Given(if f.plano != "" then f.plano else "nenhum"),
      Given(f.senha), Given("medico"))
  }

  /** The CRM the form sends carries the six digits the CRM field kept. */
  lemma {:induction false} CrmSent(f: MedicoForm, typed: string)
    requires f.crm == FormatarCrm(typed)
    ensures DadosMedico(f).crm.value == "CRM/" + f.uf + " " + FormatarCrm(typed)
  {
    DigitsOfDigits(FormatarCrm(typed));
  }

  /**
   * The form always sends a plan, so a registration from it never reaches
   * the backend's own plan default: the registration as written and as
   * corrected behave alike.
   */
  lemma {:induction false} FormAvoidsPlanDefault(db: Database.Db, f: MedicoForm, env: Database.Env)
    ensures AuthController.RegistroAsWritten(db, DadosMedico(f), env) == AuthController.RegistroCorrected(db, DadosMedico(f), env)
  {
    assert Present(DadosMedico(f).plano);
  }

  // ---------------------------------------------------------------------
  // The second front end's sign-up page
  // ---------------------------------------------------------------------

  const MsgPasswordsDiffer := "As senhas não coincidem"
  const MsgPasswordTooShort := "A senha deve ter pelo menos 6 caracteres"

  /** The page's fields; `cpf` holds the truncating mask's output. */
  datatype CadastroForm = CadastroForm(
    nome: string,
    cpf: string,
    email: string,
    senha: string,
    confirmarSenha: string,
    telefone: string,
    dataNascimento: string)

  /** What `handleSubmit` does: show an error and stop, or send the body. */
  datatype Submission = Refused(erro: string) | Sent(body: FalaDoutorAuth.Cadastro)

  /** `handleSubmit`: the two passwords must agree, then be at least six characters; the CPF is sent masked. */
  function HandleSubmit(f: CadastroForm): (s: Submission)
    ensures f.senha != f.confirmarSenha ==> s == Refused(MsgPasswordsDiffer)
    ensures s.Refused? <==> f.senha != f.confirmarSenha || |f.senha| < 6
    ensures s.Refused? ==> s.erro in {MsgPasswordsDiffer, MsgPasswordTooShort}
    ensures s.Sent? ==> s.body.senha == f.senha == f.confirmarSenha && |s.body.senha| >= 6
    ensures s.Sent? ==> s.body.cpf == f.cpf && s.body.email == f.email && s.body.telefone == Some(f.telefone)
  {
    if f.senha != f.confirmarSenha then Refused(MsgPasswordsDiffer)
    else if |f.senha| < 6 then Refused(MsgPasswordTooShort)
    else Sent(FalaDoutorAuth.Cadastro(f.nome, f.cpf, f.email, f.senha, Some(f.telefone), f.dataNascimento))
  }

  /**
   * A page that sends its body sends a CPF the backend's pattern accepts
   * exactly when the user typed at least eleven digits.
   */
  lemma {:induction false} SentCpfAccepted(f: CadastroForm, typed: string)
    requires f.cpf == FormatarCpfTruncado(typed)
    requires HandleSubmit(f).Sent?
    ensures MaskedCpfShape(HandleSubmit(f).body.cpf) <==> |Digits(typed)| >= 11
  {
    TruncatedPatternIffAtLeastEleven(typed);
  }
}

=== FILE: medico_controller.dfy ===
/**
 * The administrative doctor CRUD (`medicoController`): creation with the
 * password rule and the CPF / CRM uniqueness checks, partial update,
 * deletion with the self-deletion guard, and the paginated listing.
 */
module MedicoController {
  import opened Base
  import opened Js
  import opened Text
  import opened Schema
  import opened MedicoModel
  import opened HashUtils
  import opened AuditLog
  import opened Roles
  import opened Database
  import opened Pagination

  const MsgCreated := "Médico criado com sucesso"
  const MsgNotFound := "Médico não encontrado"
  const MsgUpdated := "Médico atualizado com sucesso"
  const MsgSelfDelete := "Você não pode deletar sua própria conta"
  const MsgDeleted := "Médico deletado com sucesso"

  // ---------------------------------------------------------------------
  // criarMedico
  // ---------------------------------------------------------------------

  /** The body of `POST /api/medicos`. */
  datatype NovoMedico = NovoMedico(
    nome: Field<string>,
    cpf: Field<string>,
    crm: Field<string>,
    dataNascimento: Field<string>,
    plano: Field<string>,
    senha: Field<string>,
    role: Field<string>)

  /** `findOne({ cpf })`: a missing CPF is sent as `null` and finds nobody. */
  predicate CpfTaken(ds: seq<Doctor>, cpf: Field<string>)
  {
    cpf.Given? && DoctorCpfTaken(ds, cpf.value, None)
  }

  predicate CrmTaken(ds: seq<Doctor>, crm: Field<string>)
  {
    crm.Given? && DoctorCrmTaken(ds, crm.value, None)
  }

  /** The fields given to `Medico.create`: defaults `nenhum`, `medico` and `ativo: true`. */
  function NewDoctor(body: NovoMedico, senhaHash: string, id: string): (d: Doctor)
    ensures d.id == id && d.ativo == Some(true) && d.senha == senhaHash
    ensures d.plano == OrElse(body.plano, "nenhum") && d.role == OrElse(body.role, "medico")
    ensures d.nome == Raw(body.nome) && d.cpf == Raw(body.cpf) && d.crm == Raw(body.crm)
    ensures d.dataNascimento == Raw(body.dataNascimento)
  {
    Doctor(id, Raw(body.nome), Raw(body.cpf), Raw(body.crm), Raw(body.dataNascimento),
           OrElse(body.plano, "nenhum"), senhaHash, OrElse(body.role, "medico"), Some(true))
  }

  /** The record `criarMedico` asks to create, once the setters have run: the body with the password's hash. */
  function CreatedRecord(body: NovoMedico, env: Env): Doctor
  {
    Setters(NewDoctor(body, env.bcrypt.hash(Raw(body.senha)), env.freshId))
  }

  /** The fields `criarMedico` writes to the audit entry. */
  function CreatedDocument(d: Doctor): (doc: Document)
    ensures doc.Keys == {"nome", "cpf", "crm", "plano", "role"}
  {
    map["nome" := Str(d.nome), "cpf" := Str(d.cpf), "crm" := Str(d.crm), "plano" := Str(d.plano), "role" := Str(d.role)]
  }

  /**
   * `criarMedico(req)`: password rule, then CPF, then CRM, each a 400;
   * then the record is created (validation errors 400 with `erros`, a
   * duplicate key 400 naming the index), audited, and answered with 201.
   */
  function CriarMedico(db: Db, body: NovoMedico, usuario: Identity, env: Env): (o: Outcome<Doctor>)
    ensures o.db.patients == db.patients && o.db.appointments == db.appointments
    ensures o.reply.Failure? ==> o.db == db
    ensures !ValidarSenha(AsValue(body.senha)).valida ==>
      o.reply == Failure(400, ValidarSenha(AsValue(body.senha)).mensagem, [])
    ensures ValidarSenha(AsValue(body.senha)).valida && CpfTaken(db.doctors, body.cpf) ==>
      o.reply == Failure(400, MsgCpfTaken, [])
    ensures ValidarSenha(AsValue(body.senha)).valida && !CpfTaken(db.doctors, body.cpf) && CrmTaken(db.doctors, body.crm) ==>
      o.reply == Failure(400, MsgCrmTaken, [])
    ensures o.reply.Success? <==>
      && ValidarSenha(AsValue(body.senha)).valida && !CpfTaken(db.doctors, body.cpf) && !CrmTaken(db.doctors, body.crm)
      && ValidDoctor(CreatedRecord(body, env)) && DoctorKeysFree(db.doctors, CreatedRecord(body, env), None)
    ensures o.reply.Success? ==> var d := o.reply.data;
      && o.reply.status == 201
      && o.db.doctors == db.doctors + [d]
      && ValidDoctor(d) && d.id == env.freshId && d.ativo == Some(true)
      && d.nome == Trim(Raw(body.nome)) && d.cpf == Raw(body.cpf) && d.crm == Trim(Raw(body.crm))
      && d.plano == OrElse(body.plano, "nenhum") && d.role == OrElse(body.role, "medico")
      && body.senha.Given? && d.senha == env.bcrypt.hash(body.senha.value)
      && DoctorKeysFree(db.doctors, d, None)
    ensures o.reply.Failure? ==> o.reply.status == 400
    ensures o.reply.Failure? && o.reply.erros != [] ==> o.reply.message == MsgValidation
    ensures |db.audit| <= |o.db.audit| <= |db.audit| + 1 && o.db.audit[..|db.audit|] == db.audit
  {
    var check := ValidarSenha(AsValue(body.senha));
    if !check.valida then Outcome(db, Failure(400, check.mensagem, []))
    else if CpfTaken(db.doctors, body.cpf) then Outcome(db, Failure(400, MsgCpfTaken, []))
    else if CrmTaken(db.doctors, body.crm) then Outcome(db, Failure(400, MsgCrmTaken, []))
    else
      // `hashSenha` accepts every password `validarSenha` accepts
      ValidPasswordHashes(body.senha.value, env.bcrypt);
      var senhaHash := HashSenha(AsValue(body.senha), env.bcrypt).value;
      CreateDoctor(db, NewDoctor(body, senhaHash, env.freshId), usuario, env)
  }

  /**
   * `Medico.create(...)`: model validation, then the unique indexes, each a
   * 400; otherwise the record is appended, audited and answered with 201.
   */
  function CreateDoctor(db: Db, raw: Doctor, usuario: Identity, env: Env): (o: Outcome<Doctor>)
    ensures o.db.patients == db.patients && o.db.appointments == db.appointments
    ensures o.reply.Failure? ==> o.db == db && o.reply.status == 400
    ensures o.reply.Failure? && o.reply.erros != [] ==> o.reply.message == MsgValidation
    ensures o.reply.Success? <==> ValidDoctor(Setters(raw)) && DoctorKeysFree(db.doctors, Setters(raw), None)
    ensures o.reply.Success? ==> var d := o.reply.data;
      && o.reply.status == 201
      && o.db.doctors == db.doctors + [d]
      && ValidDoctor(d) && d == Setters(raw)
      && DoctorKeysFree(db.doctors, d, None)
    ensures |db.audit| <= |o.db.audit| <= |db.audit| + 1 && o.db.audit[..|db.audit|] == db.audit
  {
    match BuildDoctor(raw)
    case Err(errs) => Outcome(db, Failure(400, MsgValidation, errs))
    case Ok(d) =>
      match DoctorDuplicateKey(db.doctors, d, None)
      case Some(campo) => Outcome(db, Failure(400, DuplicateKeyMessage(campo), []))
      case None =>
        var req := AuditRequest(Some(usuario.id), Some(usuario.nome), Create, MedicoEntity, Some(d.id),
                                None, Some(CreatedDocument(d)), Some(Sucesso), None);
        Outcome(Audit(db.(doctors := db.doctors + [d]), req, env), Success(201, MsgCreated, d))
  }

  /** Creation keeps the stored doctors valid and the `_id`, `cpf` and `crm` indexes unique. */
  lemma CriarPreservesConsistency(db: Db, body: NovoMedico, usuario: Identity, env: Env)
    requires DoctorsConsistent(db.doctors)
    ensures DoctorsConsistent(CriarMedico(db, body, usuario, env).db.doctors)
  {
    var o := CriarMedico(db, body, usuario, env);
    if o.reply.Success? {
      AppendDoctorConsistent(db.doctors, o.reply.data);
    }
  }

  // ---------------------------------------------------------------------
  // atualizarMedico
  // ---------------------------------------------------------------------

  /** The body of `PUT /api/medicos/:id`. */
  datatype AtualizacaoMedico = AtualizacaoMedico(
    nome: Field<string>,
    cpf: Field<string>,
    crm: Field<string>,
    dataNascimento: Field<string>,
    plano: Field<string>,
    senha: Field<string>,
    role: Field<string>,
    ativo: Field<bool>)

  /** A truthy CPF different from the stored one: only then is it checked and assigned. */
  predicate CpfChanges(d: Doctor, u: AtualizacaoMedico)
  {
    Present(u.cpf) && u.cpf.value != d.cpf
  }

  predicate CrmChanges(d: Doctor, u: AtualizacaoMedico)
  {
    Present(u.crm) && u.crm.value != d.crm
  }

  /** The paths of `dadosAtualizacao`. */
  datatype DoctorPath = NomePath | CpfPath | CrmPath | DataNascimentoPath | PlanoPath | RolePath | AtivoPath | SenhaPath

  function DoctorPathName(p: DoctorPath): string
  {
    match p
    case NomePath => "nome"
    case CpfPath => "cpf"
    case CrmPath => "crm"
    case DataNascimentoPath => "data_nascimento"
    case PlanoPath => "plano"
    case RolePath => "role"
    case AtivoPath => "ativo"
    case SenhaPath => "senha"
  }

  const AllPaths: set<DoctorPath> :=
    {NomePath, CpfPath, CrmPath, DataNascimentoPath, PlanoPath, RolePath, AtivoPath, SenhaPath}

  /** Whether `atualizarMedico` puts the path into `dadosAtualizacao`. */
  predicate Supplied(d: Doctor, u: AtualizacaoMedico, p: DoctorPath)
  {
    match p
    case NomePath => Present(u.nome)
    case CpfPath => CpfChanges(d, u)
    case CrmPath => CrmChanges(d, u)
    case DataNascimentoPath => Present(u.dataNascimento)
    case PlanoPath => Present(u.plano)
    case RolePath => Present(u.role)
    case AtivoPath => !u.ativo.Absent?
    case SenhaPath => Present(u.senha)
  }

  /** The value it puts there; the password is stored as its hash. */
  function SuppliedValue(u: AtualizacaoMedico, hash: string -> string, p: DoctorPath): Value
  {
    match p
    case NomePath => AsValue(u.nome)
    case CpfPath => AsValue(u.cpf)
    case CrmPath => AsValue(u.crm)
    case DataNascimentoPath => AsValue(u.dataNascimento)
    case PlanoPath => AsValue(u.plano)
    case RolePath => AsValue(u.role)
    case AtivoPath => if u.ativo.Given? then AtivoValue(Some(u.ativo.value)) else AtivoValue(None)
    case SenhaPath => if u.senha.Given? then Str(hash(u.senha.value)) else Null
  }

  /**
   * `dadosAtualizacao`: the truthy text fields, a changed CPF or CRM, the
   * new password's hash, and `ativo` whenever it is defined.
   */
  function Changes(d: Doctor, u: AtualizacaoMedico, hash: string -> string): (c: map<DoctorPath, Value>)
    ensures NomePath in c <==> Present(u.nome)
    ensures CpfPath in c <==> CpfChanges(d, u)
    ensures CrmPath in c <==> CrmChanges(d, u)
    ensures DataNascimentoPath in c <==> Present(u.dataNascimento)
    ensures PlanoPath in c <==> Present(u.plano)
    ensures RolePath in c <==> Present(u.role)
    ensures AtivoPath in c <==> !u.ativo.Absent?
    ensures SenhaPath in c <==> Present(u.senha)
    ensures NomePath in c ==> c[NomePath] == Str(u.nome.value)
    ensures CpfPath in c ==> c[CpfPath] == Str(u.cpf.value)
    ensures CrmPath in c ==> c[CrmPath] == Str(u.crm.value)
    ensures DataNascimentoPath in c ==> c[DataNascimentoPath] == Str(u.dataNascimento.value)
    ensures PlanoPath in c ==> c[PlanoPath] == Str(u.plano.value)
    ensures RolePath in c ==> c[RolePath] == Str(u.role.value)
    ensures AtivoPath in c ==> c[AtivoPath] == (if u.ativo.Given? then Bool(u.ativo.value) else Null)
    ensures SenhaPath in c ==> c[SenhaPath] == Str(hash(u.senha.value))
  {
    map p | p in AllPaths && Supplied(d, u, p) :: SuppliedValue(u, hash, p)
  }

  /** Copies one path of the update object into the audit document. */
  function CopyPath(doc: Document, c: map<DoctorPath, Value>, p: DoctorPath): Document
  {
    if p in c then doc[DoctorPathName(p) := c[p]] else doc
  }

  /** The update object as the audit entry's `dados_novos`. */
  function ChangesDocument(c: map<DoctorPath, Value>): Document
  {
    var d1 := CopyPath(CopyPath(CopyPath(CopyPath(map[], c, NomePath), c, CpfPath), c, CrmPath), c, DataNascimentoPath);
    CopyPath(CopyPath(CopyPath(CopyPath(d1, c, PlanoPath), c, RolePath), c, AtivoPath), c, SenhaPath)
  }

  /** A string path as `Object.assign` leaves it. */
  function AssignText(c: map<DoctorPath, Value>, p: DoctorPath, current: string): string
  {
    if p in c && c[p].Str? then c[p].s else current
  }

  /**
   * `Object.assign(medico, dadosAtualizacao)`: each key present overwrites
   * its path; `ativo: null` is stored as `null`.
   */
  function ObjectAssign(d: Doctor, c: map<DoctorPath, Value>): (r: Doctor)
    ensures r.id == d.id
  {
    d.(nome := AssignText(c, NomePath, d.nome),
       cpf := AssignText(c, CpfPath, d.cpf),
       crm := AssignText(c, CrmPath, d.crm),
       dataNascimento := AssignText(c, DataNascimentoPath, d.dataNascimento),
       plano := AssignText(c, PlanoPath, d.plano),
       role := AssignText(c, RolePath, d.role),
       senha := AssignText(c, SenhaPath, d.senha),
       ativo := if AtivoPath in c && (c[AtivoPath].Bool? || c[AtivoPath].Null?) then AtivoFromValue(c[AtivoPath])
                else d.ativo)
  }

  /**
   * The record before the setters and validators run: only supplied
   * fields change; text fields only when truthy, `ativo` whenever defined
   * (also to `false`), and the password to the hash of the new one.
   */
  function UpdatedDoctor(d: Doctor, u: AtualizacaoMedico, hash: string -> string): (r: Doctor)
    ensures r.id == d.id
    ensures r.nome == (if Present(u.nome) then u.nome.value else d.nome)
    ensures r.cpf == (if Present(u.cpf) then u.cpf.value else d.cpf)
    ensures r.crm == (if Present(u.crm) then u.crm.value else d.crm)
    ensures r.dataNascimento == (if Present(u.dataNascimento) then u.dataNascimento.value else d.dataNascimento)
    ensures r.plano == (if Present(u.plano) then u.plano.value else d.plano)
    ensures r.role == (if Present(u.role) then u.role.value else d.role)
    ensures r.senha == (if Present(u.senha) then hash(u.senha.value) else d.senha)
    ensures u.ativo.Absent? ==> r.ativo == d.ativo
    ensures u.ativo.Given? ==> r.ativo == Some(u.ativo.value)
    ensures u.ativo.Cleared? ==> r.ativo.None? && !IsActive(r)
  {
    ObjectAssign(d, Changes(d, u, hash))
  }

  /** The previous values `atualizarMedico` records. */
  function PreviousDocument(d: Doctor): (doc: Document)
    ensures "senha" !in doc && "nome" in doc && doc["nome"] == Str(d.nome)
  {
    map["nome" := Str(d.nome), "cpf" := Str(d.cpf), "crm" := Str(d.crm), "data_nascimento" := Str(d.dataNascimento),
        "plano" := Str(d.plano), "role" := Str(d.role), "ativo" := AtivoValue(d.ativo)]
  }

  /** The new CPF of `u` is held by a doctor other than `id`: the 400 `CPF já cadastrado`. */
  predicate CpfConflict(ds: seq<Doctor>, d: Doctor, u: AtualizacaoMedico, id: string)
  {
    CpfChanges(d, u) && DoctorCpfTaken(ds, u.cpf.value, Some(id))
  }

  /** The new CRM of `u` is held by a doctor other than `id`: the 400 `CRM já cadastrado`. */
  predicate CrmConflict(ds: seq<Doctor>, d: Doctor, u: AtualizacaoMedico, id: string)
  {
    CrmChanges(d, u) && DoctorCrmTaken(ds, u.crm.value, Some(id))
  }

  /**
   * `atualizarMedico(req)`: 404 for an unknown id; a new CPF or CRM held
   * by another doctor, then an invalid new password, each a 400; then the
   * changes are assigned and saved (validation and duplicate keys 400).
   */
  function AtualizarMedico(db: Db, id: string, u: AtualizacaoMedico, usuario: Identity, env: Env): (o: Outcome<Doctor>)
    ensures o.db.patients == db.patients && o.db.appointments == db.appointments
    ensures o.reply.Failure? ==> o.db == db && o.reply.status in {400, 404}
    ensures DoctorIndex(db.doctors, id).None? <==> o == Outcome(db, Failure(404, MsgNotFound, []))
    ensures o.reply == Failure(400, MsgCpfTaken, []) <==>
      DoctorIndex(db.doctors, id).Some? && CpfConflict(db.doctors, db.doctors[DoctorIndex(db.doctors, id).value], u, id)
    ensures o.reply == Failure(400, MsgCrmTaken, []) <==>
      && DoctorIndex(db.doctors, id).Some?
      && !CpfConflict(db.doctors, db.doctors[DoctorIndex(db.doctors, id).value], u, id)
      && CrmConflict(db.doctors, db.doctors[DoctorIndex(db.doctors, id).value], u, id)
    ensures o.reply.Success? <==>
      && DoctorIndex(db.doctors, id).Some?
      && var i := DoctorIndex(db.doctors, id).value;
      && !CpfConflict(db.doctors, db.doctors[i], u, id) && !CrmConflict(db.doctors, db.doctors[i], u, id)
      && UpdateAccepted(db.doctors, i, u, env.bcrypt.hash)
    ensures o.reply.Success? ==> var i := DoctorIndex(db.doctors, id).value;
      && o.reply.status == 200
      && o.reply.data == Setters(UpdatedDoctor(db.doctors[i], u, env.bcrypt.hash))
      && ValidDoctor(o.reply.data)
      && o.db.doctors == db.doctors[i := o.reply.data]
      && DoctorKeysFree(db.doctors, o.reply.data, Some(i))
    ensures |db.audit| <= |o.db.audit| <= |db.audit| + 1 && o.db.audit[..|db.audit|] == db.audit
  {
    match DoctorIndex(db.doctors, id)
    case None => Outcome(db, Failure(404, MsgNotFound, []))
    case Some(i) => UpdateFound(db, i, id, u, usuario, env)
  }

  /** `atualizarMedico` once the doctor is found at `i`: the CPF, then the CRM conflict, then the save. */
  function UpdateFound(db: Db, i: nat, id: string, u: AtualizacaoMedico, usuario: Identity, env: Env): (o: Outcome<Doctor>)
    requires i < |db.doctors|
    ensures o.db.patients == db.patients && o.db.appointments == db.appointments
    ensures o.reply.Failure? ==> o.db == db && o.reply.status == 400
    ensures o.reply == Failure(400, MsgCpfTaken, []) <==> CpfConflict(db.doctors, db.doctors[i], u, id)
    ensures o.reply == Failure(400, MsgCrmTaken, []) <==>
      !CpfConflict(db.doctors, db.doctors[i], u, id) && CrmConflict(db.doctors, db.doctors[i], u, id)
    ensures o.reply.Success? <==>
      && !CpfConflict(db.doctors, db.doctors[i], u, id) && !CrmConflict(db.doctors, db.doctors[i], u, id)
      && UpdateAccepted(db.doctors, i, u, env.bcrypt.hash)
    ensures o.reply.Success? ==>
      && o.reply.status == 200
      && o.reply.data == Setters(UpdatedDoctor(db.doctors[i], u, env.bcrypt.hash))
      && ValidDoctor(o.reply.data)
      && o.db.doctors == db.doctors[i := o.reply.data]
      && DoctorKeysFree(db.doctors, o.reply.data, Some(i))
    ensures |db.audit| <= |o.db.audit| <= |db.audit| + 1 && o.db.audit[..|db.audit|] == db.audit
  {
    if CpfConflict(db.doctors, db.doctors[i], u, id) then Outcome(db, Failure(400, MsgCpfTaken, []))
    else if CrmConflict(db.doctors, db.doctors[i], u, id) then
      assert MsgCpfTaken[1] != MsgCrmTaken[1];
      Outcome(db, Failure(400, MsgCrmTaken, []))
    else SaveUpdatedDoctor(db, i, u, usuario, env)
  }

  /**
   * When saving an update succeeds: an acceptable new password (if one is
   * given), a valid record once the setters have run, and no `_id`, `cpf`
   * or `crm` held by another doctor.
   */
  predicate UpdateAccepted(ds: seq<Doctor>, i: nat, u: AtualizacaoMedico, hash: string -> string)
    requires i < |ds|
  {
    var r := Setters(UpdatedDoctor(ds[i], u, hash));
    && (Present(u.senha) ==> ValidarSenha(AsValue(u.senha)).valida)
    && ValidDoctor(r) && DoctorKeysFree(ds, r, Some(i))
  }

  /**
   * The tail of `atualizarMedico` once the identifiers are free: an invalid
   * new password, then model validation and duplicate keys, each a 400;
   * otherwise the doctor at `i` is replaced and the change audited.
   */
  function SaveUpdatedDoctor(db: Db, i: nat, u: AtualizacaoMedico, usuario: Identity, env: Env): (o: Outcome<Doctor>)
    requires i < |db.doctors|
    ensures o.db.patients == db.patients && o.db.appointments == db.appointments
    ensures o.reply.Failure? ==> o.db == db && o.reply.status == 400
    ensures o.reply.Failure? ==> o.reply.message != MsgCpfTaken && o.reply.message != MsgCrmTaken
    ensures o.reply.Success? <==> UpdateAccepted(db.doctors, i, u, env.bcrypt.hash)
    ensures o.reply.Success? ==>
      && o.reply.status == 200
      && o.reply.data == Setters(UpdatedDoctor(db.doctors[i], u, env.bcrypt.hash))
      && ValidDoctor(o.reply.data)
      && o.db.doctors == db.doctors[i := o.reply.data]
      && DoctorKeysFree(db.doctors, o.reply.data, Some(i))
    ensures o.reply.Success? && Present(u.senha) ==> ValidarSenha(AsValue(u.senha)).valida
    ensures |db.audit| <= |o.db.audit| <= |db.audit| + 1 && o.db.audit[..|db.audit|] == db.audit
  {
    var antes := db.doctors[i];
    if Present(u.senha) && !ValidarSenha(AsValue(u.senha)).valida then
      assert MsgRequired[0] != MsgCpfTaken[0] && MsgTooShort[0] != MsgCpfTaken[0] && MsgTooLong[0] != MsgCpfTaken[0];
      assert MsgRequired[0] != MsgCrmTaken[0] && MsgTooShort[0] != MsgCrmTaken[0] && MsgTooLong[0] != MsgCrmTaken[0];
      Outcome(db, Failure(400, ValidarSenha(AsValue(u.senha)).mensagem, []))
    else
      var req := AuditRequest(Some(usuario.id), Some(usuario.nome), Update, MedicoEntity, Some(antes.id),
                              Some(PreviousDocument(antes)), Some(ChangesDocument(Changes(antes, u, env.bcrypt.hash))),
                              Some(Sucesso), None);
      SaveDoctorAt(db, i, UpdatedDoctor(antes, u, env.bcrypt.hash), req, env)
  }

  /**
   * `medico.save()` over the record at `i`: model validation, then the
   * unique indexes against the other records, each a 400; otherwise the
   * record is replaced and the change audited.
   */
  function SaveDoctorAt(db: Db, i: nat, raw: Doctor, req: AuditRequest, env: Env): (o: Outcome<Doctor>)
    requires i < |db.doctors|
    ensures o.db.patients == db.patients && o.db.appointments == db.appointments
    ensures o.reply.Failure? ==> o.db == db && o.reply.status == 400
    ensures o.reply.Failure? ==> o.reply.message != MsgCpfTaken && o.reply.message != MsgCrmTaken
    ensures o.reply.Success? <==> ValidDoctor(Setters(raw)) && DoctorKeysFree(db.doctors, Setters(raw), Some(i))
    ensures o.reply.Success? ==>
      && o.reply.status == 200
      && o.reply.data == Setters(raw)
      && ValidDoctor(o.reply.data)
      && o.db.doctors == db.doctors[i := o.reply.data]
      && DoctorKeysFree(db.doctors, o.reply.data, Some(i))
    ensures |db.audit| <= |o.db.audit| <= |db.audit| + 1 && o.db.audit[..|db.audit|] == db.audit
  {
    match BuildDoctor(raw)
    case Err(errs) =>
      assert MsgValidation[0] != MsgCpfTaken[0] && MsgValidation[0] != MsgCrmTaken[0];
      Outcome(db, Failure(400, MsgValidation, errs))
    case Ok(d) => StoreUniqueDoctorAt(db, i, d, req, env)
  }

  /** The unique indexes on `_id`, `cpf` and `crm` against the other records, then the write. */
  function StoreUniqueDoctorAt(db: Db, i: nat, d: Doctor, req: AuditRequest, env: Env): (o: Outcome<Doctor>)
    requires i < |db.doctors|
    ensures o.db.patients == db.patients && o.db.appointments == db.appointments
    ensures o.reply.Failure? ==> o.db == db && o.reply == Failure(400, o.reply.message, [])
    ensures o.reply.Success? <==> DoctorKeysFree(db.doctors, d, Some(i))
    ensures o.reply.Success? ==> o.reply == Success(200, MsgUpdated, d) && o.db.doctors == db.doctors[i := d]
    ensures |db.audit| <= |o.db.audit| <= |db.audit| + 1 && o.db.audit[..|db.audit|] == db.audit
  {
    match DoctorDuplicateKey(db.doctors, d, Some(i))
    case Some(campo) => Outcome(db, Failure(400, DuplicateKeyMessage(campo), []))
    case None => StoreDoctorAt(db, i, d, req, env)
  }

  /** Saving `d` over the doctor at `i` and auditing the change. */
  function StoreDoctorAt(db: Db, i: nat, d: Doctor, req: AuditRequest, env: Env): (o: Outcome<Doctor>)
    requires i < |db.doctors|
    ensures o.reply == Success(200, MsgUpdated, d)
    ensures o.db.doctors == db.doctors[i := d]
    ensures o.db.patients == db.patients && o.db.appointments == db.appointments
    ensures |db.audit| <= |o.db.audit| <= |db.audit| + 1 && o.db.audit[..|db.audit|] == db.audit
  {
    Outcome(Audit(db.(doctors := db.doctors[i := d]), req, env), Success(200, MsgUpdated, d))
  }

  /** Updating keeps the stored doctors valid and the unique indexes intact. */
  lemma AtualizarPreservesConsistency(db: Db, id: string, u: AtualizacaoMedico, usuario: Identity, env: Env)
    requires DoctorsConsistent(db.doctors)
    ensures DoctorsConsistent(AtualizarMedico(db, id, u, usuario, env).db.doctors)
  {
    var o := AtualizarMedico(db, id, u, usuario, env);
    if o.reply.Success? {
      ReplaceDoctorConsistent(db.doctors, DoctorIndex(db.doctors, id).value, o.reply.data);
    }
  }

  /**
   * Re-submitting a doctor's own CPF and CRM is never a conflict: the
   * update succeeds and leaves the record as it was.
   */
  lemma ResubmitOwnIdentifiers(db: Db, id: string, usuario: Identity, env: Env)
    requires DoctorsConsistent(db.doctors)
    requires DoctorIndex(db.doctors, id).Some?
    ensures var d := db.doctors[DoctorIndex(db.doctors, id).value];
      var u := AtualizacaoMedico(Absent, Given(d.cpf), Given(d.crm), Absent, Absent, Absent, Absent, Absent);
      var o := AtualizarMedico(db, id, u, usuario, env);
      o.reply.Success? && o.db.doctors == db.doctors
  {
    var i := DoctorIndex(db.doctors, id).value;
    var d := db.doctors[i];
    var u := AtualizacaoMedico(Absent, Given(d.cpf), Given(d.crm), Absent, Absent, Absent, Absent, Absent);
    assert !CpfChanges(d, u) && !CrmChanges(d, u);
    ResubmitSaves(db, i, u, usuario, env);
  }

  lemma ResubmitSaves(db: Db, i: nat, u: AtualizacaoMedico, usuario: Identity, env: Env)
    requires DoctorsConsistent(db.doctors) && i < |db.doctors|
    requires u == AtualizacaoMedico(Absent, Given(db.doctors[i].cpf), Given(db.doctors[i].crm), Absent, Absent, Absent, Absent, Absent)
    ensures var o := SaveUpdatedDoctor(db, i, u, usuario, env); o.reply.Success? && o.db.doctors == db.doctors
  {
    var d := db.doctors[i];
    ResubmitChangesNothing(d, u, env.bcrypt.hash);
    BuildValid(d);
    assert Setters(UpdatedDoctor(d, u, env.bcrypt.hash)) == d;
    StoredRecordIsNoDuplicate(db.doctors, i);
    assert UpdateAccepted(db.doctors, i, u, env.bcrypt.hash);
    assert db.doctors[i := d] == db.doctors;
  }

  lemma ResubmitChangesNothing(d: Doctor, u: AtualizacaoMedico, hash: string -> string)
    requires u == AtualizacaoMedico(Absent, Given(d.cpf), Given(d.crm), Absent, Absent, Absent, Absent, Absent)
    ensures UpdatedDoctor(d, u, hash) == d
  {
  }

  lemma SaveStoredDoctor(db: Db, i: nat, env: Env)
    requires DoctorsConsistent(db.doctors) && i < |db.doctors|
    ensures forall req :: SaveDoctorAt(db, i, db.doctors[i], req, env).reply.Success?
    ensures forall req :: SaveDoctorAt(db, i, db.doctors[i], req, env).db.doctors == db.doctors
  {
    var d := db.doctors[i];
    BuildValid(d);
    StoredRecordIsNoDuplicate(db.doctors, i);
    assert db.doctors[i := d] == db.doctors;
  }

  /** A stored record saved in place collides with no other record. */
  lemma StoredRecordIsNoDuplicate(ds: seq<Doctor>, i: nat)
    requires DoctorsConsistent(ds) && i < |ds|
    ensures DoctorDuplicateKey(ds, ds[i], Some(i)).None?
  {
    forall k | 0 <= k < |ds| && Some(k) != Some(i)
      ensures ds[k].id != ds[i].id && ds[k].cpf != ds[i].cpf && ds[k].crm != ds[i].crm
    {
      assert k != i;
    }
  }

  // ---------------------------------------------------------------------
  // deletarMedico
  // ---------------------------------------------------------------------

  function DeletedDocument(d: Doctor): (doc: Document)
    ensures doc.Keys == {"nome", "cpf", "crm", "plano", "role"}
  {
    CreatedDocument(d)
  }

  /**
   * `deletarMedico(req)`: 404 for an unknown id, 400 when the id is the
   * requester's own; otherwise exactly that doctor is removed (their
   * appointments stay).
   */
  function DeletarMedico(db: Db, id: string, usuario: Identity, env: Env): (o: Outcome<()>)
    ensures o.db.patients == db.patients && o.db.appointments == db.appointments
    ensures DoctorIndex(db.doctors, id).None? <==> o == Outcome(db, Failure(404, MsgNotFound, []))
    ensures DoctorIndex(db.doctors, id).Some? && id == usuario.id ==> o == Outcome(db, Failure(400, MsgSelfDelete, []))
    ensures o.reply.Success? <==> DoctorIndex(db.doctors, id).Some? && id != usuario.id
    ensures o.reply.Success? ==> o.reply.status == 200 && o.db.doctors == RemoveAt(db.doctors, DoctorIndex(db.doctors, id).value)
    ensures |db.audit| <= |o.db.audit| <= |db.audit| + 1 && o.db.audit[..|db.audit|] == db.audit
  {
    match DoctorIndex(db.doctors, id)
    case None => Outcome(db, Failure(404, MsgNotFound, []))
    case Some(i) =>
      var medico := db.doctors[i];
      if medico.id == usuario.id then Outcome(db, Failure(400, MsgSelfDelete, []))
      else
        var stored := db.(doctors := RemoveAt(db.doctors, i));
        var req := AuditRequest(Some(usuario.id), Some(usuario.nome), Delete, MedicoEntity, Some(id),
                                Some(DeletedDocument(medico)), None, Some(Sucesso), None);
        Outcome(Audit(stored, req, env), Success(200, MsgDeleted, ()))
  }

  /** Nobody deletes their own account: the request changes nothing. */
  lemma NoSelfDeletion(db: Db, usuario: Identity, env: Env)
    ensures DeletarMedico(db, usuario.id, usuario, env).db == db
    ensures DeletarMedico(db, usuario.id, usuario, env).reply.Failure?
  {
  }

  /** Removing a doctor keeps the others valid and distinct. */
  lemma DeletarPreservesConsistency(db: Db, id: string, usuario: Identity, env: Env)
    requires DoctorsConsistent(db.doctors)
    ensures DoctorsConsistent(DeletarMedico(db, id, usuario, env).db.doctors)
  {
    var o := DeletarMedico(db, id, usuario, env);
    if o.reply.Success? {
      RemoveDoctorConsistent(db.doctors, DoctorIndex(db.doctors, id).value);
    }
  }

  // ---------------------------------------------------------------------
  // listarMedicos
  // ---------------------------------------------------------------------

  /** The filters of `GET /api/medicos`. */
  datatype MedicoFilter = MedicoFilter(ativo: Option<string>, plano: Option<string>)

  /** `ativo` filters whenever present (`'true'` against every other string); `plano` only when truthy. */
  predicate MedicoMatches(d: Doctor, f: MedicoFilter)
  {
    && (f.ativo.Some? ==> d.ativo == Some(f.ativo.value == "true"))
    && (f.plano.Some? && f.plano.value != "" ==> d.plano == f.plano.value)
  }

  /** A doctor whose `ativo` was set to `null` is listed neither as active nor as inactive. */
  lemma ClearedAtivoFilteredOut(d: Doctor, u: AtualizacaoMedico, hash: string -> string, ativo: string)
    requires u.ativo.Cleared?
    ensures !MedicoMatches(UpdatedDoctor(d, u, hash), MedicoFilter(Some(ativo), None))
  {
  }

  /** The filter as a test on one record. */
  function MedicoMatchesFilter(f: MedicoFilter): Doctor -> bool
  {
    d => MedicoMatches(d, f)
  }

  /** `Medico.find(filter)` and `countDocuments(filter)`: the matching doctors in store order. */
  function MatchingDoctors(ds: seq<Doctor>, f: MedicoFilter): (r: seq<Doctor>)
    ensures |r| <= |ds|
    ensures forall d :: d in r <==> d in ds && MedicoMatches(d, f)
    ensures forall d :: multiset(r)[d] == if MedicoMatches(d, f) then multiset(ds)[d] else 0
  {
    Select(ds, MedicoMatchesFilter(f))
  }

  /** The filter keeps store order: filtering a concatenation filters each part in turn. */
  lemma MatchingDoctorsConcat(a: seq<Doctor>, b: seq<Doctor>, f: MedicoFilter)
    ensures MatchingDoctors(a + b, f) == MatchingDoctors(a, f) + MatchingDoctors(b, f)
  {
    SelectConcat(a, b, MedicoMatchesFilter(f));
  }

  /**
   * `listarMedicos(req)` for a query with `page` and `limit` (after
   * numeric coercion): the matching doctors, newest first, one page of
   * them, with the total count of matches.
   */
  function ListarMedicos(ds: seq<Doctor>, f: MedicoFilter, page: int, limit: int): (r: Result<Page<Doctor>, string>)
    ensures r.Err? <==> (page - 1) * limit < 0
    ensures r.Ok? ==> PageOf(r.value, Reverse(MatchingDoctors(ds, f)), page, limit)
    ensures r.Ok? ==> forall d :: d in r.value.data ==> d in ds && MedicoMatches(d, f)
    ensures r.Ok? ==> r.value.total == |MatchingDoctors(ds, f)|
    ensures r.Ok? && limit > 0 ==> |r.value.data| <= limit
  {
    var matching := MatchingDoctors(ds, f);
    var newest := Reverse(matching);
    var r := Paginate(newest, page, limit);
    if r.Ok? then
      assert forall d :: d in r.value.data ==> d in newest;
      assert forall d :: d in newest ==> d in matching by {
        forall d | d in newest
          ensures d in matching
        {
          ReverseElements(matching, d);
        }
      }
      r
    else r
  }

  /** With a positive limit, every matching doctor is listed on some page. */
  lemma ListarReachesEveryMatch(ds: seq<Doctor>, f: MedicoFilter, limit: int, d: Doctor)
    requires limit > 0 && d in ds && MedicoMatches(d, f)
    ensures exists p :: p >= 1 && ListarMedicos(ds, f, p, limit).Ok? && d in ListarMedicos(ds, f, p, limit).value.data
  {
    var matching := MatchingDoctors(ds, f);
    ReverseElements(matching, d);
    EveryRecordOnSomePage(Reverse(matching), limit, d);
    var p :| p >= 1 && Paginate(Reverse(matching), p, limit).Ok? && d in Paginate(Reverse(matching), p, limit).value.data;
    assert ListarMedicos(ds, f, p, limit) == Paginate(Reverse(matching), p, limit);
  }

  /** A doctor created last and matching the filter opens the first page. */
  lemma {:induction false} NewDoctorListedFirst(ds: seq<Doctor>, d: Doctor, f: MedicoFilter, limit: int)
    requires MedicoMatches(d, f)
    ensures ListarMedicos(ds + [d], f, 1, limit).Ok?
    ensures var data := ListarMedicos(ds + [d], f, 1, limit).value.data; |data| > 0 && data[0] == d
  {
    MatchingDoctorsConcat(ds, [d], f);
    assert MatchingDoctors([d], f) == [d] + MatchingDoctors([], f);
    var newest := Reverse(MatchingDoctors(ds + [d], f));
    assert newest[0] == d;
  }
}

=== FILE: medico_model.dfy ===
/**
 * The `Medico` schema: a doctor record as stored, the `trim` setters, the
 * path validators in schema order, and the `toJSON` view without the
 * password hash.
 */
module MedicoModel {
  import opened Base
  import opened Js
  import opened Text
  import opened Schema

  /**
   * A stored doctor.  `senha` holds the bcrypt hash; `ativo` is `None` when
   * the document holds `null` (the path is a Boolean without `required`).
   */
  datatype Doctor = Doctor(
    id: string,
    nome: string,
    cpf: string,
    crm: string,
    dataNascimento: string,
    plano: string,
    senha: string,
    role: string,
    ativo: Option<bool>)

  /** `ativo` is truthy: set and `true` (a stored `null` is falsy). */
  predicate IsActive(d: Doctor)
  {
    d.ativo == Some(true)
  }

  /** The JSON value of the `ativo` path: the Boolean, or `null`. */
  function AtivoValue(a: Option<bool>): (v: Value)
    ensures v.Bool? <==> a.Some?
    ensures a.Some? ==> v.b == a.value
    ensures a.None? ==> v == Null
  {
    if a.Some? then Bool(a.value) else Null
  }

  /** Reads the `ativo` path back from its JSON value. */
  function AtivoFromValue(v: Value): (a: Option<bool>)
    requires v.Bool? || v.Null?
  {
    if v.Bool? then Some(v.b) else None
  }

  /** Every schema rule a stored doctor satisfies (the birth-date clock check aside). */
  predicate ValidDoctor(d: Doctor)
  {
    && NameOk(d.nome)
    && CpfShape(d.cpf)
    && d.crm != "" && Trim(d.crm) == d.crm
    && d.dataNascimento != ""
    && d.plano in PlanNames
    && d.senha != ""
    && d.role in DoctorRoles
  }

  /** The `trim: true` setters of `nome` and `crm`, applied when a value is assigned. */
  function Setters(d: Doctor): Doctor
  {
    d.(nome := Trim(d.nome), crm := Trim(d.crm))
  }

  const DoctorRoles: seq<string> := ["medico", "admin"]

  /** The validation errors of a doctor, one per failing path in schema order. */
  function DoctorErrors(d: Doctor): (errs: seq<FieldError>)
  {
    Collect([
      NomeCheck(d.nome),
      CpfCheck(d.cpf),
      RequiredCheck("crm", d.crm, "CRM é obrigatório"),
      RequiredCheck("data_nascimento", d.dataNascimento, "Data de nascimento é obrigatória"),
      EnumCheck("plano", d.plano, PlanNames, "Plano de saúde inválido"),
      RequiredCheck("senha", d.senha, "Senha é obrigatória"),
      EnumCheck("role", d.role, DoctorRoles, "Role deve ser \"medico\" ou \"admin\"")])
  }

  /**
   * `new Medico(fields)` followed by validation: the setters run, then the
   * validators; the record is accepted only when no path fails.
   */
  function BuildDoctor(raw: Doctor): (r: Result<Doctor, seq<FieldError>>)
    ensures r.Ok? <==> ValidDoctor(raw.(nome := Trim(raw.nome), crm := Trim(raw.crm)))
    ensures r.Ok? ==> ValidDoctor(r.value)
    ensures r.Ok? ==> r.value == raw.(nome := Trim(raw.nome), crm := Trim(raw.crm))
    ensures r.Err? ==> |r.error| > 0
  {
    var d := Setters(raw);
    TrimIdempotent(raw.nome);
    TrimIdempotent(raw.crm);
    NoErrorsIffValid(d);
    var errs := DoctorErrors(d);
    if errs == [] then Ok(d) else Err(errs)
  }

  /** The validators pass exactly on the records the schema admits, once the setters have run. */
  lemma NoErrorsIffValid(d: Doctor)
    requires Trim(d.nome) == d.nome && Trim(d.crm) == d.crm
    ensures DoctorErrors(d) == [] <==> ValidDoctor(d)
  {
    CollectSeven(
      NomeCheck(d.nome),
      CpfCheck(d.cpf),
      RequiredCheck("crm", d.crm, "CRM é obrigatório"),
      RequiredCheck("data_nascimento", d.dataNascimento, "Data de nascimento é obrigatória"),
      EnumCheck("plano", d.plano, PlanNames, "Plano de saúde inválido"),
      RequiredCheck("senha", d.senha, "Senha é obrigatória"),
      EnumCheck("role", d.role, DoctorRoles, "Role deve ser \"medico\" ou \"admin\""));
  }

  /** Saving a stored record again accepts it unchanged. */
  lemma BuildValid(d: Doctor)
    requires ValidDoctor(d)
    ensures BuildDoctor(d) == Ok(d)
  {
    NoErrorsIffValid(d);
  }

  /** The stored document, with Mongoose's `_id` and `__v`. */
  function DoctorDocument(d: Doctor): (doc: Document)
    ensures "_id" in doc && doc["_id"] == Str(d.id)
    ensures "senha" in doc && "id" !in doc
  {
    map["_id" := Str(d.id), "__v" := Num(0), "nome" := Str(d.nome), "cpf" := Str(d.cpf),
        "crm" := Str(d.crm), "data_nascimento" := Str(d.dataNascimento), "plano" := Str(d.plano),
        "senha" := Str(d.senha), "role" := Str(d.role), "ativo" := AtivoValue(d.ativo)]
  }

  /** `medico.toJSON()`: the document with `id` for `_id` and no `senha`. */
  function DoctorJson(d: Doctor): (j: Document)
    ensures "senha" !in j && "_id" !in j && "__v" !in j
  {
    ToJson(DoctorDocument(d), {"senha"})
  }

  /** Reads a doctor back from its JSON view and a separately kept password hash. */
  function DoctorFromJson(j: Document, senha: string): (r: Option<Doctor>)
  {
    if && "id" in j && j["id"].Str? && "nome" in j && j["nome"].Str? && "cpf" in j && j["cpf"].Str?
       && "crm" in j && j["crm"].Str? && "data_nascimento" in j && j["data_nascimento"].Str?
       && "plano" in j && j["plano"].Str? && "role" in j && j["role"].Str? && "ativo" in j && (j["ativo"].Bool? || j["ativo"].Null?)
    then Some(Doctor(j["id"].s, j["nome"].s, j["cpf"].s, j["crm"].s, j["data_nascimento"].s,
                     j["plano"].s, senha, j["role"].s, AtivoFromValue(j["ativo"])))
    else None
  }

  /** The JSON view loses nothing but the password: with it, the record is recovered. */
  lemma DoctorJsonRoundTrip(d: Doctor)
    ensures DoctorFromJson(DoctorJson(d), d.senha) == Some(d)
  {
    DoctorJsonNames(d);
    DoctorJsonDetails(d);
  }

  lemma DoctorJsonNames(d: Doctor)
    ensures var j := DoctorJson(d);
      && "id" in j && j["id"] == Str(d.id) && "nome" in j && j["nome"] == Str(d.nome)
      && "cpf" in j && j["cpf"] == Str(d.cpf) && "crm" in j && j["crm"] == Str(d.crm)
  {
    var doc := DoctorDocument(d);
    var j := DoctorJson(d);
    assert j["nome"] == doc["nome"];
    assert j["cpf"] == doc["cpf"];
    assert j["crm"] == doc["crm"];
  }

  lemma DoctorJsonDetails(d: Doctor)
    ensures var j := DoctorJson(d);
      && "data_nascimento" in j && j["data_nascimento"] == Str(d.dataNascimento)
      && "plano" in j && j["plano"] == Str(d.plano) && "role" in j && j["role"] == Str(d.role)
      && "ativo" in j && j["ativo"] == AtivoValue(d.ativo)
  {
    var doc := DoctorDocument(d);
    var j := DoctorJson(d);
    assert j["data_nascimento"] == doc["data_nascimento"];
    assert j["plano"] == doc["plano"];
    assert j["role"] == doc["role"];
    assert j["ativo"] == doc["ativo"];
  }
}

=== FILE: paciente_controller.dfy ===
/**
 * The patient controller (`pacienteController`): the public sign-up, the
 * administrative create, partial update and delete, and the paginated
 * listing.
 */
module PacienteController {
  import opened Base
  import opened Js
  import opened Text
  import opened Schema
  import opened PacienteModel
  import opened HashUtils
  import opened AuditLog
  import opened Roles
  import opened Database
  import opened Pagination

  const MsgSignedUp := "Cadastro realizado com sucesso! Um médico entrará em contato em breve."
  const MsgSignUpFailed := "Erro ao realizar cadastro"
  const MsgCreated := "Paciente criado com sucesso"
  const MsgNotFound := "Paciente não encontrado"
  const MsgUpdated := "Paciente atualizado com sucesso"
  const MsgDeleted := "Paciente deletado com sucesso"

  /** The audit identity of the public sign-up, which has no authenticated user. */
  const PublicUserId := "publico"
  const PublicUserName := "Cadastro Público"

  /** `findOne({ cpf })`: a missing CPF is sent as `null` and finds nobody. */
  predicate CpfTaken(ps: seq<Patient>, cpf: Field<string>)
  {
    cpf.Given? && PatientCpfTaken(ps, cpf.value, None)
  }

  /** `Paciente.create` followed by the unique indexes: validation errors first, then a duplicate key. */
  function Insert(db: Db, raw: Patient): (r: Result<Patient, Reply<Document>>)
    ensures r.Ok? <==> ValidPatient(PatientSetters(raw)) && PatientKeysFree(db.patients, PatientSetters(raw), None)
    ensures r.Ok? ==> ValidPatient(r.value) && r.value == PatientSetters(raw)
    ensures r.Err? ==> r.error.Failure? && r.error.status == 400
    ensures BuildPatient(raw).Err? ==> r == Err(Failure(400, MsgValidation, BuildPatient(raw).error))
  {
    match BuildPatient(raw)
    case Err(errs) => Err(Failure(400, MsgValidation, errs))
    case Ok(p) =>
      match PatientDuplicateKey(db.patients, p, None)
      case Some(campo) => Err(Failure(400, DuplicateKeyMessage(campo), []))
      case None => Ok(p)
  }

  // ---------------------------------------------------------------------
  // cadastroPublico
  // ---------------------------------------------------------------------

  /** The body of the public sign-up form. */
  datatype CadastroPublico = CadastroPublico(
    nome: Field<string>,
    cpf: Field<string>,
    dataNascimento: Field<string>,
    email: Field<string>,
    telefone: Field<string>,
    senha: Field<string>,
    plano: Field<string>)

  /** The reply's `data`: the new record's id, name, CPF and status only. */
  function PublicView(p: Patient): (v: Document)
    ensures v.Keys == {"id", "nome", "cpf", "status"}
    ensures v["id"] == Str(p.id) && v["cpf"] == Str(p.cpf)
  {
    map["id" := Str(p.id), "nome" := Str(p.nome), "cpf" := Str(p.cpf), "status" := Str(p.status)]
  }

  /** The record `cadastroPublico` creates, once the setter has run: status `ativo`, the password hashed. */
  function PublicRecord(body: CadastroPublico, env: Env): (p: Patient)
    ensures p.id == env.freshId && p.nome == Trim(Raw(body.nome)) && p.cpf == Raw(body.cpf)
    ensures p.status == "ativo" && p.plano == OrElse(body.plano, "nenhum") && p.analise.None?
    ensures p.senha.Some? <==> Present(body.senha)
    ensures p.senha.Some? ==> p.senha.value == env.bcrypt.hash(body.senha.value)
  {
    PatientSetters(Patient(env.freshId, Raw(body.nome), Raw(body.cpf),
                    if Present(body.senha) then Some(env.bcrypt.hash(body.senha.value)) else None,
                    Raw(body.dataNascimento), OrElse(body.plano, "nenhum"), None, "ativo",
                    Js.Text(body.email), Js.Text(body.telefone)))
  }

  /**
   * `cadastroPublico(req)`: a CPF already held by a patient is a 400; a
   * supplied password is hashed (a too-short one makes `hashSenha` throw,
   * answered 500); the record is created with status `ativo`.
   */
  function CadastrarPublico(db: Db, body: CadastroPublico, env: Env): (o: Outcome<Document>)
    ensures o.db.doctors == db.doctors && o.db.appointments == db.appointments
    ensures o.reply.Failure? ==> o.db == db && o.reply.status in {400, 500}
    ensures CpfTaken(db.patients, body.cpf) ==> o.reply == Failure(400, MsgCpfTaken, [])
    ensures !CpfTaken(db.patients, body.cpf) && Present(body.senha) && HashSenha(AsValue(body.senha), env.bcrypt).Err? ==>
      o.reply == Failure(500, MsgSignUpFailed, [])
    ensures o.reply.Success? <==>
      && !CpfTaken(db.patients, body.cpf)
      && (Present(body.senha) ==> HashSenha(AsValue(body.senha), env.bcrypt).Ok?)
      && ValidPatient(PublicRecord(body, env)) && PatientKeysFree(db.patients, PublicRecord(body, env), None)
    ensures o.reply.Success? ==>
      && o.db.patients == db.patients + [PublicRecord(body, env)]
      && o.reply == Success(201, MsgSignedUp, PublicView(PublicRecord(body, env)))
    ensures |db.audit| <= |o.db.audit| <= |db.audit| + 1 && o.db.audit[..|db.audit|] == db.audit
  {
    if CpfTaken(db.patients, body.cpf) then Outcome(db, Failure(400, MsgCpfTaken, []))
    else
      match OptionalHash(body.senha, env.bcrypt)
      case Err(_) => Outcome(db, Failure(500, MsgSignUpFailed, []))
      case Ok(senha) =>
        var raw := Patient(env.freshId, Raw(body.nome), Raw(body.cpf), senha, Raw(body.dataNascimento),
                           OrElse(body.plano, "nenhum"), None, "ativo", Js.Text(body.email), Js.Text(body.telefone));
        InsertPublic(db, raw, env)
  }

  /** A supplied password through `hashSenha`; an absent one stays absent. */
  function OptionalHash(senha: Field<string>, b: Bcrypt): (r: Result<Option<string>, string>)
    ensures !Present(senha) ==> r == Ok(None)
    ensures Present(senha) ==> (r.Err? <==> HashSenha(AsValue(senha), b).Err?)
    ensures r.Ok? && Present(senha) ==> r.value == Some(b.hash(senha.value))
  {
    if Present(senha) then
      match HashSenha(AsValue(senha), b)
      case Ok(h) => Ok(Some(h))
      case Err(e) => Err(e)
    else Ok(None)
  }

  /**
   * The write of `cadastroPublico`: `Paciente.create`, then the audit
   * entry under the public identity and the 201 with the public view.
   */
  function InsertPublic(db: Db, raw: Patient, env: Env): (o: Outcome<Document>)
    ensures o.db.doctors == db.doctors && o.db.appointments == db.appointments
    ensures o.reply.Failure? ==> o.db == db && o.reply.status == 400
    ensures o.reply.Success? <==> ValidPatient(PatientSetters(raw)) && PatientKeysFree(db.patients, PatientSetters(raw), None)
    ensures o.reply.Success? ==> |o.db.patients| == |db.patients| + 1 && var p := o.db.patients[|db.patients|];
      && o.db.patients == db.patients + [p]
      && o.reply.status == 201 && o.reply.data == PublicView(p)
      && ValidPatient(p) && p == PatientSetters(raw)
    ensures |db.audit| <= |o.db.audit| <= |db.audit| + 1 && o.db.audit[..|db.audit|] == db.audit
    ensures o.reply.Success? && env.auditWritable ==>
      && |o.db.audit| == |db.audit| + 1
      && o.db.audit[|db.audit|].usuarioId == Some(PublicUserId)
      && o.db.audit[|db.audit|].acao == Create
      && o.db.audit[|db.audit|].entidadeId == Some(raw.id)
  {
    match Insert(db, raw)
    case Err(reply) => Outcome(db, reply)
    case Ok(p) =>
      var stored := db.(patients := db.patients + [p]);
      var req := AuditRequest(Some(PublicUserId), Some(PublicUserName), Create, PacienteEntity, Some(p.id), None,
                              Some(map["nome" := Str(p.nome), "cpf" := Str(p.cpf), "status" := Str(p.status)]),
                              Some(Sucesso), None);
      Outcome(Audit(stored, req, env), Success(201, MsgSignedUp, PublicView(p)))
  }

  /** The public sign-up keeps the stored patients valid with unique `_id` and `cpf`. */
  lemma CadastrarPublicoPreservesConsistency(db: Db, body: CadastroPublico, env: Env)
    requires PatientsConsistent(db.patients)
    ensures PatientsConsistent(CadastrarPublico(db, body, env).db.patients)
  {
    var o := CadastrarPublico(db, body, env);
    if o.reply.Success? {
      AppendPatientConsistent(db.patients, PublicRecord(body, env));
    }
  }

  /** The public sign-up always audits under the fixed public identity: a write never fails for want of a user. */
  lemma PublicSignUpAudited(db: Db, body: CadastroPublico, env: Env)
    requires env.auditWritable
    requires CadastrarPublico(db, body, env).reply.Success?
    ensures var o := CadastrarPublico(db, body, env);
      && |o.db.audit| == |db.audit| + 1
      && o.db.audit[|db.audit|].usuarioId == Some(PublicUserId)
      && o.db.audit[|db.audit|].acao == Create
      && o.db.audit[|db.audit|].entidadeId == Some(env.freshId)
  {
  }

  // ---------------------------------------------------------------------
  // criarPaciente
  // ---------------------------------------------------------------------

  /** The body of `POST /api/pacientes` (no password: the record gets none). */
  datatype NovoPaciente = NovoPaciente(
    nome: Field<string>,
    cpf: Field<string>,
    dataNascimento: Field<string>,
    plano: Field<string>,
    analise: Field<string>,
    status: Field<string>,
    email: Field<string>,
    telefone: Field<string>)

  /** The fields given to `Paciente.create`: defaults `nenhum` and `ativo`, no password. */
  function NewPatient(body: NovoPaciente, env: Env): (p: Patient)
    ensures p.id == env.freshId && p.senha.None? && p.cpf == Raw(body.cpf)
  {
    Patient(env.freshId, Raw(body.nome), Raw(body.cpf), None, Raw(body.dataNascimento),
            OrElse(body.plano, "nenhum"), Js.Text(body.analise), OrElse(body.status, "ativo"),
            Js.Text(body.email), Js.Text(body.telefone))
  }

  /**
   * `criarPaciente(req)`: a taken CPF is a 400; otherwise the record is
   * created with defaults `nenhum` and `ativo` and no password.
   */
  function CriarPaciente(db: Db, body: NovoPaciente, usuario: Identity, env: Env): (o: Outcome<Patient>)
    ensures o.db.doctors == db.doctors && o.db.appointments == db.appointments
    ensures o.reply.Failure? ==> o.db == db && o.reply.status == 400
    ensures CpfTaken(db.patients, body.cpf) ==> o.reply == Failure(400, MsgCpfTaken, [])
    ensures o.reply.Success? <==>
      && !CpfTaken(db.patients, body.cpf)
      && ValidPatient(PatientSetters(NewPatient(body, env))) && PatientKeysFree(db.patients, PatientSetters(NewPatient(body, env)), None)
    ensures o.reply.Success? ==> var p := o.reply.data;
      && o.reply.status == 201
      && o.db.patients == db.patients + [p]
      && ValidPatient(p) && p.id == env.freshId && p.senha.None?
      && p.plano == OrElse(body.plano, "nenhum") && p.status == OrElse(body.status, "ativo")
      && p.cpf == Raw(body.cpf) && p.analise == Js.Text(body.analise)
      && p.email == Js.Text(body.email) && p.telefone == Js.Text(body.telefone)
      && PatientKeysFree(db.patients, p, None)
    ensures |db.audit| <= |o.db.audit| <= |db.audit| + 1 && o.db.audit[..|db.audit|] == db.audit
  {
    if CpfTaken(db.patients, body.cpf) then Outcome(db, Failure(400, MsgCpfTaken, []))
    else
      CreatePatient(db, NewPatient(body, env), usuario, env)
  }

  /** The write of `criarPaciente`: `Paciente.create`, the audit entry and the 201. */
  function CreatePatient(db: Db, raw: Patient, usuario: Identity, env: Env): (o: Outcome<Patient>)
    ensures o.db.doctors == db.doctors && o.db.appointments == db.appointments
    ensures o.reply.Failure? ==> o.db == db && o.reply.status == 400
    ensures o.reply.Success? <==> ValidPatient(PatientSetters(raw)) && PatientKeysFree(db.patients, PatientSetters(raw), None)
    ensures o.reply.Success? ==> var p := o.reply.data;
      && o.reply.status == 201
      && o.db.patients == db.patients + [p]
      && ValidPatient(p) && p == PatientSetters(raw)
      && PatientKeysFree(db.patients, p, None)
    ensures |db.audit| <= |o.db.audit| <= |db.audit| + 1 && o.db.audit[..|db.audit|] == db.audit
  {
    match Insert(db, raw)
    case Err(reply) => Outcome(db, Failure(400, reply.message, reply.erros))
    case Ok(p) =>
      var stored := db.(patients := db.patients + [p]);
      var req := AuditRequest(Some(usuario.id), Some(usuario.nome), Create, PacienteEntity, Some(p.id), None,
                              Some(map["nome" := Str(p.nome), "cpf" := Str(p.cpf), "plano" := Str(p.plano),
                                       "status" := Str(p.status)]),
                              Some(Sucesso), None);
      Outcome(Audit(stored, req, env), Success(201, MsgCreated, p))
  }

  lemma CriarPreservesConsistency(db: Db, body: NovoPaciente, usuario: Identity, env: Env)
    requires PatientsConsistent(db.patients)
    ensures PatientsConsistent(CriarPaciente(db, body, usuario, env).db.patients)
  {
    var o := CriarPaciente(db, body, usuario, env);
    if o.reply.Success? {
      AppendPatientConsistent(db.patients, o.reply.data);
    }
  }

  // ---------------------------------------------------------------------
  // atualizarPaciente
  // ---------------------------------------------------------------------

  /** The body of `PUT /api/pacientes/:id`. */
  datatype AtualizacaoPaciente = AtualizacaoPaciente(
    nome: Field<string>,
    cpf: Field<string>,
    dataNascimento: Field<string>,
    plano: Field<string>,
    analise: Field<string>,
    status: Field<string>,
    email: Field<string>,
    telefone: Field<string>)

  /** The paths of `dadosAtualizacao`. */
  datatype PatientPath = NomePath | CpfPath | DataNascimentoPath | PlanoPath | AnalisePath | StatusPath | EmailPath | TelefonePath

  const AllPaths: set<PatientPath> :=
    {NomePath, CpfPath, DataNascimentoPath, PlanoPath, AnalisePath, StatusPath, EmailPath, TelefonePath}

  function PatientPathName(p: PatientPath): string
  {
    match p
    case NomePath => "nome"
    case CpfPath => "cpf"
    case DataNascimentoPath => "data_nascimento"
    case PlanoPath => "plano"
    case AnalisePath => "analise"
    case StatusPath => "status"
    case EmailPath => "email"
    case TelefonePath => "telefone"
  }

  /** A truthy CPF different from the stored one: only then is it checked and assigned. */
  predicate CpfChanges(p: Patient, u: AtualizacaoPaciente)
  {
    Present(u.cpf) && u.cpf.value != p.cpf
  }

  /** Text fields change when truthy; `analise`, `email` and `telefone` whenever defined. */
  predicate Supplied(p: Patient, u: AtualizacaoPaciente, path: PatientPath)
  {
    match path
    case NomePath => Present(u.nome)
    case CpfPath => CpfChanges(p, u)
    case DataNascimentoPath => Present(u.dataNascimento)
    case PlanoPath => Present(u.plano)
    case AnalisePath => !u.analise.Absent?
    case StatusPath => Present(u.status)
    case EmailPath => !u.email.Absent?
    case TelefonePath => !u.telefone.Absent?
  }

  function SuppliedValue(u: AtualizacaoPaciente, path: PatientPath): Value
  {
    match path
    case NomePath => AsValue(u.nome)
    case CpfPath => AsValue(u.cpf)
    case DataNascimentoPath => AsValue(u.dataNascimento)
    case PlanoPath => AsValue(u.plano)
    case AnalisePath => AsValue(u.analise)
    case StatusPath => AsValue(u.status)
    case EmailPath => AsValue(u.email)
    case TelefonePath => AsValue(u.telefone)
  }

  /** `dadosAtualizacao`: every supplied path with the value sent (`null` for a cleared one). */
  function Changes(p: Patient, u: AtualizacaoPaciente): (c: map<PatientPath, Value>)
    ensures forall path :: path in c <==> Supplied(p, u, path)
    ensures forall path :: path in c ==> c[path] == SuppliedValue(u, path)
  {
    map path | path in AllPaths && Supplied(p, u, path) :: SuppliedValue(u, path)
  }

  function AssignText(c: map<PatientPath, Value>, path: PatientPath, current: string): string
  {
    if path in c && c[path].Str? then c[path].s else current
  }

  /** A nullable path: `null` clears it. */
  function AssignNullable(c: map<PatientPath, Value>, path: PatientPath, current: Option<string>): Option<string>
  {
    if path in c then ReadNullable(c[path]) else current
  }

  /** `Object.assign(paciente, dadosAtualizacao)`. */
  function ObjectAssign(p: Patient, c: map<PatientPath, Value>): (r: Patient)
    ensures r.id == p.id && r.senha == p.senha
  {
    p.(nome := AssignText(c, NomePath, p.nome),
       cpf := AssignText(c, CpfPath, p.cpf),
       dataNascimento := AssignText(c, DataNascimentoPath, p.dataNascimento),
       plano := AssignText(c, PlanoPath, p.plano),
       analise := AssignNullable(c, AnalisePath, p.analise),
       status := AssignText(c, StatusPath, p.status),
       email := AssignNullable(c, EmailPath, p.email),
       telefone := AssignNullable(c, TelefonePath, p.telefone))
  }

  /**
   * The record before `nome` is trimmed and the validators run: the
   * password and id never change, text fields only when truthy, and the
   * nullable fields whenever defined, so `null` clears them.
   */
  function UpdatedPatient(p: Patient, u: AtualizacaoPaciente): (r: Patient)
    ensures r.id == p.id && r.senha == p.senha
    ensures r.nome == (if Present(u.nome) then u.nome.value else p.nome)
    ensures r.cpf == (if Present(u.cpf) then u.cpf.value else p.cpf)
    ensures r.dataNascimento == (if Present(u.dataNascimento) then u.dataNascimento.value else p.dataNascimento)
    ensures r.plano == (if Present(u.plano) then u.plano.value else p.plano)
    ensures r.status == (if Present(u.status) then u.status.value else p.status)
    ensures r.analise == (if u.analise.Absent? then p.analise else Js.Text(u.analise))
    ensures r.email == (if u.email.Absent? then p.email else Js.Text(u.email))
    ensures r.telefone == (if u.telefone.Absent? then p.telefone else Js.Text(u.telefone))
  {
    var c := Changes(p, u);
    assert Supplied(p, u, NomePath) == Present(u.nome);
    assert Supplied(p, u, CpfPath) == CpfChanges(p, u);
    ObjectAssign(p, c)
  }

  /** The update object as the audit entry's `dados_novos`. */
  function ChangesDocument(c: map<PatientPath, Value>): Document
  {
    map path | path in c :: PatientPathName(path) := c[path]
  }

  function PreviousDocument(p: Patient): Document
  {
    map["nome" := Str(p.nome), "cpf" := Str(p.cpf), "data_nascimento" := Str(p.dataNascimento),
        "plano" := Str(p.plano), "analise" := Nullable(p.analise), "status" := Str(p.status),
        "email" := Nullable(p.email), "telefone" := Nullable(p.telefone)]
  }

  /**
   * `atualizarPaciente(req)`: 404 for an unknown id; a new CPF held by
   * another patient is a 400; then the changes are assigned and saved.
   */
  function AtualizarPaciente(db: Db, id: string, u: AtualizacaoPaciente, usuario: Identity, env: Env): (o: Outcome<Patient>)
    ensures o.db.doctors == db.doctors && o.db.appointments == db.appointments
    ensures o.reply.Failure? ==> o.db == db && o.reply.status in {400, 404}
    ensures PatientIndex(db.patients, id).None? <==> o == Outcome(db, Failure(404, MsgNotFound, []))
    ensures PatientIndex(db.patients, id).Some? ==> var p := db.patients[PatientIndex(db.patients, id).value];
      CpfChanges(p, u) && PatientCpfTaken(db.patients, u.cpf.value, Some(id)) ==> o.reply == Failure(400, MsgCpfTaken, [])
    ensures o.reply.Success? ==> var i := PatientIndex(db.patients, id).value;
      && o.reply.status == 200
      && o.reply.data == UpdatedPatient(db.patients[i], u).(nome := Trim(UpdatedPatient(db.patients[i], u).nome))
      && ValidPatient(o.reply.data)
      && o.db.patients == db.patients[i := o.reply.data]
      && forall k :: 0 <= k < |db.patients| && k != i ==>
           db.patients[k].id != o.reply.data.id && db.patients[k].cpf != o.reply.data.cpf
    ensures PatientIndex(db.patients, id).Some? ==> var i := PatientIndex(db.patients, id).value;
      var built := BuildPatient(UpdatedPatient(db.patients[i], u));
      (o.reply.Success? <==>
        && !(CpfChanges(db.patients[i], u) && PatientCpfTaken(db.patients, u.cpf.value, Some(id)))
        && built.Ok?
        && PatientDuplicateKey(db.patients, built.value, Some(i)).None?)
    ensures |db.audit| <= |o.db.audit| <= |db.audit| + 1 && o.db.audit[..|db.audit|] == db.audit
  {
    match PatientIndex(db.patients, id)
    case None => Outcome(db, Failure(404, MsgNotFound, []))
    case Some(i) =>
      var antes := db.patients[i];
      if CpfChanges(antes, u) && PatientCpfTaken(db.patients, u.cpf.value, Some(id)) then
        Outcome(db, Failure(400, MsgCpfTaken, []))
      else
        var req := AuditRequest(Some(usuario.id), Some(usuario.nome), Update, PacienteEntity, Some(antes.id),
                                Some(PreviousDocument(antes)), Some(ChangesDocument(Changes(antes, u))),
                                Some(Sucesso), None);
        SavePatientAt(db, i, UpdatedPatient(antes, u), req, env)
  }

  /**
   * `paciente.save()` over the record at `i`: model validation, then the
   * unique indexes against the other records, each a 400; otherwise the
   * record is replaced and the change audited.
   */
  function SavePatientAt(db: Db, i: nat, raw: Patient, req: AuditRequest, env: Env): (o: Outcome<Patient>)
    requires i < |db.patients|
    ensures o.db.doctors == db.doctors && o.db.appointments == db.appointments
    ensures o.reply.Failure? ==> o.db == db && o.reply.status == 400
    ensures o.reply.Success? <==>
      BuildPatient(raw).Ok? && PatientDuplicateKey(db.patients, BuildPatient(raw).value, Some(i)).None?
    ensures o.reply.Success? ==>
      && o.reply.status == 200
      && o.reply.data == raw.(nome := Trim(raw.nome))
      && ValidPatient(o.reply.data)
      && o.db.patients == db.patients[i := o.reply.data]
      && forall k :: 0 <= k < |db.patients| && k != i ==>
           db.patients[k].id != o.reply.data.id && db.patients[k].cpf != o.reply.data.cpf
    ensures |db.audit| <= |o.db.audit| <= |db.audit| + 1 && o.db.audit[..|db.audit|] == db.audit
  {
    match BuildPatient(raw)
    case Err(errs) => Outcome(db, Failure(400, MsgValidation, errs))
    case Ok(p) => StoreUniquePatientAt(db, i, p, req, env)
  }

  /** The unique indexes on `_id` and `cpf` against the other records, then the write. */
  function StoreUniquePatientAt(db: Db, i: nat, p: Patient, req: AuditRequest, env: Env): (o: Outcome<Patient>)
    requires i < |db.patients|
    ensures o.db.doctors == db.doctors && o.db.appointments == db.appointments
    ensures o.reply.Failure? ==> o.db == db && o.reply == Failure(400, o.reply.message, [])
    ensures o.reply.Success? <==> PatientDuplicateKey(db.patients, p, Some(i)).None?
    ensures o.reply.Success? ==> o.reply == Success(200, MsgUpdated, p) && o.db.patients == db.patients[i := p]
    ensures o.reply.Success? ==>
      forall k :: 0 <= k < |db.patients| && k != i ==> db.patients[k].id != p.id && db.patients[k].cpf != p.cpf
    ensures |db.audit| <= |o.db.audit| <= |db.audit| + 1 && o.db.audit[..|db.audit|] == db.audit
  {
    match PatientDuplicateKey(db.patients, p, Some(i))
    case Some(campo) => Outcome(db, Failure(400, DuplicateKeyMessage(campo), []))
    case None => Outcome(Audit(db.(patients := db.patients[i := p]), req, env), Success(200, MsgUpdated, p))
  }

  lemma AtualizarPreservesConsistency(db: Db, id: string, u: AtualizacaoPaciente, usuario: Identity, env: Env)
    requires PatientsConsistent(db.patients)
    ensures PatientsConsistent(AtualizarPaciente(db, id, u, usuario, env).db.patients)
  {
    var o := AtualizarPaciente(db, id, u, usuario, env);
    if o.reply.Success? {
      ReplacePatientConsistent(db.patients, PatientIndex(db.patients, id).value, o.reply.data);
    }
  }

  /**
   * The optional fields can be cleared: sending `null` for `analise`,
   * `email` and `telefone` succeeds on any stored patient and leaves all
   * three unset, everything else as it was.
   */
  lemma ClearOptionalFields(db: Db, id: string, usuario: Identity, env: Env)
    requires PatientsConsistent(db.patients)
    requires PatientIndex(db.patients, id).Some?
    ensures var i := PatientIndex(db.patients, id).value;
      var u := AtualizacaoPaciente(Absent, Absent, Absent, Absent, Cleared, Absent, Cleared, Cleared);
      var o := AtualizarPaciente(db, id, u, usuario, env);
      && o.reply.Success?
      && o.db.patients[i] == db.patients[i].(analise := None, email := None, telefone := None)
  {
    var i := PatientIndex(db.patients, id).value;
    ClearedStaysValid(db.patients[i]);
    ClearedIsNoDuplicate(db.patients, i);
  }

  lemma ClearedIsNoDuplicate(ps: seq<Patient>, i: nat)
    requires PatientsConsistent(ps) && i < |ps|
    ensures PatientDuplicateKey(ps, ps[i].(analise := None, email := None, telefone := None), Some(i)).None?
  {
    var cleared := ps[i].(analise := None, email := None, telefone := None);
    forall k | 0 <= k < |ps| && Some(k) != Some(i)
      ensures ps[k].id != cleared.id && ps[k].cpf != cleared.cpf
    {
      assert k != i;
    }
  }

  /** Clearing the three optional fields of a valid patient leaves a valid patient that saves unchanged. */
  lemma ClearedStaysValid(p: Patient)
    requires ValidPatient(p)
    ensures var u := AtualizacaoPaciente(Absent, Absent, Absent, Absent, Cleared, Absent, Cleared, Cleared);
      var cleared := p.(analise := None, email := None, telefone := None);
      && !CpfChanges(p, u)
      && UpdatedPatient(p, u) == cleared
      && BuildPatient(cleared) == Ok(cleared)
  {
    var cleared := p.(analise := None, email := None, telefone := None);
    assert ValidPatient(cleared);
    BuildValid(cleared);
  }

  // ---------------------------------------------------------------------
  // deletarPaciente
  // ---------------------------------------------------------------------

  /** `deletarPaciente(req)`: 404 for an unknown id; otherwise exactly that patient is removed. */
  function DeletarPaciente(db: Db, id: string, usuario: Identity, env: Env): (o: Outcome<()>)
    ensures o.db.doctors == db.doctors && o.db.appointments == db.appointments
    ensures PatientIndex(db.patients, id).None? <==> o == Outcome(db, Failure(404, MsgNotFound, []))
    ensures o.reply.Success? <==> PatientIndex(db.patients, id).Some?
    ensures o.reply.Success? ==> o.reply.status == 200 && o.db.patients == RemoveAt(db.patients, PatientIndex(db.patients, id).value)
    ensures |db.audit| <= |o.db.audit| <= |db.audit| + 1 && o.db.audit[..|db.audit|] == db.audit
  {
    match PatientIndex(db.patients, id)
    case None => Outcome(db, Failure(404, MsgNotFound, []))
    case Some(i) =>
      var p := db.patients[i];
      var stored := db.(patients := RemoveAt(db.patients, i));
      var req := AuditRequest(Some(usuario.id), Some(usuario.nome), Delete, PacienteEntity, Some(id),
                              Some(map["nome" := Str(p.nome), "cpf" := Str(p.cpf), "plano" := Str(p.plano),
                                       "status" := Str(p.status)]),
                              None, Some(Sucesso), None);
      Outcome(Audit(stored, req, env), Success(200, MsgDeleted, ()))
  }

  /** With unique ids, deleting removes that patient and keeps every other one. */
  lemma DeletarRemovesExactlyThatPatient(db: Db, id: string, usuario: Identity, env: Env, x: Patient)
    requires PatientsConsistent(db.patients)
    ensures x in DeletarPaciente(db, id, usuario, env).db.patients <==> x in db.patients && x.id != id
  {
    var o := DeletarPaciente(db, id, usuario, env);
    match PatientIndex(db.patients, id)
    case None =>
    case Some(i) =>
      RemoveAtElements(db.patients, i, x);
      if x in db.patients && x.id != id {
        var k :| 0 <= k < |db.patients| && db.patients[k] == x;
        assert k != i;
      }
  }

  lemma DeletarPreservesConsistency(db: Db, id: string, usuario: Identity, env: Env)
    requires PatientsConsistent(db.patients)
    ensures PatientsConsistent(DeletarPaciente(db, id, usuario, env).db.patients)
  {
    var o := DeletarPaciente(db, id, usuario, env);
    if o.reply.Success? {
      RemovePatientConsistent(db.patients, PatientIndex(db.patients, id).value);
    }
  }

  // ---------------------------------------------------------------------
  // listarPacientes
  // ---------------------------------------------------------------------

  /** The filter as a test on one record. */
  function PacienteMatchesFilter(f: PacienteFilter): Patient -> bool
  {
    p => PacienteMatches(p, f)
  }

  /** The filters of `GET /api/pacientes`: each applies only when truthy. */
  datatype PacienteFilter = PacienteFilter(status: Option<string>, plano: Option<string>)

  predicate PacienteMatches(p: Patient, f: PacienteFilter)
  {
    && (f.status.Some? && f.status.value != "" ==> p.status == f.status.value)
    && (f.plano.Some? && f.plano.value != "" ==> p.plano == f.plano.value)
  }

  function MatchingPatients(ps: seq<Patient>, f: PacienteFilter): (r: seq<Patient>)
    ensures |r| <= |ps|
    ensures forall p :: p in r <==> p in ps && PacienteMatches(p, f)
    ensures forall p :: multiset(r)[p] == if PacienteMatches(p, f) then multiset(ps)[p] else 0
  {
    Select(ps, PacienteMatchesFilter(f))
  }

  /** The filter keeps store order: filtering a concatenation filters each part in turn. */
  lemma MatchingPatientsConcat(a: seq<Patient>, b: seq<Patient>, f: PacienteFilter)
    ensures MatchingPatients(a + b, f) == MatchingPatients(a, f) + MatchingPatients(b, f)
  {
    SelectConcat(a, b, PacienteMatchesFilter(f));
  }

  /** `listarPacientes(req)`: the matching patients, newest first, one page of them. */
  function ListarPacientes(ps: seq<Patient>, f: PacienteFilter, page: int, limit: int): (r: Result<Page<Patient>, string>)
    ensures r.Err? <==> (page - 1) * limit < 0
    ensures r.Ok? ==> PageOf(r.value, Reverse(MatchingPatients(ps, f)), page, limit)
    ensures r.Ok? ==> forall p :: p in r.value.data ==> p in ps && PacienteMatches(p, f)
    ensures r.Ok? ==> r.value.total == |MatchingPatients(ps, f)|
    ensures r.Ok? && limit > 0 ==> |r.value.data| <= limit
  {
    var matching := MatchingPatients(ps, f);
    var newest := Reverse(matching);
    var r := Paginate(newest, page, limit);
    if r.Ok? then
      assert forall p :: p in r.value.data ==> p in newest;
      assert forall p :: p in newest ==> p in matching by {
        forall p | p in newest
          ensures p in matching
        {
          ReverseElements(matching, p);
        }
      }
      r
    else r
  }

  /** A patient created last and matching the filter opens the first page. */
  lemma {:induction false} NewPatientListedFirst(ps: seq<Patient>, p: Patient, f: PacienteFilter, limit: int)
    requires PacienteMatches(p, f)
    ensures ListarPacientes(ps + [p], f, 1, limit).Ok?
    ensures var data := ListarPacientes(ps + [p], f, 1, limit).value.data; |data| > 0 && data[0] == p
  {
    MatchingPatientsConcat(ps, [p], f);
    assert MatchingPatients([p], f) == [p] + MatchingPatients([], f);
    var newest := Reverse(MatchingPatients(ps + [p], f));
    assert newest[0] == p;
  }

  /** With a positive limit, every matching patient is listed on some page. */
  lemma ListarPacientesReachesEveryMatch(ps: seq<Patient>, f: PacienteFilter, limit: int, p: Patient)
    requires limit > 0 && p in ps && PacienteMatches(p, f)
    ensures exists pg :: pg >= 1 && ListarPacientes(ps, f, pg, limit).Ok? && p in ListarPacientes(ps, f, pg, limit).value.data
  {
    var matching := MatchingPatients(ps, f);
    ReverseElements(matching, p);
    EveryRecordOnSomePage(Reverse(matching), limit, p);
    var pg :| pg >= 1 && Paginate(Reverse(matching), pg, limit).Ok? && p in Paginate(Reverse(matching), pg, limit).value.data;
    assert ListarPacientes(ps, f, pg, limit) == Paginate(Reverse(matching), pg, limit);
  }
}

=== FILE: paciente_model.dfy ===
/**
 * The `Paciente` schema: a patient record as stored, its path validators
 * in schema order, and the `toJSON` view without the password hash.
 */
module PacienteModel {
  import opened Base
  import opened Js
  import opened Text
  import opened Schema

  /**
   * A stored patient.  `senha`, `analise`, `email` and `telefone` default
   * to `null` (`None`); `senha` holds a bcrypt hash when set.
   */
  datatype Patient = Patient(
    id: string,
    nome: string,
    cpf: string,
    senha: Option<string>,
    dataNascimento: string,
    plano: string,
    analise: Option<string>,
    status: string,
    email: Option<string>,
    telefone: Option<string>)

  const PatientStatuses: seq<string> := ["ativo", "inativo", "em_tratamento", "alta"]

  /** The `match` on `email` passes `null` and `''` and tests everything else. */
  predicate EmailOk(email: Option<string>)
  {
    email.None? || email.value == "" || EmailShape(email.value)
  }

  /** The custom validator on `telefone`: `!v` passes, anything else must be 10 to 15 digits. */
  predicate TelefoneOk(telefone: Option<string>)
  {
    telefone.None? || telefone.value == "" || PhoneShape(telefone.value)
  }

  /** Every schema rule a stored patient satisfies (the birth-date clock check aside). */
  predicate ValidPatient(p: Patient)
  {
    && NameOk(p.nome)
    && CpfShape(p.cpf)
    && p.dataNascimento != ""
    && p.plano in PlanNames
    && p.status in PatientStatuses
    && EmailOk(p.email)
    && TelefoneOk(p.telefone)
  }

  /** The `trim: true` setter of `nome`, applied when the value is assigned. */
  function PatientSetters(p: Patient): Patient
  {
    p.(nome := Trim(p.nome))
  }

  /** The validation errors of a patient, one per failing path in schema order. */
  function PatientErrors(p: Patient): (errs: seq<FieldError>)
  {
    Collect([
      NomeCheck(p.nome),
      CpfCheck(p.cpf),
      RequiredCheck("data_nascimento", p.dataNascimento, "Data de nascimento é obrigatória"),
      EnumCheck("plano", p.plano, PlanNames, "Plano de saúde inválido"),
      EnumCheck("status", p.status, PatientStatuses, "Status inválido"),
      if EmailOk(p.email) then None else Some(FieldError("email", "Email inválido")),
      if TelefoneOk(p.telefone) then None
      else Some(FieldError("telefone", "Telefone deve conter entre 10 e 15 dígitos numéricos"))])
  }

  /** The validators pass exactly on the records the schema admits, once `nome` is trimmed. */
  lemma NoErrorsIffValid(p: Patient)
    requires Trim(p.nome) == p.nome
    ensures PatientErrors(p) == [] <==> ValidPatient(p)
  {
    CollectSeven(
      NomeCheck(p.nome),
      CpfCheck(p.cpf),
      RequiredCheck("data_nascimento", p.dataNascimento, "Data de nascimento é obrigatória"),
      EnumCheck("plano", p.plano, PlanNames, "Plano de saúde inválido"),
      EnumCheck("status", p.status, PatientStatuses, "Status inválido"),
      if EmailOk(p.email) then None else Some(FieldError("email", "Email inválido")),
      if TelefoneOk(p.telefone) then None
      else Some(FieldError("telefone", "Telefone deve conter entre 10 e 15 dígitos numéricos")));
  }

  /**
   * `new Paciente(fields)` followed by validation: `nome` is trimmed, then
   * the validators run; the record is accepted only when no path fails.
   */
  function BuildPatient(raw: Patient): (r: Result<Patient, seq<FieldError>>)
    ensures r.Ok? <==> ValidPatient(raw.(nome := Trim(raw.nome)))
    ensures r.Ok? ==> ValidPatient(r.value)
    ensures r.Ok? ==> r.value == raw.(nome := Trim(raw.nome))
    ensures r.Err? ==> |r.error| > 0
  {
    var p := raw.(nome := Trim(raw.nome));
    TrimIdempotent(raw.nome);
    NoErrorsIffValid(p);
    var errs := PatientErrors(p);
    if errs == [] then Ok(p) else Err(errs)
  }

  /** Saving a stored record again accepts it unchanged. */
  lemma BuildValid(p: Patient)
    requires ValidPatient(p)
    ensures BuildPatient(p) == Ok(p)
  {
    NoErrorsIffValid(p);
  }

  /** The stored document, with Mongoose's `_id` and `__v`. */
  function PatientDocument(p: Patient): (doc: Document)
    ensures "_id" in doc && doc["_id"] == Str(p.id)
    ensures "senha" in doc && "id" !in doc
  {
    map["_id" := Str(p.id), "__v" := Num(0), "nome" := Str(p.nome), "cpf" := Str(p.cpf),
        "senha" := Nullable(p.senha), "data_nascimento" := Str(p.dataNascimento),
        "plano" := Str(p.plano), "analise" := Nullable(p.analise), "status" := Str(p.status),
        "email" := Nullable(p.email), "telefone" := Nullable(p.telefone)]
  }

  /** `paciente.toJSON()`: the document with `id` for `_id` and no `senha`. */
  function PatientJson(p: Patient): (j: Document)
    ensures "senha" !in j && "_id" !in j && "__v" !in j
  {
    ToJson(PatientDocument(p), {"senha"})
  }

  /** Reads a patient back from its JSON view and a separately kept password hash. */
  function PatientFromJson(j: Document, senha: Option<string>): (r: Option<Patient>)
  {
    if && "id" in j && j["id"].Str? && "nome" in j && j["nome"].Str? && "cpf" in j && j["cpf"].Str?
       && "data_nascimento" in j && j["data_nascimento"].Str? && "plano" in j && j["plano"].Str?
       && "analise" in j && "status" in j && j["status"].Str? && "email" in j && "telefone" in j
    then Some(Patient(j["id"].s, j["nome"].s, j["cpf"].s, senha, j["data_nascimento"].s, j["plano"].s,
                      ReadNullable(j["analise"]), j["status"].s, ReadNullable(j["email"]),
                      ReadNullable(j["telefone"])))
    else None
  }

  /** The JSON view loses nothing but the password: with it, the record is recovered. */
  lemma PatientJsonRoundTrip(p: Patient)
    ensures PatientFromJson(PatientJson(p), p.senha) == Some(p)
  {
    PatientJsonTexts(p);
    PatientJsonOptionals(p);
  }

  lemma PatientJsonTexts(p: Patient)
    ensures var j := PatientJson(p);
      && "id" in j && j["id"] == Str(p.id) && "nome" in j && j["nome"] == Str(p.nome)
      && "cpf" in j && j["cpf"] == Str(p.cpf) && "data_nascimento" in j && j["data_nascimento"] == Str(p.dataNascimento)
      && "plano" in j && j["plano"] == Str(p.plano) && "status" in j && j["status"] == Str(p.status)
  {
    PatientJsonNames(p);
    PatientJsonDetails(p);
  }

  lemma PatientJsonNames(p: Patient)
    ensures var j := PatientJson(p);
      && "nome" in j && j["nome"] == Str(p.nome) && "cpf" in j && j["cpf"] == Str(p.cpf)
  {
    var doc := PatientDocument(p);
    var j := PatientJson(p);
    assert j["nome"] == doc["nome"];
    assert j["cpf"] == doc["cpf"];
  }

  lemma PatientJsonDetails(p: Patient)
    ensures var j := PatientJson(p);
      && "data_nascimento" in j && j["data_nascimento"] == Str(p.dataNascimento)
      && "plano" in j && j["plano"] == Str(p.plano) && "status" in j && j["status"] == Str(p.status)
  {
    var doc := PatientDocument(p);
    var j := PatientJson(p);
    assert j["data_nascimento"] == doc["data_nascimento"];
    assert j["plano"] == doc["plano"];
    assert j["status"] == doc["status"];
  }

  lemma PatientJsonOptionals(p: Patient)
    ensures var j := PatientJson(p);
      && "analise" in j && j["analise"] == Nullable(p.analise) && "email" in j && j["email"] == Nullable(p.email)
      && "telefone" in j && j["telefone"] == Nullable(p.telefone)
  {
    var doc := PatientDocument(p);
    var j := PatientJson(p);
    assert j["analise"] == doc["analise"];
    assert j["email"] == doc["email"];
    assert j["telefone"] == doc["telefone"];
  }
}

=== FILE: pagination.dfy ===
/**
 * The pagination of the doctor and patient listings: `skip = (page - 1) *
 * limit`, the driver's `skip`/`limit` on the sorted result, and
 * `totalPages = Math.ceil(count / limit)`.
 */
module Pagination {
  import opened Base

  /** The query's defaults: `page = 1`, `limit = 10`. */
  const DefaultPage: int := 1
  const DefaultLimit: int := 10

  /** The `pagination` object of the reply; `totalPages` is `None` where JavaScript computes `Infinity` or `NaN` (both serialise as `null`). */
  datatype Page<T> = Page(data: seq<T>, total: nat, page: int, limit: int, totalPages: Option<int>)

  function Min(a: int, b: int): int
  {
    if a <= b then a else b
  }

  function Abs(n: int): nat
  {
    if n < 0 then -n else n
  }

  /** `Math.ceil(count / limit)` for a non-zero limit. */
  function CeilDiv(count: nat, limit: int): (r: int)
    requires limit != 0
    ensures limit > 0 ==> r >= 0 && r * limit >= count && (r == 0 || (r - 1) * limit < count)
    ensures limit > 0 ==> (r == 0 <==> count == 0)
    ensures limit < 0 ==> r <= 0
  {
    if limit > 0 then
      var q := (count + limit - 1) / limit;
      assert q * limit <= count + limit - 1 < (q + 1) * limit;
      q
    else
      -(count / -limit)
  }

  /**
   * `pg` is page `page` of `s` at `limit` records a page: it reports the
   * whole count, starts `(page - 1) * limit` records in, holds `|limit|`
   * records or as many as are left (all of them for `limit(0)`), and
   * `totalPages` is `Math.ceil(|s| / limit)`.
   */
  ghost predicate PageOf<T>(pg: Page<T>, s: seq<T>, page: int, limit: int)
  {
    var start := Min((page - 1) * limit, |s|);
    && pg.total == |s| && pg.page == page && pg.limit == limit
    && 0 <= start && start + |pg.data| <= |s|
    && pg.data == s[start..start + |pg.data|]
    && (limit != 0 ==> |pg.data| == Min(Abs(limit), |s| - start) && pg.totalPages == Some(CeilDiv(|s|, limit)))
    && (limit == 0 ==> pg.data == s && pg.totalPages.None?)
  }

  /**
   * The driver applies `skip` before `limit` whatever their order in the
   * chain; a negative `skip` is refused by the server, `limit(0)` means no
   * limit, and a negative limit returns that many records in one batch.
   */
  function Paginate<T>(s: seq<T>, page: int, limit: int): (r: Result<Page<T>, string>)
    ensures r.Err? <==> (page - 1) * limit < 0
    ensures r.Ok? ==> PageOf(r.value, s, page, limit)
    ensures r.Ok? && limit > 0 ==> r.value.totalPages.Some? && var tp := r.value.totalPages.value;
      && tp >= 0 && tp * limit >= |s|
      && (tp == 0 || (tp - 1) * limit < |s|)
  {
    var skip := (page - 1) * limit;
    if skip < 0 then Err("skip value must be non-negative")
    else
      var start := Min(skip, |s|);
      var end := if limit == 0 then |s| else Min(start + Abs(limit), |s|);
      var total := if limit == 0 then None else Some(CeilDiv(|s|, limit));
      Ok(Page(s[start..end], |s|, page, limit, total))
  }

  /**
   * With a positive limit the pages tile the result: record `k` is at
   * position `k % limit` of page `k / limit + 1`, and that page is within
   * `totalPages`.
   */
  lemma {:induction false} PageOfRecord<T>(s: seq<T>, limit: int, k: nat)
    requires limit > 0 && k < |s|
    ensures var p := k / limit + 1;
      && p >= 1
      && Paginate(s, p, limit).Ok?
      && k % limit < |Paginate(s, p, limit).value.data|
      && Paginate(s, p, limit).value.data[k % limit] == s[k]
      && p <= Paginate(s, p, limit).value.totalPages.value
  {
    var p := k / limit + 1;
    var q := k / limit;
    assert k == q * limit + k % limit;
    assert (p - 1) * limit == q * limit;
    var r := Paginate(s, p, limit);
    var tp := r.value.totalPages.value;
    assert q * limit < tp * limit;
    MulCancel(q, tp, limit);
  }

  lemma MulCancel(a: int, b: int, c: int)
    requires c > 0 && a * c < b * c
    ensures a < b
  {
    assert (b - a) * c == b * c - a * c;
  }

  /** Newest first: the reverse of insertion order (`sort({ created_at: -1 })`). */
  function Reverse<T>(s: seq<T>): (r: seq<T>)
    ensures |r| == |s|
    ensures forall i :: 0 <= i < |s| ==> r[i] == s[|s| - 1 - i]
  {
    if s == [] then [] else Reverse(s[1..]) + [s[0]]
  }

  /** Reversal keeps the elements. */
  lemma ReverseElements<T>(s: seq<T>, x: T)
    ensures x in Reverse(s) <==> x in s
  {
    var r := Reverse(s);
    if x in s {
      var k :| 0 <= k < |s| && s[k] == x;
      assert r[|s| - 1 - k] == x;
    }
    if x in r {
      var k :| 0 <= k < |r| && r[k] == x;
      assert s[|s| - 1 - k] == x;
    }
  }

  /** With a positive limit, paging through the result reaches every record. */
  lemma EveryRecordOnSomePage<T>(s: seq<T>, limit: int, x: T)
    requires limit > 0 && x in s
    ensures exists p :: p >= 1 && Paginate(s, p, limit).Ok? && x in Paginate(s, p, limit).value.data
  {
    var k :| 0 <= k < |s| && s[k] == x;
    PageOfRecord(s, limit, k);
    var p := k / limit + 1;
    var data := Paginate(s, p, limit).value.data;
    var j := k % limit;
    assert 0 <= j < |data| && data[j] == x;
    assert x in data;
  }
}

=== FILE: roles.dfy ===
/**
 * The authorisation gates of the backend (`roleMiddleware`): they read the
 * identity the authentication middleware attached to the request and
 * either let the request through or answer 401 / 403.
 */
module Roles {
  import opened Base

  /** `req.usuario` as `autenticar` attaches it. */
  datatype Identity = Identity(id: string, nome: string, cpf: string, role: string, tipo: string, plano: string)

  /** A middleware's decision: call `next()`, or answer with a status and message. */
  datatype Gate = Proceed | Deny(status: nat, message: string)

  const MsgUnauthenticated := "Usuário não autenticado"
  const MsgRoleDenied := "Acesso negado. Você não tem permissão para acessar este recurso."
  const MsgOwnDataOnly := "Acesso negado. Você só pode acessar seus próprios dados."

  /**
   * `verificarRole(...rolesPermitidas)`: no identity gives 401; a role
   * outside the list gives 403; otherwise the request proceeds.
   */
  function VerificarRole(usuario: Option<Identity>, permitidas: seq<string>): (g: Gate)
    ensures g.Proceed? <==> usuario.Some? && usuario.value.role in permitidas
    ensures usuario.None? ==> g == Deny(401, MsgUnauthenticated)
    ensures usuario.Some? && usuario.value.role !in permitidas ==> g == Deny(403, MsgRoleDenied)
  {
    match usuario
    case None => Deny(401, MsgUnauthenticated)
    case Some(u) => if u.role in permitidas then Proceed else Deny(403, MsgRoleDenied)
  }

  /** `apenasAdmin = verificarRole('admin')`. */
  function ApenasAdmin(usuario: Option<Identity>): (g: Gate)
    ensures g.Proceed? <==> usuario.Some? && usuario.value.role == "admin"
  {
    VerificarRole(usuario, ["admin"])
  }

  /** `apenasMedicos = verificarRole('medico', 'admin')`: patients are turned away with 403. */
  function ApenasMedicos(usuario: Option<Identity>): (g: Gate)
    ensures g.Proceed? <==> usuario.Some? && (usuario.value.role == "medico" || usuario.value.role == "admin")
    ensures usuario.Some? && usuario.value.role == "paciente" ==> g == Deny(403, MsgRoleDenied)
  {
    VerificarRole(usuario, ["medico", "admin"])
  }

  /**
   * `verificarProprioOuAdmin(paramName)`: no identity gives 401; an admin
   * proceeds for any resource; anyone else proceeds only when the route
   * parameter is their own id (a missing parameter matches nobody).
   */
  function VerificarProprioOuAdmin(usuario: Option<Identity>, params: map<string, string>, paramName: string): (g: Gate)
    ensures usuario.None? ==> g == Deny(401, MsgUnauthenticated)
    ensures usuario.Some? ==>
      (g.Proceed? <==> usuario.value.role == "admin" || (paramName in params && params[paramName] == usuario.value.id))
    ensures usuario.Some? && !g.Proceed? ==> g == Deny(403, MsgOwnDataOnly)
  {
    match usuario
    case None => Deny(401, MsgUnauthenticated)
    case Some(u) =>
      var isAdmin := u.role == "admin";
      var isProprio := paramName in params && params[paramName] == u.id;
      if !isAdmin && !isProprio then Deny(403, MsgOwnDataOnly) else Proceed
  }

  /**
   * The gates form a hierarchy: whoever passes `apenasAdmin` passes
   * `apenasMedicos` and the ownership gate for every resource.
   */
  lemma AdminPassesEveryGate(usuario: Option<Identity>, params: map<string, string>, paramName: string)
    requires ApenasAdmin(usuario).Proceed?
    ensures ApenasMedicos(usuario).Proceed?
    ensures VerificarProprioOuAdmin(usuario, params, paramName).Proceed?
  {
  }

  /**
   * 401 comes before 403: without an identity every gate answers 401,
   * and with one no gate ever answers 401.
   */
  lemma UnauthenticatedBeforeForbidden(usuario: Option<Identity>, permitidas: seq<string>,
                                       params: map<string, string>, paramName: string)
    ensures (VerificarRole(usuario, permitidas).Deny? && VerificarRole(usuario, permitidas).status == 401) <==> usuario.None?
    ensures (VerificarProprioOuAdmin(usuario, params, paramName).Deny?
             && VerificarProprioOuAdmin(usuario, params, paramName).status == 401) <==> usuario.None?
  {
  }

  /** Widening the allowed list never turns a pass into a denial. */
  lemma VerificarRoleMonotone(usuario: Option<Identity>, permitidas: seq<string>, mais: seq<string>)
    requires forall r :: r in permitidas ==> r in mais
    ensures VerificarRole(usuario, permitidas).Proceed? ==> VerificarRole(usuario, mais).Proceed?
  {
  }
}

=== FILE: schema.dfy ===
/**
 * Field formats and enumerations shared by the three Mongoose schemas
 * (Medico, Paciente, Consulta): the regular expressions they declare,
 * the `trim` + length rule on names, and the plan and role enums.
 */
module Schema {
  import opened Base
  import opened Js
  import opened Text

  // ---------------------------------------------------------------------
  // Formats
  // ---------------------------------------------------------------------

  /** `/^[0-9]{11}$/`: the stored CPF is exactly eleven ASCII digits. */
  predicate CpfShape(s: string)
  {
    |s| == 11 && AllDigits(s)
  }

  /** `/^\d{4}-\d{2}-\d{2}$/` */
  predicate DateShape(s: string)
  {
    && |s| == 10
    && IsDigit(s[0]) && IsDigit(s[1]) && IsDigit(s[2]) && IsDigit(s[3])
    && s[4] == '-'
    && IsDigit(s[5]) && IsDigit(s[6])
    && s[7] == '-'
    && IsDigit(s[8]) && IsDigit(s[9])
  }

  /** `/^([0-1][0-9]|2[0-3]):[0-5][0-9]$/`: a 24-hour `HH:MM` time. */
  predicate TimeShape(s: string)
  {
    && |s| == 5
    && (('0' <= s[0] <= '1' && IsDigit(s[1])) || (s[0] == '2' && '0' <= s[1] <= '3'))
    && s[2] == ':'
    && '0' <= s[3] <= '5' && IsDigit(s[4])
  }

  /** The hour and minute a well-formed `HH:MM` time denotes. */
  function TimeMinutes(s: string): (m: int)
    requires TimeShape(s)
    ensures 0 <= m < 24 * 60
  {
    var h := DigitValue(s[0]) * 10 + DigitValue(s[1]);
    var mi := DigitValue(s[3]) * 10 + DigitValue(s[4]);
    h * 60 + mi
  }

  /** `/^[0-9]{10,15}$/`, the telephone rule of the patient schema. */
  predicate PhoneShape(s: string)
  {
    10 <= |s| <= 15 && AllDigits(s)
  }

  /** `[^\s@]` */
  predicate EmailChar(c: char)
  {
    !IsJsSpace(c) && c != '@'
  }

  predicate EmailChars(s: string)
  {
    forall i :: 0 <= i < |s| ==> EmailChar(s[i])
  }

  /** `[^\s@]+\.[^\s@]+`: no space or `@`, and a dot with a character on each side. */
  predicate EmailDomain(d: string)
  {
    EmailChars(d) && exists k :: 0 < k < |d| - 1 && d[k] == '.'
  }

  /** `/^[^\s@]+@[^\s@]+\.[^\s@]+$/`, the e-mail rule of the patient schema. */
  predicate EmailShape(s: string)
  {
    exists i :: 0 < i < |s| && s[i] == '@' && EmailChars(s[..i]) && EmailDomain(s[i + 1..])
  }

  /** An e-mail address holds exactly one `@`. */
  lemma EmailHasOneAt(s: string, i: int, j: int)
    requires EmailShape(s)
    requires 0 <= i < |s| && 0 <= j < |s| && s[i] == '@' && s[j] == '@'
    ensures i == j
  {
    var k :| 0 < k < |s| && s[k] == '@' && EmailChars(s[..k]) && EmailDomain(s[k + 1..]);
    assert forall m :: 0 <= m < |s| && m != k ==> s[m] != '@' by {
      forall m | 0 <= m < |s| && m != k
        ensures s[m] != '@'
      {
        if m < k {
          assert s[..k][m] == s[m];
        } else {
          assert s[k + 1..][m - k - 1] == s[m];
        }
      }
    }
  }

  /** A name as the schema stores it: trimmed, 3 to 150 characters. */
  predicate NameOk(n: string)
  {
    Trim(n) == n && 3 <= |n| <= 150
  }

  // ---------------------------------------------------------------------
  // Health plans
  // ---------------------------------------------------------------------

  /** The eight values of `PLANOS`. */
  datatype Plan = Nenhum | Unimed | Amil | Bradesco | Sulamerica | Hapvida | Notredame | Prevent

  const PlanNames: seq<string> :=
    ["nenhum", "unimed", "amil", "bradesco", "sulamerica", "hapvida", "notredame", "prevent"]

  function PlanName(p: Plan): string
  {
    match p
    case Nenhum => "nenhum"
    case Unimed => "unimed"
    case Amil => "amil"
    case Bradesco => "bradesco"
    case Sulamerica => "sulamerica"
    case Hapvida => "hapvida"
    case Notredame => "notredame"
    case Prevent => "prevent"
  }

  /** The enum validator: a string is a plan iff it is one of `PLANOS`. */
  function ParsePlan(s: string): (r: Option<Plan>)
    ensures r.Some? ==> PlanName(r.value) == s
    ensures r.None? ==> forall p: Plan :: PlanName(p) != s
    ensures r.Some? <==> s in PlanNames
  {
    if s == "nenhum" then Some(Nenhum)
    else if s == "unimed" then Some(Unimed)
    else if s == "amil" then Some(Amil)
    else if s == "bradesco" then Some(Bradesco)
    else if s == "sulamerica" then Some(Sulamerica)
    else if s == "hapvida" then Some(Hapvida)
    else if s == "notredame" then Some(Notredame)
    else if s == "prevent" then Some(Prevent)
    else None
  }

  lemma PlanNameRoundTrip(p: Plan)
    ensures ParsePlan(PlanName(p)) == Some(p)
  {
  }

  // ---------------------------------------------------------------------
  // Roles
  // ---------------------------------------------------------------------

  /**
   * The roles an authenticated identity carries.  A doctor's stored role is
   * `medico` or `admin`; `paciente` is given to every patient.
   */
  datatype Role = Medico | Admin | Paciente

  function RoleName(r: Role): string
  {
    match r
    case Medico => "medico"
    case Admin => "admin"
    case Paciente => "paciente"
  }

  /** The doctor schema's role enum: `medico` or `admin`. */
  function ParseDoctorRole(s: string): (r: Option<Role>)
    ensures r.Some? ==> RoleName(r.value) == s && r.value != Paciente
    ensures r.None? ==> forall x: Role :: x != Paciente ==> RoleName(x) != s
  {
    if s == "medico" then Some(Medico)
    else if s == "admin" then Some(Admin)
    else None
  }

  // ---------------------------------------------------------------------
  // Validation errors and JSON output
  // ---------------------------------------------------------------------

  /** One entry of a Mongoose `ValidationError`: the failing path and its message. */
  datatype FieldError = FieldError(campo: string, mensagem: string)

  /**
   * The errors of a document from the outcome of each path's validators,
   * in schema order: a `ValidationError` lists exactly the failing paths.
   */
  function Collect(checks: seq<Option<FieldError>>): (errs: seq<FieldError>)
    ensures errs == [] <==> forall k :: 0 <= k < |checks| ==> checks[k].None?
    ensures |errs| <= |checks|
  {
    if checks == [] then []
    else (if checks[0].Some? then [checks[0].value] else []) + Collect(checks[1..])
  }

  /** Seven path checks report nothing exactly when each of them passes. */
  lemma CollectSeven(c0: Option<FieldError>, c1: Option<FieldError>, c2: Option<FieldError>, c3: Option<FieldError>,
                     c4: Option<FieldError>, c5: Option<FieldError>, c6: Option<FieldError>)
    ensures Collect([c0, c1, c2, c3, c4, c5, c6]) == [] <==>
      c0.None? && c1.None? && c2.None? && c3.None? && c4.None? && c5.None? && c6.None?
  {
    var checks := [c0, c1, c2, c3, c4, c5, c6];
    assert (forall k :: 0 <= k < |checks| ==> checks[k].None?) <==>
      checks[0].None? && checks[1].None? && checks[2].None? && checks[3].None?
      && checks[4].None? && checks[5].None? && checks[6].None?;
  }

  /** A stored document: field name to JSON scalar. */
  type Document = map<string, Value>

  /**
   * A `findOne` equality filter on one path: `{ path: value }`, or
   * `{ path: { ... } }` asking that the path hold an embedded object.
   */
  datatype Filter = PathIs(path: string, value: Value) | PathHoldsObject(path: string, inner: Filter)

  /**
   * MongoDB's equality match, with the filter passed through unchanged
   * (`strictQuery: false`, Mongoose's default since version 7): a missing
   * path equals only `null`.  A stored document holds scalars only, so no
   * path of it equals an embedded object.
   */
  predicate FilterMatches(doc: Document, f: Filter)
  {
    match f
    case PathIs(path, value) => if path in doc then doc[path] == value else value == Null
    case PathHoldsObject(_, _) => false
  }

  /** `Model.findOne(filter)`: the first document, in store order, that the filter matches. */
  function FindOne(docs: seq<Document>, f: Filter): (r: Option<nat>)
    ensures r.Some? ==> r.value < |docs| && FilterMatches(docs[r.value], f)
    ensures r.Some? ==> forall k :: 0 <= k < r.value ==> !FilterMatches(docs[k], f)
    ensures r.None? <==> forall k :: 0 <= k < |docs| ==> !FilterMatches(docs[k], f)
  {
    if docs == [] then None
    else if FilterMatches(docs[0], f) then Some(0)
    else match FindOne(docs[1..], f)
      case None =>
        assert forall k :: 1 <= k < |docs| ==> docs[k] == docs[1..][k - 1];
        None
      case Some(k) =>
        assert forall j :: 1 <= j < k + 1 ==> docs[j] == docs[1..][j - 1];
        Some(k + 1)
  }

  /**
   * The schemas' `toJSON` transform: `ret.id = ret._id`, then `_id`, `__v`
   * and every field in `hidden` are deleted.
   */
  function ToJson(doc: Document, hidden: set<string>): (ret: Document)
    requires "_id" in doc
    requires "id" !in hidden
    ensures "_id" !in ret && "__v" !in ret
    ensures forall h :: h in hidden ==> h !in ret
    ensures "id" in ret && ret["id"] == doc["_id"]
    ensures forall k :: k in doc && k !in hidden && k != "_id" && k != "__v" && k != "id" ==> k in ret && ret[k] == doc[k]
    ensures forall k :: k in ret && k != "id" ==> k in doc
  {
    var withId := doc["id" := doc["_id"]];
    map k | k in withId && k !in hidden && k != "_id" && k != "__v" :: withId[k]
  }

  /** `nome` of both person schemas: required, then 3 to 150 characters. */
  function NomeCheck(nome: string): (e: Option<FieldError>)
    ensures e.None? <==> 3 <= |nome| <= 150
  {
    if nome == "" then Some(FieldError("nome", "Nome é obrigatório"))
    else if |nome| < 3 || |nome| > 150 then Some(FieldError("nome", "Nome deve ter entre 3 e 150 caracteres"))
    else None
  }

  /** `cpf` of both person schemas: required, then `/^[0-9]{11}$/`. */
  function CpfCheck(cpf: string): (e: Option<FieldError>)
    ensures e.None? <==> CpfShape(cpf)
  {
    if cpf == "" then Some(FieldError("cpf", "CPF é obrigatório"))
    else if !CpfShape(cpf) then Some(FieldError("cpf", "CPF deve conter exatamente 11 dígitos numéricos"))
    else None
  }

  /** A path whose only rule is `required`. */
  function RequiredCheck(campo: string, v: string, mensagem: string): (e: Option<FieldError>)
    ensures e.None? <==> v != ""
    ensures e.Some? ==> e.value.campo == campo
  {
    if v == "" then Some(FieldError(campo, mensagem)) else None
  }

  /** A path whose only rule is an enum. */
  function EnumCheck(campo: string, v: string, values: seq<string>, mensagem: string): (e: Option<FieldError>)
    ensures e.None? <==> v in values
    ensures e.Some? ==> e.value.campo == campo
  {
    if v in values then None else Some(FieldError(campo, mensagem))
  }

  /** The `path: message` piece a `ValidationError` message lists for one error. */
  function Piece(e: FieldError): string
  {
    e.campo + ": " + e.mensagem
  }

  /** The pieces joined with `, `; every error's piece appears, the first one leading. */
  function JoinErrors(errs: seq<FieldError>): (r: string)
    ensures r == [] <==> errs == []
    ensures errs != [] ==> StartsWith(r, Piece(errs[0]))
    ensures forall k :: 0 <= k < |errs| ==> OccursFrom(r, Piece(errs[k]), 0)
  {
    if errs == [] then ""
    else if |errs| == 1 then
      assert OccursAt(Piece(errs[0]), Piece(errs[0]), 0);
      Piece(errs[0])
    else
      var head := Piece(errs[0]) + ", ";
      var r := head + JoinErrors(errs[1..]);
      assert r[..|Piece(errs[0])|] == Piece(errs[0]);
      assert OccursAt(r, Piece(errs[0]), 0);
      PiecesAfterPrefix(head, JoinErrors(errs[1..]), errs[1..]);
      assert forall k :: 1 <= k < |errs| ==> errs[k] == errs[1..][k - 1];
      r
  }

  /** Pieces found in `t` are found in `a + t`, at or after `|a|`. */
  lemma PiecesAfterPrefix(a: string, t: string, errs: seq<FieldError>)
    requires forall k :: 0 <= k < |errs| ==> OccursFrom(t, Piece(errs[k]), 0)
    ensures forall k :: 0 <= k < |errs| ==> OccursFrom(a + t, Piece(errs[k]), |a|)
  {
    forall k | 0 <= k < |errs|
      ensures OccursFrom(a + t, Piece(errs[k]), |a|)
    {
      var i :| 0 <= i <= |t| && OccursAt(t, Piece(errs[k]), i);
      OccursAfterPrefix(a, t, Piece(errs[k]), i);
      assert |a| <= |a| + i <= |a + t| && OccursAt(a + t, Piece(errs[k]), |a| + i);
    }
  }

  /** `error.message` of a Mongoose `ValidationError` raised by model `model`: every error's `path: message` follows the prefix. */
  function ValidationMessage(model: string, errs: seq<FieldError>): (m: string)
    ensures StartsWith(m, model + " validation failed: ")
    ensures errs != [] ==> OccursAt(m, Piece(errs[0]), |model + " validation failed: "|)
    ensures forall k :: 0 <= k < |errs| ==> OccursFrom(m, Piece(errs[k]), |model + " validation failed: "|)
  {
    var prefix := model + " validation failed: ";
    var m := prefix + JoinErrors(errs);
    assert m[..|prefix|] == prefix;
    PiecesAfterPrefix(prefix, JoinErrors(errs), errs);
    if errs != [] then
      assert OccursAt(JoinErrors(errs), Piece(errs[0]), 0);
      OccursAfterPrefix(prefix, JoinErrors(errs), Piece(errs[0]), 0);
      m
    else m
  }
}

=== FILE: store.dfy ===
/**
 * The in-memory stand-in for the Mongoose collections of the backend: the
 * three record collections and the audit log, in insertion order, with
 * lookup by `_id`, the unique indexes, and the replies the controllers send.
 */
module Database {
  import opened Base
  import opened Text
  import opened Schema
  import opened MedicoModel
  import opened PacienteModel
  import opened ConsultaModel
  import opened AuditLog
  import HashUtils
  import JwtUtils

  datatype Db = Db(
    doctors: seq<Doctor>,
    patients: seq<Patient>,
    appointments: seq<Appointment>,
    audit: seq<AuditEntry>)

  /**
   * What a request sees besides the store: the clock (seconds), the
   * `randomUUID()` the next created record receives, whether the audit
   * collection accepts writes, the crypto libraries, and the token
   * lifetime `JWT_EXPIRES_IN` in seconds (`None` when it is not set).
   */
  datatype Env = Env(
    now: int,
    freshId: string,
    auditWritable: bool,
    bcrypt: HashUtils.Bcrypt,
    keys: JwtUtils.Keys,
    jwtExpiresIn: Option<int>)

  /**
   * An HTTP reply: `success` carries the status, message and payload;
   * `failure` the status, `message` and, for a validation error, `erros`.
   */
  datatype Reply<+T> =
    | Success(status: nat, message: string, data: T)
    | Failure(status: nat, message: string, erros: seq<FieldError>)

  /** A request's effect: the store afterwards and the reply sent. */
  datatype Outcome<+T> = Outcome(db: Db, reply: Reply<T>)

  /** `Model.findById(id)`: the position of the first record with that `_id`. */
  function DoctorIndex(ds: seq<Doctor>, id: string): (r: Option<nat>)
    ensures r.Some? ==> r.value < |ds| && ds[r.value].id == id
    ensures r.Some? ==> forall k :: 0 <= k < r.value ==> ds[k].id != id
    ensures r.None? ==> forall k :: 0 <= k < |ds| ==> ds[k].id != id
  {
    if ds == [] then None
    else if ds[0].id == id then Some(0)
    else match DoctorIndex(ds[1..], id)
      case None => None
      case Some(k) => Some(k + 1)
  }

  function PatientIndex(ps: seq<Patient>, id: string): (r: Option<nat>)
    ensures r.Some? ==> r.value < |ps| && ps[r.value].id == id
    ensures r.Some? ==> forall k :: 0 <= k < r.value ==> ps[k].id != id
    ensures r.None? ==> forall k :: 0 <= k < |ps| ==> ps[k].id != id
  {
    if ps == [] then None
    else if ps[0].id == id then Some(0)
    else match PatientIndex(ps[1..], id)
      case None => None
      case Some(k) => Some(k + 1)
  }

  function AppointmentIndex(as_: seq<Appointment>, id: string): (r: Option<nat>)
    ensures r.Some? ==> r.value < |as_| && as_[r.value].id == id
    ensures r.Some? ==> forall k :: 0 <= k < r.value ==> as_[k].id != id
    ensures r.None? ==> forall k :: 0 <= k < |as_| ==> as_[k].id != id
  {
    if as_ == [] then None
    else if as_[0].id == id then Some(0)
    else match AppointmentIndex(as_[1..], id)
      case None => None
      case Some(k) => Some(k + 1)
  }

  /** `findOne({ cpf, _id: { $ne: except } })` on doctors (`except` absent on create). */
  predicate DoctorCpfTaken(ds: seq<Doctor>, cpf: string, except: Option<string>)
  {
    exists k :: 0 <= k < |ds| && ds[k].cpf == cpf && Some(ds[k].id) != except
  }

  /** The same on `crm`; the `trim` setter also applies to the query value. */
  predicate DoctorCrmTaken(ds: seq<Doctor>, crm: string, except: Option<string>)
  {
    exists k :: 0 <= k < |ds| && ds[k].crm == Trim(crm) && Some(ds[k].id) != except
  }

  predicate PatientCpfTaken(ps: seq<Patient>, cpf: string, except: Option<string>)
  {
    exists k :: 0 <= k < |ps| && ps[k].cpf == cpf && Some(ps[k].id) != except
  }

  /** The stored doctors: valid, with distinct `_id`, and the unique `cpf` and `crm` indexes hold. */
  predicate DoctorsConsistent(ds: seq<Doctor>)
  {
    && (forall k :: 0 <= k < |ds| ==> ValidDoctor(ds[k]))
    && (forall i, j :: 0 <= i < j < |ds| ==> ds[i].id != ds[j].id && ds[i].cpf != ds[j].cpf && ds[i].crm != ds[j].crm)
  }

  /** The stored patients: valid, with distinct `_id`, and the unique `cpf` index holds. */
  predicate PatientsConsistent(ps: seq<Patient>)
  {
    && (forall k :: 0 <= k < |ps| ==> ValidPatient(ps[k]))
    && (forall i, j :: 0 <= i < j < |ps| ==> ps[i].id != ps[j].id && ps[i].cpf != ps[j].cpf)
  }

  /** Appending a valid doctor whose keys no stored doctor holds keeps the doctors consistent. */
  lemma {:induction false} AppendDoctorConsistent(ds: seq<Doctor>, d: Doctor)
    requires DoctorsConsistent(ds) && ValidDoctor(d)
    requires forall k :: 0 <= k < |ds| ==> ds[k].id != d.id && ds[k].cpf != d.cpf && ds[k].crm != d.crm
    ensures DoctorsConsistent(ds + [d])
  {
    var r := ds + [d];
    forall k | 0 <= k < |r|
      ensures ValidDoctor(r[k])
    {
      if k < |ds| {
        assert r[k] == ds[k];
      }
    }
    forall a, b | 0 <= a < b < |r|
      ensures r[a].id != r[b].id && r[a].cpf != r[b].cpf && r[a].crm != r[b].crm
    {
      assert r[a] == ds[a];
      if b < |ds| {
        assert r[b] == ds[b];
      }
    }
  }

  /** Replacing doctor `i` by a valid doctor whose keys no other doctor holds keeps the doctors consistent. */
  lemma {:induction false} ReplaceDoctorConsistent(ds: seq<Doctor>, i: nat, d: Doctor)
    requires DoctorsConsistent(ds) && i < |ds| && ValidDoctor(d)
    requires forall k :: 0 <= k < |ds| && k != i ==> ds[k].id != d.id && ds[k].cpf != d.cpf && ds[k].crm != d.crm
    ensures DoctorsConsistent(ds[i := d])
  {
    var r := ds[i := d];
    forall k | 0 <= k < |r|
      ensures ValidDoctor(r[k])
    {
      if k != i {
        assert r[k] == ds[k];
      }
    }
    forall a, b | 0 <= a < b < |r|
      ensures r[a].id != r[b].id && r[a].cpf != r[b].cpf && r[a].crm != r[b].crm
    {
      if a == i {
        assert r[b] == ds[b];
      } else if b == i {
        assert r[a] == ds[a];
      } else {
        assert r[a] == ds[a] && r[b] == ds[b];
      }
    }
  }

  /** Removing a doctor keeps the doctors consistent. */
  lemma {:induction false} RemoveDoctorConsistent(ds: seq<Doctor>, i: nat)
    requires DoctorsConsistent(ds) && i < |ds|
    ensures DoctorsConsistent(RemoveAt(ds, i))
  {
    var r := RemoveAt(ds, i);
    forall a | 0 <= a < |r|
      ensures ValidDoctor(r[a])
    {
      var a' := if a < i then a else a + 1;
      assert r[a] == ds[a'];
    }
    forall a, b | 0 <= a < b < |r|
      ensures r[a].id != r[b].id && r[a].cpf != r[b].cpf && r[a].crm != r[b].crm
    {
      var a' := if a < i then a else a + 1;
      var b' := if b < i then b else b + 1;
      assert r[a] == ds[a'] && r[b] == ds[b'];
    }
  }

  /** Appending a valid patient whose keys no stored patient holds keeps the patients consistent. */
  lemma {:induction false} AppendPatientConsistent(ps: seq<Patient>, p: Patient)
    requires PatientsConsistent(ps) && ValidPatient(p)
    requires forall k :: 0 <= k < |ps| ==> ps[k].id != p.id && ps[k].cpf != p.cpf
    ensures PatientsConsistent(ps + [p])
  {
    var r := ps + [p];
    forall k | 0 <= k < |r|
      ensures ValidPatient(r[k])
    {
      if k < |ps| {
        assert r[k] == ps[k];
      }
    }
    forall a, b | 0 <= a < b < |r|
      ensures r[a].id != r[b].id && r[a].cpf != r[b].cpf
    {
      assert r[a] == ps[a];
      if b < |ps| {
        assert r[b] == ps[b];
      }
    }
  }

  /** The stored appointments: valid, with distinct `_id` (the slot index is not unique). */
  predicate AppointmentsConsistent(as_: seq<Appointment>)
  {
    && (forall k :: 0 <= k < |as_| ==> ValidAppointment(as_[k]))
    && (forall i, j :: 0 <= i < j < |as_| ==> as_[i].id != as_[j].id)
  }
  /** Replacing patient `i` by a valid patient whose keys no other patient holds keeps the patients consistent. */
  lemma {:induction false} ReplacePatientConsistent(ps: seq<Patient>, i: nat, p: Patient)
    requires PatientsConsistent(ps) && i < |ps| && ValidPatient(p)
    requires forall k :: 0 <= k < |ps| && k != i ==> ps[k].id != p.id && ps[k].cpf != p.cpf
    ensures PatientsConsistent(ps[i := p])
  {
    var r := ps[i := p];
    forall k | 0 <= k < |r|
      ensures ValidPatient(r[k])
    {
      if k != i {
        assert r[k] == ps[k];
      }
    }
    forall a, b | 0 <= a < b < |r|
      ensures r[a].id != r[b].id && r[a].cpf != r[b].cpf
    {
      if a == i {
        assert r[b] == ps[b];
      } else if b == i {
        assert r[a] == ps[a];
      } else {
        assert r[a] == ps[a] && r[b] == ps[b];
      }
    }
  }

  /** Removing a patient keeps the patients consistent. */
  lemma {:induction false} RemovePatientConsistent(ps: seq<Patient>, i: nat)
    requires PatientsConsistent(ps) && i < |ps|
    ensures PatientsConsistent(RemoveAt(ps, i))
  {
    var r := RemoveAt(ps, i);
    forall a | 0 <= a < |r|
      ensures ValidPatient(r[a])
    {
      var a' := if a < i then a else a + 1;
      assert r[a] == ps[a'];
    }
    forall a, b | 0 <= a < b < |r|
      ensures r[a].id != r[b].id && r[a].cpf != r[b].cpf
    {
      var a' := if a < i then a else a + 1;
      var b' := if b < i then b else b + 1;
      assert r[a] == ps[a'] && r[b] == ps[b'];
    }
  }

  /** Appending a valid appointment with a fresh id keeps the appointments consistent. */
  lemma {:induction false} AppendAppointmentConsistent(as_: seq<Appointment>, x: Appointment)
    requires AppointmentsConsistent(as_) && ValidAppointment(x)
    requires forall k :: 0 <= k < |as_| ==> as_[k].id != x.id
    ensures AppointmentsConsistent(as_ + [x])
  {
    var r := as_ + [x];
    forall k | 0 <= k < |r|
      ensures ValidAppointment(r[k])
    {
      if k < |as_| {
        assert r[k] == as_[k];
      }
    }
    forall a, b | 0 <= a < b < |r|
      ensures r[a].id != r[b].id
    {
      assert r[a] == as_[a];
      if b < |as_| {
        assert r[b] == as_[b];
      }
    }
  }

  /** With unique ids, the lookup by a stored appointment's id finds that appointment. */
  lemma AppointmentIndexIs(as_: seq<Appointment>, i: nat)
    requires i < |as_|
    requires forall k :: 0 <= k < i ==> as_[k].id != as_[i].id
    ensures AppointmentIndex(as_, as_[i].id) == Some(i)
  {
  }

  predicate Consistent(db: Db)
  {
    DoctorsConsistent(db.doctors) && PatientsConsistent(db.patients) && AppointmentsConsistent(db.appointments)
  }

  /** No doctor other than the one at position `at` shares `d`'s `_id`, `cpf` or `crm`. */
  predicate DoctorKeysFree(ds: seq<Doctor>, d: Doctor, at: Option<nat>)
  {
    forall k :: 0 <= k < |ds| && Some(k) != at ==> ds[k].id != d.id && ds[k].cpf != d.cpf && ds[k].crm != d.crm
  }

  /** No patient other than the one at position `at` shares `p`'s `_id` or `cpf`. */
  predicate PatientKeysFree(ps: seq<Patient>, p: Patient, at: Option<nat>)
  {
    forall k :: 0 <= k < |ps| && Some(k) != at ==> ps[k].id != p.id && ps[k].cpf != p.cpf
  }

  /**
   * The unique index a doctor stored at position `at` (or appended, when
   * `at` is `None`) would violate, as `keyPattern` names it: `_id` first,
   * then `cpf`, then `crm`.
   */
  function DoctorDuplicateKey(ds: seq<Doctor>, d: Doctor, at: Option<nat>): (campo: Option<string>)
    ensures campo.None? <==> forall k :: 0 <= k < |ds| && Some(k) != at ==>
      ds[k].id != d.id && ds[k].cpf != d.cpf && ds[k].crm != d.crm
    ensures campo.Some? ==> campo.value in {"_id", "cpf", "crm"}
  {
    if exists k :: 0 <= k < |ds| && Some(k) != at && ds[k].id == d.id then Some("_id")
    else if exists k :: 0 <= k < |ds| && Some(k) != at && ds[k].cpf == d.cpf then Some("cpf")
    else if exists k :: 0 <= k < |ds| && Some(k) != at && ds[k].crm == d.crm then Some("crm")
    else None
  }

  function PatientDuplicateKey(ps: seq<Patient>, p: Patient, at: Option<nat>): (campo: Option<string>)
    ensures campo.None? <==> forall k :: 0 <= k < |ps| && Some(k) != at ==> ps[k].id != p.id && ps[k].cpf != p.cpf
    ensures campo.Some? ==> campo.value in {"_id", "cpf"}
  {
    if exists k :: 0 <= k < |ps| && Some(k) != at && ps[k].id == p.id then Some("_id")
    else if exists k :: 0 <= k < |ps| && Some(k) != at && ps[k].cpf == p.cpf then Some("cpf")
    else None
  }

  const MsgCpfTaken := "CPF já cadastrado"
  const MsgCrmTaken := "CRM já cadastrado"
  const MsgValidation := "Erro de validação"

  /** The reply every controller sends for a duplicate-key error (code 11000). */
  function DuplicateKeyMessage(campo: string): (m: string)
    ensures campo in {"_id", "cpf", "crm"} ==> m != MsgCpfTaken && m != MsgCrmTaken && m != MsgValidation
  {
    assert campo in {"_id", "cpf", "crm"} ==> (campo + " já cadastrado")[0] == campo[0];
    campo + " já cadastrado"
  }

  /** `AuditLog.registrar(...)` against the store: only the audit log can change. */
  function Audit(db: Db, req: AuditRequest, env: Env): (r: Db)
    ensures r.doctors == db.doctors && r.patients == db.patients && r.appointments == db.appointments
    ensures |db.audit| <= |r.audit| <= |db.audit| + 1 && r.audit[..|db.audit|] == db.audit
  {
    RegistrarAppendOnly(db.audit, req, env.now, env.auditWritable);
    db.(audit := Registrar(db.audit, req, env.now, env.auditWritable).log)
  }

  /** Removing one record: the others keep their order. */
  function RemoveAt<T>(s: seq<T>, i: nat): (r: seq<T>)
    requires i < |s|
    ensures |r| == |s| - 1
    ensures forall k :: 0 <= k < i ==> r[k] == s[k]
    ensures forall k :: i <= k < |r| ==> r[k] == s[k + 1]
  {
    s[..i] + s[i + 1..]
  }

  /** Removal keeps exactly the other elements. */
  lemma RemoveAtElements<T>(s: seq<T>, i: nat, x: T)
    requires i < |s|
    ensures x in RemoveAt(s, i) <==> exists k :: 0 <= k < |s| && k != i && s[k] == x
  {
    var r := RemoveAt(s, i);
    if x in r {
      var k :| 0 <= k < |r| && r[k] == x;
      if k < i {
        assert s[k] == x;
      } else {
        assert s[k + 1] == x;
      }
    }
    if exists k :: 0 <= k < |s| && k != i && s[k] == x {
      var k :| 0 <= k < |s| && k != i && s[k] == x;
      if k < i {
        assert r[k] == x;
      } else {
        assert r[k - 1] == x;
      }
    }
  }
}

=== FILE: text.dfy ===
/**
 * The JavaScript string operations the application relies on: the
 * `replace(/\D/g, '')` digit filter, `trim`, `startsWith`, first-occurrence
 * `replace`, `split` on one character, and the code-point ordering that the
 * database uses to compare and sort strings.
 */
module Text {
  import opened Base

  // ---------------------------------------------------------------------
  // Digits
  // ---------------------------------------------------------------------

  /** `\d` in a JavaScript regular expression without the `u` flag. */
  predicate IsDigit(c: char)
  {
    '0' <= c <= '9'
  }

  predicate AllDigits(s: string)
  {
    forall i :: 0 <= i < |s| ==> IsDigit(s[i])
  }

  /** The numeric value of a digit character, as `parseInt` reads it. */
  function DigitValue(c: char): (n: int)
    requires IsDigit(c)
    ensures 0 <= n <= 9
  {
    c as int - '0' as int
  }

  /** `s.replace(/\D/g, '')`: the digits of `s`, in their original order. */
  function Digits(s: string): (r: string)
    ensures AllDigits(r)
    ensures |r| <= |s|
  {
    if s == [] then []
    else if IsDigit(s[0]) then [s[0]] + Digits(s[1..])
    else Digits(s[1..])
  }

  /** Filtering a string that holds only digits changes nothing. */
  lemma {:induction false} DigitsOfDigits(s: string)
    requires AllDigits(s)
    ensures Digits(s) == s
  {
    if s != [] {
      DigitsOfDigits(s[1..]);
    }
  }

  /** The digit filter distributes over concatenation. */
  lemma {:induction false} DigitsConcat(a: string, b: string)
    ensures Digits(a + b) == Digits(a) + Digits(b)
  {
    if a == [] {
      assert a + b == b;
    } else {
      assert (a + b)[0] == a[0];
      assert (a + b)[1..] == a[1..] + b;
      DigitsConcat(a[1..], b);
    }
  }

  /** Filtering twice is filtering once. */
  lemma DigitsIdempotent(s: string)
    ensures Digits(Digits(s)) == Digits(s)
  {
    DigitsOfDigits(Digits(s));
  }

  /** Inserting a non-digit separator is invisible to the digit filter. */
  lemma DigitsSkipSeparator(a: string, c: char, b: string)
    requires !IsDigit(c)
    ensures Digits(a + [c] + b) == Digits(a) + Digits(b)
  {
    DigitsConcat(a + [c], b);
    DigitsConcat(a, [c]);
    assert Digits([c]) == [];
  }

  // ---------------------------------------------------------------------
  // Whitespace and trim
  // ---------------------------------------------------------------------

  /**
   * ECMAScript WhiteSpace and LineTerminator code points: the characters
   * that `\s` matches and that `String.prototype.trim` removes.
   */
  predicate IsJsSpace(c: char)
  {
    || c == '\t' || c == '\n' || c == '\U{000B}' || c == '\U{000C}' || c == '\r'
    || c == ' ' || c == '\U{00A0}' || c == '\U{1680}'
    || ('\U{2000}' <= c <= '\U{200A}')
    || c == '\U{2028}' || c == '\U{2029}' || c == '\U{202F}' || c == '\U{205F}'
    || c == '\U{3000}' || c == '\U{FEFF}'
  }

  /** The number of whitespace characters at the start of `s`. */
  function LeadingSpaces(s: string): (k: nat)
    ensures k <= |s|
    ensures forall i :: 0 <= i < k ==> IsJsSpace(s[i])
    ensures k < |s| ==> !IsJsSpace(s[k])
  {
    if s != [] && IsJsSpace(s[0]) then 1 + LeadingSpaces(s[1..]) else 0
  }

  /** The number of whitespace characters at the end of `s`. */
  function TrailingSpaces(s: string): (k: nat)
    ensures k <= |s|
    ensures forall i :: |s| - k <= i < |s| ==> IsJsSpace(s[i])
    ensures k < |s| ==> !IsJsSpace(s[|s| - k - 1])
  {
    if s != [] && IsJsSpace(s[|s| - 1]) then 1 + TrailingSpaces(s[..|s| - 1]) else 0
  }

  /** Cutting `s` down to `s[i..j]` removes whitespace only. */
  predicate CutsOnlySpaces(s: string, i: nat, j: nat)
    requires i <= j <= |s|
  {
    && (forall k :: 0 <= k < i ==> IsJsSpace(s[k]))
    && (forall k :: j <= k < |s| ==> IsJsSpace(s[k]))
  }

  /** `r` is a slice of `s` from which only whitespace was cut away. */
  predicate StripsSpacesOnly(s: string, r: string)
  {
    exists i: nat, j: nat :: i <= j <= |s| && r == s[i..j] && CutsOnlySpaces(s, i, j)
  }

  /** `s.trim()`: `s` without its leading and trailing whitespace (see TrimStripsSpacesOnly). */
  function Trim(s: string): (r: string)
    ensures |r| <= |s|
    ensures r == [] || (!IsJsSpace(r[0]) && !IsJsSpace(r[|r| - 1]))
  {
    var u := s[LeadingSpaces(s)..];
    u[..|u| - TrailingSpaces(u)]
  }

  /** The trim is a slice of `s`, and everything cut off on either side is whitespace. */
  lemma TrimStripsSpacesOnly(s: string)
    ensures StripsSpacesOnly(s, Trim(s))
  {
    var i := LeadingSpaces(s);
    var u := s[i..];
    var j := i + |u| - TrailingSpaces(u);
    assert forall k :: j <= k < |s| ==> s[k] == u[k - i];
    assert Trim(s) == s[i..j];
    assert CutsOnlySpaces(s, i, j);
  }

  /** A string with no whitespace at either end is its own trim. */
  lemma TrimOfTrimmed(s: string)
    requires s == [] || (!IsJsSpace(s[0]) && !IsJsSpace(s[|s| - 1]))
    ensures Trim(s) == s
  {
  }

  /** Trimming twice is trimming once. */
  lemma TrimIdempotent(s: string)
    ensures Trim(Trim(s)) == Trim(s)
  {
    TrimOfTrimmed(Trim(s));
  }

  // ---------------------------------------------------------------------
  // Prefixes, search and replace
  // ---------------------------------------------------------------------

  /** `s.startsWith(p)`. */
  predicate StartsWith(s: string, p: string)
  {
    |p| <= |s| && s[..|p|] == p
  }

  predicate OccursAt(s: string, p: string, i: int)
  {
    0 <= i && i + |p| <= |s| && s[i..i + |p|] == p
  }

  /** `p` occurs in `s` at offset `lo` or later. */
  predicate OccursFrom(s: string, p: string, lo: int)
  {
    exists i :: lo <= i <= |s| && OccursAt(s, p, i)
  }

  /** An occurrence in `t` is an occurrence in `a + t`, shifted by `|a|`. */
  lemma OccursAfterPrefix(a: string, t: string, p: string, i: int)
    requires OccursAt(t, p, i)
    ensures OccursAt(a + t, p, |a| + i)
  {
    assert (a + t)[|a| + i..|a| + i + |p|] == t[i..i + |p|];
  }

  /** `s.indexOf(p)`, with `None` for -1. */
  function IndexOf(s: string, p: string): (r: Option<nat>)
    ensures r.Some? ==> OccursAt(s, p, r.value)
    ensures r.Some? ==> forall j :: 0 <= j < r.value ==> !OccursAt(s, p, j)
    ensures r.None? ==> forall j :: 0 <= j ==> !OccursAt(s, p, j)
    decreases |s|
  {
    if |p| > |s| then None
    else if s[..|p|] == p then Some(0)
    else
      var rest := IndexOf(s[1..], p);
      assert forall j :: 0 <= j ==> (OccursAt(s, p, j + 1) <==> OccursAt(s[1..], p, j)) by {
        forall j | 0 <= j
          ensures OccursAt(s, p, j + 1) <==> OccursAt(s[1..], p, j)
        {
          if j + 1 + |p| <= |s| {
            assert s[1..][j..j + |p|] == s[j + 1..j + 1 + |p|];
          }
        }
      }
      assert !OccursAt(s, p, 0);
      assert forall j :: 1 <= j ==> (OccursAt(s, p, j) <==> OccursAt(s[1..], p, j - 1));
      match rest
      case None => None
      case Some(i) => Some(i + 1)
  }

  /** `s.replace(p, rep)` with a string pattern: only the first occurrence is replaced. */
  function ReplaceFirst(s: string, p: string, rep: string): (r: string)
  {
    match IndexOf(s, p)
    case None => s
    case Some(i) => s[..i] + rep + s[i + |p|..]
  }

  /** Replacing in a string where the pattern does not occur changes nothing. */
  lemma ReplaceFirstAbsent(s: string, p: string, rep: string)
    requires forall j :: 0 <= j ==> !OccursAt(s, p, j)
    ensures ReplaceFirst(s, p, rep) == s
  {
  }

  /** A leading occurrence is the first one, so it is the one removed. */
  lemma ReplaceFirstAtStart(s: string, p: string)
    requires StartsWith(s, p)
    ensures ReplaceFirst(s, p, "") == s[|p|..]
  {
    assert OccursAt(s, p, 0);
  }

  // ---------------------------------------------------------------------
  // split(' ')
  // ---------------------------------------------------------------------

  /** The index of the first `c` in `s`. */
  function IndexOfChar(s: string, c: char): (r: Option<nat>)
    ensures r.Some? ==> r.value < |s| && s[r.value] == c
    ensures r.Some? ==> c !in s[..r.value]
    ensures r.None? ==> c !in s
  {
    if s == [] then None
    else if s[0] == c then Some(0)
    else match IndexOfChar(s[1..], c)
      case None => None
      case Some(i) =>
        assert s[..i + 1] == [s[0]] + s[1..][..i];
        Some(i + 1)
  }

  /** `parts.join(sep)` */
  function Join(parts: seq<string>, sep: char): string
  {
    if |parts| == 0 then ""
    else if |parts| == 1 then parts[0]
    else parts[0] + [sep] + Join(parts[1..], sep)
  }

  /** `s.split(sep)` for a one-character separator. */
  function Split(s: string, sep: char): (r: seq<string>)
    ensures |r| >= 1
    ensures forall k :: 0 <= k < |r| ==> sep !in r[k]
    ensures Join(r, sep) == s
    decreases |s|
  {
    match IndexOfChar(s, sep)
    case None => [s]
    case Some(i) =>
      var rest := Split(s[i + 1..], sep);
      var r := [s[..i]] + rest;
      assert r[1..] == rest;
      assert s == s[..i] + [sep] + s[i + 1..];
      r
  }

  // ---------------------------------------------------------------------
  // Ordering
  // ---------------------------------------------------------------------

  /**
   * Code-point lexicographic order: the order MongoDB uses for `$gte`,
   * `$lte` and `sort` on strings (UTF-8 byte order agrees with it).
   */
  predicate LexLe(a: string, b: string)
  {
    |a| == 0 || (|b| > 0 && (a[0] < b[0] || (a[0] == b[0] && LexLe(a[1..], b[1..]))))
  }

  lemma {:induction false} LexLeTotal(a: string, b: string)
    ensures LexLe(a, b) || LexLe(b, a)
  {
    if |a| > 0 && |b| > 0 && a[0] == b[0] {
      LexLeTotal(a[1..], b[1..]);
    }
  }

  lemma {:induction false} LexLeReflexive(a: string)
    ensures LexLe(a, a)
  {
    if |a| > 0 {
      LexLeReflexive(a[1..]);
    }
  }

  lemma {:induction false} LexLeAntisymmetric(a: string, b: string)
    requires LexLe(a, b) && LexLe(b, a)
    ensures a == b
  {
    if |a| > 0 {
      LexLeAntisymmetric(a[1..], b[1..]);
      assert a == [a[0]] + a[1..];
      assert b == [b[0]] + b[1..];
    }
  }

  lemma {:induction false} LexLeTransitive(a: string, b: string, c: string)
    requires LexLe(a, b) && LexLe(b, c)
    ensures LexLe(a, c)
  {
    if |a| > 0 && a[0] == b[0] && b[0] == c[0] {
      LexLeTransitive(a[1..], b[1..], c[1..]);
    }
  }
}

=== FILE: validation.dfy ===
/**
 * The stand-alone validators of the Mongoose backend: the CPF mod-11
 * check-digit rule, the digit sanitisers, and the format gate of the date
 * validator.
 */
module Validation {
  import opened Base
  import opened Js
  import opened Text
  import Schema

  // ---------------------------------------------------------------------
  // CPF check digits
  // ---------------------------------------------------------------------

  /** `/^(\d)\1{10}$/` on the cleaned CPF: every digit repeats the first one. */
  predicate AllSame(d: string)
  {
    forall i :: 0 <= i < |d| ==> d[i] == d[0]
  }

  /** The weighted sum Σ_{k<n} d[k]·(top − k) of the loops of `validarCPF`. */
  function WeightedSum(d: string, n: nat, top: int): (soma: int)
    requires n <= |d| && AllDigits(d)
    requires n <= top
    ensures soma >= 0
  {
    if n == 0 then 0
    else WeightedSum(d, n - 1, top) + DigitValue(d[n - 1]) * (top - (n - 1))
  }

  /** `resto = (soma * 10) % 11`, with 10 (and 11) mapped to 0. */
  function CheckDigit(soma: int): (r: int)
    requires soma >= 0
    ensures 0 <= r <= 9
  {
    var resto := (soma * 10) % 11;
    if resto == 10 || resto == 11 then 0 else resto
  }

  /**
   * Both verifier digits agree with the weighted sums: the 10th digit with
   * weights 10..2 over the first nine, the 11th with weights 11..2 over the
   * first ten.
   */
  predicate CheckDigitsMatch(d: string)
    requires |d| == 11 && AllDigits(d)
  {
    && CheckDigit(WeightedSum(d, 9, 10)) == DigitValue(d[9])
    && CheckDigit(WeightedSum(d, 10, 11)) == DigitValue(d[10])
  }

  /** `validarCPF(cpf)` */
  function ValidarCpf(cpf: Value): (ok: bool)
    ensures ok ==> cpf.Str? && cpf.s != ""
    ensures ok ==> |Digits(cpf.s)| == 11
    ensures ok ==> !AllSame(Digits(cpf.s)) && CheckDigitsMatch(Digits(cpf.s))
  {
    match cpf
    case Str(s) =>
      if s == "" then false
      else
        var d := Digits(s);
        if |d| != 11 then false
        else if AllSame(d) then false
        else CheckDigitsMatch(d)
    case _ => false
  }

  // ---------------------------------------------------------------------
  // The textbook statement of the rule
  // ---------------------------------------------------------------------

  /**
   * The check digit as the CPF rule is usually stated: with r the remainder
   * of the weighted sum by 11, the digit is 0 when r < 2 and 11 − r otherwise.
   */
  function TextbookDigit(soma: int): (r: int)
    requires soma >= 0
    ensures 0 <= r <= 9
  {
    var rem := soma % 11;
    if rem < 2 then 0 else 11 - rem
  }

  /** A CPF under the textbook rule: eleven digits, not all equal, both check digits right. */
  predicate IsTextbookCpf(d: string)
  {
    && |d| == 11 && AllDigits(d)
    && !AllSame(d)
    && TextbookDigit(WeightedSum(d, 9, 10)) == DigitValue(d[9])
    && TextbookDigit(WeightedSum(d, 10, 11)) == DigitValue(d[10])
  }

  lemma {:induction false} ModShift(x: int, k: nat)
    requires x >= 0
    ensures (11 * k + x) % 11 == x % 11
  {
    if k > 0 {
      ModShift(x, k - 1);
      assert 11 * k + x == (11 * (k - 1) + x) + 11;
    }
  }

  /** The source's `(soma * 10) % 11` formula is the textbook `11 − soma mod 11` rule. */
  lemma CheckDigitIsTextbook(soma: int)
    requires soma >= 0
    ensures CheckDigit(soma) == TextbookDigit(soma)
  {
    var q := soma / 11;
    var rem := soma % 11;
    assert soma == 11 * q + rem;
    assert soma * 10 == 11 * (10 * q) + 10 * rem;
    ModShift(10 * rem, 10 * q);
    assert (soma * 10) % 11 == (10 * rem) % 11;
    assert 0 <= rem < 11;
    if rem == 0 {
    } else if rem == 1 {
    } else if rem == 2 {
    } else if rem == 3 {
    } else if rem == 4 {
    } else if rem == 5 {
    } else if rem == 6 {
    } else if rem == 7 {
    } else if rem == 8 {
    } else if rem == 9 {
    } else {
      assert rem == 10;
    }
  }

  /** `validarCPF` accepts exactly the CPFs of the textbook rule, after dropping non-digits. */
  lemma ValidarCpfIsTextbook(s: string)
    ensures ValidarCpf(Str(s)) <==> s != "" && IsTextbookCpf(Digits(s))
  {
    var d := Digits(s);
    if |d| == 11 {
      CheckDigitIsTextbook(WeightedSum(d, 9, 10));
      CheckDigitIsTextbook(WeightedSum(d, 10, 11));
    }
  }

  // ---------------------------------------------------------------------
  // Repeated digits
  // ---------------------------------------------------------------------

  /** With every digit equal to `c`, the weighted sum is `c` times the sum of the weights. */
  lemma {:induction false} WeightedSumRepeated(d: string, n: nat, top: int, c: char)
    requires n <= |d| && AllDigits(d) && n <= top && IsDigit(c)
    requires forall i :: 0 <= i < |d| ==> d[i] == c
    ensures 2 * WeightedSum(d, n, top) == DigitValue(c) * (2 * n * top - n * (n - 1))
  {
    if n > 0 {
      WeightedSumRepeated(d, n - 1, top, c);
      var v := DigitValue(c);
      var w := WeightedSum(d, n - 1, top);
      var x := top - (n - 1);
      var a := 2 * (n - 1) * top - (n - 1) * (n - 1 - 1);
      assert d[n - 1] == c;
      assert WeightedSum(d, n, top) == w + v * x;
      assert 2 * w == v * a;
      Double(v, x);
      Distribute(v, a, 2 * x);
      WeightsAdd(n, top);
    }
  }

  lemma WeightsAdd(n: int, top: int)
    ensures (2 * (n - 1) * top - (n - 1) * (n - 1 - 1)) + 2 * (top - (n - 1)) == 2 * n * top - n * (n - 1)
  {
    assert (n - 1) * (n - 2) == n * n - 3 * n + 2;
    assert n * (n - 1) == n * n - n;
    assert 2 * (n - 1) * top == 2 * n * top - 2 * top;
  }

  lemma Double(v: int, x: int)
    ensures 2 * (v * x) == v * (2 * x)
  {
  }

  lemma Distribute(v: int, a: int, b: int)
    ensures v * a + v * b == v * (a + b)
  {
  }

  /**
   * Every eleven-digit string whose digits are all equal passes both
   * check-digit tests, so only the repeated-digit guard rejects it.
   */
  lemma RepeatedDigitsRejected(c: char)
    requires IsDigit(c)
    ensures CheckDigitsMatch(seq(11, _ => c))
    ensures !ValidarCpf(Str(seq(11, _ => c)))
  {
    var d := seq(11, _ => c);
    var v := DigitValue(c);
    WeightedSumRepeated(d, 9, 10, c);
    WeightedSumRepeated(d, 10, 11, c);
    assert 2 * WeightedSum(d, 9, 10) == v * 108;
    assert 2 * WeightedSum(d, 10, 11) == v * 130;
    assert WeightedSum(d, 9, 10) == 54 * v;
    assert WeightedSum(d, 10, 11) == 65 * v;
    ModShift(v, 49 * v);
    ModShift(v, 59 * v);
    assert 540 * v == 11 * (49 * v) + v;
    assert 650 * v == 11 * (59 * v) + v;
    DigitsOfDigits(d);
  }

  // ---------------------------------------------------------------------
  // Sanitisers
  // ---------------------------------------------------------------------

  /**
   * `sanitizarCPF` and `sanitizarTelefone` (the two bodies are identical):
   * `''` for a falsy argument, otherwise `value.replace(/\D/g, '')`, which
   * throws a TypeError for a truthy number or boolean.
   */
  function Sanitize(v: Value): (r: Result<string, string>)
    ensures !Truthy(v) ==> r == Ok("")
    ensures r.Err? <==> Truthy(v) && !v.Str?
    ensures r.Ok? ==> AllDigits(r.value)
    ensures v.Str? ==> r.Ok? && r.value == Digits(v.s)
  {
    match v
    case Str(s) => Ok(Digits(s))
    case _ => if Truthy(v) then Err("replace is not a function") else Ok("")
  }

  /** Sanitising a sanitised string returns it unchanged. */
  lemma SanitizeIdempotent(v: Value)
    requires Sanitize(v).Ok?
    ensures Sanitize(Str(Sanitize(v).value)) == Sanitize(v)
  {
    DigitsOfDigits(Sanitize(v).value);
  }

  /** Validation sees through sanitisation: cleaning a CPF first never changes the verdict. */
  lemma ValidarCpfSanitizeInvariant(s: string)
    ensures ValidarCpf(Str(s)) == ValidarCpf(Str(Sanitize(Str(s)).value))
  {
    DigitsIdempotent(s);
  }

  // ---------------------------------------------------------------------
  // validarData
  // ---------------------------------------------------------------------

  /**
   * The format gate of `validarData`: a falsy value or one whose text does
   * not have the shape `dddd-dd-dd` is rejected before any date parsing.
   * `true` means the value goes on to the calendar check.
   */
  function DateShapeGate(data: Value): (passes: bool)
    ensures passes ==> data.Str? && Schema.DateShape(data.s)
    ensures data.Str? && Schema.DateShape(data.s) ==> passes
  {
    Truthy(data) && data.Str? && Schema.DateShape(data.s)
  }

  // ---------------------------------------------------------------------
  // Worked examples
  // ---------------------------------------------------------------------

  /** The two weighted sums of the CPF 529.982.247-25. */
  lemma ExampleSums()
    ensures AllDigits("52998224725")
    ensures WeightedSum("52998224725", 9, 10) == 295
    ensures WeightedSum("52998224725", 10, 11) == 347
  {
    var d := "52998224725";
    assert WeightedSum(d, 1, 10) == 50;
    assert WeightedSum(d, 2, 10) == 68;
    assert WeightedSum(d, 3, 10) == 140;
    assert WeightedSum(d, 4, 10) == 203;
    assert WeightedSum(d, 5, 10) == 251;
    assert WeightedSum(d, 6, 10) == 261;
    assert WeightedSum(d, 7, 10) == 269;
    assert WeightedSum(d, 8, 10) == 281;
    assert WeightedSum(d, 1, 11) == 55;
    assert WeightedSum(d, 2, 11) == 75;
    assert WeightedSum(d, 3, 11) == 156;
    assert WeightedSum(d, 4, 11) == 228;
    assert WeightedSum(d, 5, 11) == 284;
    assert WeightedSum(d, 6, 11) == 296;
    assert WeightedSum(d, 7, 11) == 306;
    assert WeightedSum(d, 8, 11) == 322;
    assert WeightedSum(d, 9, 11) == 343;
  }

  /** The digits of a CPF written `ddd.ddd.ddd-dd` are its eleven digits in order. */
  lemma DigitsOfFormattedCpf(a: string, b: string, c: string, e: string)
    requires AllDigits(a) && AllDigits(b) && AllDigits(c) && AllDigits(e)
    ensures Digits(a + ['.'] + (b + ['.'] + (c + ['-'] + e))) == a + (b + (c + e))
  {
    var t1 := c + ['-'] + e;
    var t2 := b + ['.'] + t1;
    DigitsSkipSeparator(c, '-', e);
    DigitsSkipSeparator(b, '.', t1);
    DigitsSkipSeparator(a, '.', t2);
    DigitsOfDigits(a);
    DigitsOfDigits(b);
    DigitsOfDigits(c);
    DigitsOfDigits(e);
  }

  lemma ValidExampleDigits()
    ensures Digits("529.982.247-25") == "52998224725"
  {
    DigitsOfFormattedCpf("529", "982", "247", "25");
    assert "529" + ("982" + ("247" + "25")) == "52998224725";
    assert "529" + ['.'] + ("982" + ['.'] + ("247" + ['-'] + "25")) == "529.982.247-25";
  }

  lemma InvalidExampleDigits()
    ensures Digits("529.982.247-26") == "52998224726"
  {
    DigitsOfFormattedCpf("529", "982", "247", "26");
    assert "529" + ("982" + ("247" + "26")) == "52998224726";
    assert "529" + ['.'] + ("982" + ['.'] + ("247" + ['-'] + "26")) == "529.982.247-26";
  }

  lemma ExampleNotRepeated()
    ensures !AllSame("52998224725") && !AllSame("52998224726")
  {
    var d := "52998224725";
    assert d[1] != d[0];
    var e := "52998224726";
    assert e[1] != e[0];
  }

  lemma ExampleCheckDigits()
    ensures CheckDigit(295) == 2 && CheckDigit(347) == 5
  {
  }

  /** Example: one formatted valid CPF, worked digit by digit, is accepted. */
  lemma ValidCpfExample()
    ensures ValidarCpf(Str("529.982.247-25"))
  {
    ValidExampleDigits();
    ExampleNotRepeated();
    ExampleMatches();
    AcceptedByDigits("529.982.247-25", "52998224725");
  }

  lemma ExampleMatches()
    ensures AllDigits("52998224725") && CheckDigitsMatch("52998224725")
  {
    ExampleSums();
    ExampleCheckDigits();
    MatchesBySums("52998224725", 295, 347);
  }

  lemma MatchesBySums(d: string, s9: nat, s10: nat)
    requires |d| == 11 && AllDigits(d)
    requires WeightedSum(d, 9, 10) == s9 && WeightedSum(d, 10, 11) == s10
    requires CheckDigit(s9) == DigitValue(d[9]) && CheckDigit(s10) == DigitValue(d[10])
    ensures CheckDigitsMatch(d)
  {
  }

  lemma AcceptedByDigits(s: string, d: string)
    requires s != "" && Digits(s) == d && |d| == 11
    requires !AllSame(d) && CheckDigitsMatch(d)
    ensures ValidarCpf(Str(s))
  {
  }

  /** Example: the same CPF with its last check digit changed is rejected. */
  lemma WrongCheckDigitExample()
    ensures !ValidarCpf(Str("529.982.247-26"))
  {
    InvalidExampleDigits();
    ExampleNotRepeated();
    WrongExampleSum();
    ExampleCheckDigits();
  }

  lemma WrongExampleSum()
    ensures AllDigits("52998224726")
    ensures WeightedSum("52998224726", 10, 11) == 347
  {
    var e := "52998224726";
    assert AllDigits(e);
    assert WeightedSum(e, 1, 11) == 55;
    assert WeightedSum(e, 2, 11) == 75;
    assert WeightedSum(e, 3, 11) == 156;
    assert WeightedSum(e, 4, 11) == 228;
    assert WeightedSum(e, 5, 11) == 284;
    assert WeightedSum(e, 6, 11) == 296;
    assert WeightedSum(e, 7, 11) == 306;
    assert WeightedSum(e, 8, 11) == 322;
    assert WeightedSum(e, 9, 11) == 343;
  }
}
